=== FILE: README.md ===
# topos core in Dafny

This project models the mesh kernel of the topos package (`topos/core`). The kernel has these parts:

- **Generators.** These lay out planar and cylindrical vertex grids and stitch them together with quad faces, using 1-based vertex indices.
- **Vertex arrays.** An `(n, 3)` buffer tagged Cartesian or Cylindrical. A cylindrical row is stored as `(θ, z, r)`. The buffer supports:
  - shape validation and length;
  - concatenation and translation under `+`;
  - `copy`;
  - multi-axis projection `va[key]`;
  - per-axis setters;
  - `fmt`.
- **Face arrays.** Validated integer `(n, k)` buffers: `Quads` has `k = 4` and `Tris` has `k = 3`.
- **Geometries.**
  - `Mesh` is a container with a default name.
  - `WorldView` places another geometry at a position, using numpy broadcasting.
  - `Scale` is a vertex transform applied through `geometry >> transform`.
- **Formats.**
  - OBJ and JSON text assembled from `fmt`.
  - A JSON loader that works over an already-parsed record.

Modules:

| module | file | models |
|---|---|---|
| `Errors`, `Wrappers` | errors.dfy | raised exceptions as `Result` values; optional and typed arguments |
| `Text` | text.dfy | `str.join`, `str.split`, `str.format` over `{}` and named fields with positional arguments, integer numerals |
| `Arrays` | arrays.dfy | numpy arrays as a shape plus row-major elements; `np.linspace` over the reals |
| `Vertices` | vertices.dfy | `VertexArray`, `Cartesian`, `Cylindrical` |
| `Faces` | faces.dfy | `FaceArray`, `Quads`, `Tris` |
| `Generators` | generators.dfy | `planar_vertices`, `planar_faces`, `cylindrical_vertices`, `cylindrical_faces` |
| `Views` | views.dfy | the world view's position check and broadcast sum |
| `Geometries` | geometry.dfy | `Geometry`, `Mesh`, `WorldView` |
| `Transforms` | transforms.dfy | `VertexTransform.__rrshift__`, `Scale`, `scale` |
| `Formats` | io.dfy | `DataFormat.dumps`, `ObjFormat`, `JsonFormat` |
| `Buffers` | buffers.dfy | the in-place buffer behind a vertex array: setters, `copy`, scaling a copy |

Some computations have no exact model. They become parameters:

- Floating-point trigonometry, square roots and division form a `FloatMath` record of functions.
- The rendering of a float inside `str.format` is `show: real -> Word`.
- numpy's `str` of a position array is `showArray`.

So every statement about them is a statement about where values are read from and written to, never a numerical identity. Raised exceptions become `Err` values of `Errors.Error`. Each constructor names the condition detected, not the Python exception class.

## Model

| member | source | states |
|---|---|---|
| Arrays.Linspace | topos/core/generators.py:50-51 | `np.linspace`: a negative count is rejected, otherwise exactly `num` samples, the first equal to `start`, and the last equal to `stop` when the endpoint is included and `num > 1` |
| Arrays.LinspaceEvenlySpaced | topos/core/generators.py:50-51 | the samples are evenly spaced: consecutive samples differ by `(stop - start) / div`, where `div` is `num - 1` with the endpoint and `num > 1`, and `num` otherwise |
| Arrays.LinspaceIncreasing | topos/core/generators.py:121 | samples strictly increase for `start < stop`, so they are distinct |
| Arrays.LinspaceBounds | topos/core/generators.py:120-121 | every sample lies in `[start, stop]`, and strictly below `stop` when the endpoint is excluded |
| Generators.PlanarVertices | topos/core/generators.py:27-60 | fails exactly for a negative `N`; otherwise `N²` rows |
| Generators.GridLayout | topos/core/generators.py:52-60 | meshgrid plus reshape: point `i` of row `j` is row `j·len(xs) + i`; conversely row `k` pairs `xs[k mod len(xs)]` with `ys[k div len(xs)]` |
| Generators.PlanarVerticesGrid | topos/core/generators.py:50-60 | planar vertex `j·N + i` is `(xs[i], ys[j], 0)` |
| Generators.PlanarVerticesLayout | topos/core/generators.py:50-56 | planar vertex `k` has `x = xs[k mod N]`, `y = ys[k div N]` and `z = 0` |
| Generators.PlanarVerticesBounds | topos/core/generators.py:50-51 | every `x` lies in `[xmin, xmax]` and every `y` in `[ymin, ymax]` |
| Generators.PlanarVerticesRange | topos/core/generators.py:50-51 | for `N > 1` the first row runs from `xmin` to `xmax`, and `y` runs from `ymin` (first vertex) to `ymax` (last vertex) |
| Generators.CylindricalVertices | topos/core/generators.py:112-129 | a non-`int` `N_theta` (bool counts as int) and `N_theta < 1` raise, in that order; a negative `N_z` is rejected by linspace; otherwise `N_theta · N_z` rows |
| Generators.CylindricalVerticesGrid | topos/core/generators.py:120-129 | vertex `j·N_θ + i` is `(ts[i], zs[j], r)`, with the θ endpoint included iff `theta_max < 2π` |
| Generators.CylindricalVerticesLayout | topos/core/generators.py:124-129 | every third component is `r`; vertex `k` takes θ from sample `k mod N_θ` and `z` from sample `k div N_θ` |
| Generators.CylindricalThetaDefaults | topos/core/generators.py:68-69 | with the default range there are `N_θ` distinct increasing angles starting at 0, every angle is one of them, and all are below `2π` |
| Generators.CylindricalThetaRange | topos/core/generators.py:120-121 | a range short of a full turn includes both ends, and every angle lies within it |
| Generators.CylindricalZRange | topos/core/generators.py:122 | heights run from `zmin` (first vertex) to `zmax` (last vertex) |
| Generators.QuadsOfFaceData | topos/core/generators.py:182 | `Quads(np.array(faces))` accepts exactly a non-empty face list and keeps its faces in order; the empty list is rejected for its shape |
| Generators.CylindricalFaces | topos/core/generators.py:154-182 | the loop appends, in order, the faces of the row-by-row table |
| Generators.CylindricalFaceCount | topos/core/generators.py:156-160 | `len(range(0, N_z-1)) · len(range(1, N_θ + close_loop))` faces; face `c` of row `j` is the loop's face for column `c + 1` |
| Generators.CylindricalDocumentedCount | topos/core/generators.py:148-151 | the documented count `(N_θ-1)(N_z-1)` holds exactly when the loop is not closed |
| Generators.CylindricalFaceCorners | topos/core/generators.py:166-177 | the left corners are never moved; both right corners are pulled back by exactly `N_θ-1`, together, exactly when `i+1 >= N_θ`; so `ul-ll = ur-lr = N_θ` |
| Generators.CylindricalFaceBounds | topos/core/generators.py:166-177 | for `N_θ >= 2` every index lies in `1 … N_θ·N_z` |
| Generators.PlanarFaces | topos/core/generators.py:209-220 | the face array: `dstack` of empty corner lists gives a float `(0, 4)` array, otherwise the integer `(n, 4)` array of the faces |
| Generators.ReferencePlanarFaces | tests/test_generators.py:63-78 | the nested-loop reference appends the faces of its row-by-row table in order |
| Generators.KeptRows | topos/core/generators.py:213 | the kept lower-left corners below `j·N` are the corner rows `0 … j-1` laid end to end |
| Generators.PlanarMatchesReference | topos/core/generators.py:209-220 | for `N > 1` the vectorised faces equal the nested-loop reference's, in order |
| Generators.PlanarFaceCount | topos/core/generators.py:205-206 | for `N > 1` there are `(N-1)²` faces |
| Generators.PlanarFaceCorners | topos/core/generators.py:213-218 | `lr-ll = 1`, `ur-ul = 1`, `ul-ll = N`, `ur-lr = N`, and for `N > 1` all indices lie in `1 … N²` |
| Generators.PlanarFacesAsQuads | topos/core/generators.py:209-220 | `Quads(planar_faces(N))` succeeds exactly for `N > 1`; for `N` of 0 or 1 the empty float array fails the integer check |
| Generators.CylindricalFoldCounterexample | topos/core/generators.py:173-177 | as written, the second face of an open 3-column tube joins column 2 back to column 1, and the closing face of a closed tube lands on column 2 |
| Generators.WrappedFaceShape | topos/core/generators.py:166-180 | with the wrap applied only past the last column, `ul-ll = ur-lr = N_θ`, neighbours are adjacent, the closing face joins the last column to the first, and every index is in range for any `N_θ >= 1` |
| Generators.WrappedOpenIsPlanar | topos/core/generators.py:136-139 | without the closing face, the wrapped faces of an `N × N` tube are exactly the planar faces |
| Generators.WrappedFoldExample | topos/core/generators.py:173-177 | the wrapped faces of the counterexample's tubes join column 2 to 3, and close 3 to 1 |
| Vertices.FromValue | topos/core/vertices.py:198-210 | accepts exactly an ndarray of shape `(n, 3)`; a non-array and a bad shape raise; the rows are the array's cells |
| Vertices.FromToArray | topos/core/vertices.py:198-210 | constructing from the array of some rows gives exactly those rows back |
| Vertices.ReprCount | topos/core/vertices.py:215-223 | `"<System> Array: "`, then a count that parses back to the length, then `vertex` exactly when the length is 1 |
| Vertices.View | topos/core/vertices.py:490-552 | the native view is the buffer itself, and `z` is carried unconverted between the two layouts |
| Vertices.NativeColumn | topos/core/vertices.py:292-330 | an axis has a stored column exactly when its getter reads the array's own system (or it is `z`) |
| Vertices.Coordinate | topos/core/vertices.py:292-330 | a natively stored axis is read straight from its column |
| Vertices.SetAxis | topos/core/vertices.py:465-536 | columns outside the written set keep their values; a native axis gets the values verbatim; the foreign Cartesian setters write the converted coupled pair from the previous other coordinate; the cylindrical `x`/`y` setters store the angle `atan2` of the new Cartesian point and the radius `x / cos(theta)` or `y / sin(theta)` |
| Vertices.Assign | topos/core/vertices.py:352-362 | accepts exactly an ndarray of shape `(length,)` (else NotAnArray / BadShape) and then runs the setter |
| Vertices.NativeSetThenGet | topos/core/vertices.py:465-472 | writing a native axis and reading it back gives the values written |
| Vertices.NativeSetKeepsOthers | topos/core/vertices.py:529-536 | writing one native axis leaves every other native axis unchanged |
| Vertices.SetKeepsZ | topos/core/vertices.py:474-488 | no setter except `z`'s changes the `z` column, including the coupled foreign setters |
| Vertices.NativeSetsCommute | topos/core/vertices.py:465-472 | writes to two different native axes commute |
| Vertices.Add | topos/core/vertices.py:225-251 | another vertex array gives its rows FIRST then ours, in our system; a shape-`(3,)` array shifts every row; other shapes and types raise |
| Vertices.Translate | topos/core/vertices.py:248 | every row is shifted by the vector and the length is kept |
| Vertices.AddAssociative | topos/core/vertices.py:231-237 | concatenation of arrays of one system is associative |
| Vertices.TranslateDistributes | topos/core/vertices.py:231-248 | translating a concatenation equals concatenating the translated parts |
| Vertices.TranslateConcat | topos/core/vertices.py:248 | translating the rows `x + y` gives the translated rows of `x` followed by those of `y` |
| Vertices.ItemAxis | topos/core/vertices.py:339-345 | a key item names an axis exactly when it is a single letter of `xyzrt` |
| Vertices.ItemAxes | topos/core/vertices.py:339-345 | the loop succeeds exactly when every item does, giving the axes in order |
| Vertices.Project | topos/core/vertices.py:332-350 | a non-iterable key raises; a string key succeeds exactly for a non-empty word over `xyzrt`, and any other iterable key exactly when it is non-empty and every item is one such letter; for either kind of key, entry `(k, j)` is row `k` of the getter for item `j`, with repeats allowed, so `va['x', 'z']` and `va['xz']` agree |
| Vertices.ProjectItemsAsString | topos/core/vertices.py:140-150 | a key of one-letter strings projects exactly like the string of those letters, error or result, as in `cs['x', 'z']` and `cs['xz']` |
| Vertices.ProjectStoredColumns | topos/core/vertices.py:332-350 | three letters naming stored columns 0, 1, 2 project to the buffer itself |
| Vertices.ProjectNativeOrder | topos/core/vertices.py:332-350 | `["xyz"]` of a Cartesian array and `["tzr"]` of a cylindrical one are their buffers |
| Vertices.Fmt | topos/core/vertices.py:393-417 | prefix, then the Cartesian rows formatted and joined by `sep` (no trailing separator), then suffix; once there is a row, a named field raises `KeyError` and a fourth `{}` before it raises `IndexError` |
| Vertices.NamedFieldRaises | topos/core/vertices.py:407-408 | the documented `KeyError`: `fmt("{x}")` raises for every non-empty vertex array |
| Vertices.FmtVertexLines | topos/core/vertices.py:413-417 | with three fields, line `k` is the lead, row `k`'s rendered components joined, then the trail |
| Faces.FromValue | topos/core/faces.py:14-31 | non-array, then shape `(n, num_sides)`, then integer element type, checked in that order; the rows are the array's |
| Faces.ToValue | topos/core/faces.py:79-81 | a face array stores an integer `(length, num_sides)` array |
| Faces.FromToValue | topos/core/faces.py:14-31 | validation accepts the stored array of a face array and rebuilds the same rows |
| Faces.ReprCount | topos/core/faces.py:36-45 | `"<Name> Array: "`, a count that parses back to the length, and `face` exactly when there is one face |
| Faces.Fmt | topos/core/faces.py:47-72 | prefix + the formatted faces joined by `sep` + suffix, with no trailing separator; once there is a face, a named field raises `KeyError` and more `{}` fields than sides before it raise `IndexError` |
| Faces.FmtFaceLines | topos/core/faces.py:68-72 | with `num_sides` fields, line `k` is lead + face `k`'s indices joined + trail |
| Faces.Rendered | topos/core/faces.py:69 | each index rendered as its decimal numeral, row by row |
| Text.IntText | topos/core/faces.py:69 | an integer's numeral starts with `-` exactly when it is negative |
| Text.ParseIntText | topos/core/faces.py:69 | every integer's numeral parses back to the integer |
| Text.Format | topos/core/faces.py:61-69 | `str.format(*args)` fills fields left to right: `IndexError` when a `{}` comes after the last argument, `KeyError` at the first named field, success exactly when every field is `{}` and there are enough arguments |
| Text.FormatFields | topos/core/io.py:74-75 | a format string of `k` fields separated by `sep` fills to lead + the arguments joined by `sep` + trail |
| Text.FormatBlock | topos/core/faces.py:68-72 | `prefix + sep.join(formatted rows) + suffix` when every row formats |
| Text.CountedReadsBack | topos/core/faces.py:39-43 | `"{} face"` / `"{} faces"` splits into a numeral that parses back to the count and the singular word exactly for 1 |
| Views.WorldRows | topos/core/views.py:41-43 | numpy broadcasting of `(n, 3) + position`: a 0-d position keeps the count; a `(k,)` one succeeds exactly for `k` in {1, 3} and then shifts every row by the stretched vector; a `(a, b)` one succeeds exactly under the 2-D rule, with `a` possibly changing the vertex count; more dimensions always fail |
| Views.WorldRowsTranslate | topos/core/views.py:41-43 | for a `(3,)` position the broadcast sum equals the vertex-array sum `Cartesian(rows) + position` |
| Views.WorldRowsAtOrigin | topos/core/views.py:29 | at the default position the world rows are the rows themselves, over exact reals (up to float `==` in IEEE terms, see Left out) |
| Views.CheckPosition | topos/core/views.py:53-63 | as written: non-arrays raise; a 0-d array raises on `shape[0]`; otherwise only arrays that are neither 1-D nor 3 long in their first dimension are rejected |
| Views.CheckPositionIntended | topos/core/views.py:61 | the check its message states: exactly shape `(3,)` passes |
| Views.IntendedCheckNarrows | topos/core/views.py:60-61 | the intended check accepts exactly the written one's shape-`(3,)` arrays, with the same result |
| Views.IntendedPositionTranslates | topos/core/views.py:38-43 | every position the intended check accepts keeps the vertex count and shifts every row |
| Views.PositionCheckCounterexample | topos/core/views.py:60 | the written check lets `(3, 3)` (one vertex becomes three) and `(5,)` (never broadcastable) through; the intended one rejects both |
| Geometries.SetName | topos/core/geometry.py:51-59 | only a string is stored, anything else raises |
| Geometries.SetNameThenGet | topos/core/geometry.py:42-59 | after setting a string the getter returns it, and nothing else changes |
| Geometries.NewMesh | topos/core/geometry.py:137-150 | a mistyped vertices argument raises first, then a mistyped faces argument; otherwise the arguments are stored as given, the name unchecked |
| Geometries.VerticesOf | topos/core/views.py:38-43 | a mesh returns what it stores; a world view over nothing or over missing vertices raises, and otherwise returns a Cartesian array |
| Geometries.FacesOf | topos/core/views.py:45-47 | a mesh's own faces, passed through every world view in a chain; a view over nothing raises |
| Geometries.CheckGeometry | topos/core/views.py:69-75 | `None` and geometries are stored, anything else raises |
| Geometries.NewWorldView | topos/core/views.py:27-30 | geometry, position and name setters in that order, defaulting to `[0, 0, 0]` and `"WorldView:"` |
| Geometries.SetPosition | topos/core/views.py:53-63 | the position setter stores exactly what the check accepts and changes nothing else |
| Geometries.WorldViewAtOrigin | topos/core/views.py:27-47 | a default world view reports the wrapped geometry's Cartesian vertices unchanged over exact reals (up to float `==`, see Left out), its faces, and the name `"WorldView:"` |
| Geometries.WorldViewTranslates | topos/core/views.py:38-43 | for a `(3,)` position the view's vertices are a new Cartesian array of the same length, row `k` being the geometry's Cartesian row `k` plus the position |
| Geometries.NestedViewsShiftTwice | topos/core/views.py:38-43 | a view of a view shifts each row by both positions |
| Geometries.ViewsShareFaces | topos/core/views.py:45-47 | a world view reports its geometry's faces unchanged |
| Geometries.ReprHook | topos/core/views.py:32-36 | nothing for a mesh; the geometry-name and position lines for a world view, raising when there is no geometry |
| Geometries.MeshReprLines | topos/core/geometry.py:69-80 | a mesh's repr is its name line and then `Vertices: n` and `Faces: m`, each only when present |
| Geometries.WorldViewReprLines | topos/core/geometry.py:69-80 | a world view's repr is its name, geometry and position lines, then the wrapped mesh's counts |
| Transforms.Scaled | topos/core/transforms.py:61 | `values * factor` multiplies every entry |
| Transforms.ScaleAxis | topos/core/transforms.py:56-61 | without a factor nothing changes; with one, a native column is multiplied by it and the columns the setter does not write are kept |
| Transforms.ScaleAxisAssigns | topos/core/transforms.py:60-61 | the product always passes the setter's shape check, so a step is the setter applied to the scaled getter values |
| Transforms.Transform | topos/core/transforms.py:54-63 | the five steps keep the system and the length |
| Transforms.NoFactorsIsIdentity | topos/core/transforms.py:54-63 | with every factor unset the vertices are unchanged |
| Transforms.ScaleAxisRow | topos/core/transforms.py:58-61 | one native step rewrites exactly that column of a row |
| Transforms.ScaleCartesianRows | topos/core/transforms.py:54-63 | on a Cartesian array, `x`, `y`, `z` factors scale each row componentwise |
| Transforms.ScaleCylindricalRows | topos/core/transforms.py:54-63 | on a cylindrical array, `r` and `t` factors scale the `r` and `θ` columns and keep `z` |
| Transforms.ScaleHeight | topos/core/transforms.py:54-63 | a `z` factor scales the `z` column in either system and keeps the other two |
| Transforms.Rshift | topos/core/transforms.py:14-21 | a non-geometry raises; missing vertices raise; otherwise the result is a mesh with vertices |
| Transforms.RshiftKeepsFacesAndName | topos/core/transforms.py:19-21 | the new mesh holds the transformed vertices, the source's faces object and its name, `"Geometry"` when unset |
| Transforms.RshiftIdentity | topos/core/transforms.py:14-21 | a no-factor scale gives back a mesh with the same vertices and faces, the name made explicit |
| Buffers.Flatten | topos/core/vertices.py:198-210 | the row-major buffer: cell `i` is column `i mod 3` of row `i div 3` |
| Buffers.Rows | topos/core/vertices.py:198-210 | row `k` of a `3n`-cell buffer is cells `3k`, `3k+1`, `3k+2` |
| Buffers.RowsOfFlatten | topos/core/vertices.py:198-210 | reading the rows of a flattened buffer gives the rows back |
| Buffers.FlattenOfRows | topos/core/vertices.py:198-210 | flattening a buffer's rows gives its cells back |
| Buffers.FlattenUpdate | topos/core/vertices.py:466 | replacing one row changes exactly its three cells |
| Buffers.Buffer.Wrap | topos/core/vertices.py:198-210 | the constructor keeps the caller's storage itself: the buffer's cells are the given array, not a copy |
| Buffers.Buffer.Load | topos/core/io.py:138 | `Cartesian(np.array(rows))`: fresh storage whose contents are exactly the given vertex array |
| Buffers.Buffer.Copy | topos/core/vertices.py:258-261 | `copy()` yields new storage holding the same vertex array |
| Buffers.Buffer.SetAxisInPlace | topos/core/vertices.py:465-536 | the in-place row loop leaves the buffer holding exactly what the functional setter computes |
| Buffers.Buffer.ScaleInPlace | topos/core/transforms.py:58-61 | one in-place scaling step equals the functional step |
| Buffers.Buffer.TransformInPlace | topos/core/transforms.py:54-63 | `Scale.transform` in place equals the functional transform |
| Buffers.TransformedCopy | topos/core/transforms.py:19 | the copy is transformed and the source buffer is left unchanged |
| Formats.Dumps | topos/core/io.py:39-48 | a non-geometry raises before anything is written; otherwise the format's dump |
| Formats.ObjLoad | topos/core/io.py:86-87 | OBJ loading always raises |
| Formats.DumpVertices | topos/core/io.py:70-71 | `vertices.fmt(...)` succeeds exactly when the geometry has vertices, raising for missing ones; the text is the prefix, one laid-out line per Cartesian row joined by the separator, then the suffix |
| Formats.DumpFaces | topos/core/io.py:73-75 | `faces.fmt(...)` with one field per side succeeds exactly when the geometry has faces, raising for missing ones; the text is the block of the faces' index lines |
| Formats.ObjDump | topos/core/io.py:77-84 | name part, then vertex part, then face part; the vertex error wins |
| Formats.ObjVertexPart | topos/core/io.py:70-71 | the vertex part is one `v` line per Cartesian vertex, each terminated by a newline |
| Formats.ObjFacePart | topos/core/io.py:73-75 | the face part is one `f` line per face, each terminated by a newline |
| Formats.ObjDumpLines | topos/core/io.py:67-84 | the dump reads back as the lines `o <name>`, the `v` lines in order, then the `f` lines in order |
| Formats.FaceLineReadsBack | topos/core/io.py:73-75 | an `f` line splits into `f` and one numeral per index, each parsing back to the index |
| Formats.EmptyBlock | topos/core/io.py:68-102 | an empty array writes only prefix and suffix: a lone newline in OBJ, `[]` in JSON |
| Formats.JsonBlock | topos/core/io.py:95-114 | a block laid out with the JSON arguments is a list of lists |
| Formats.JsonFacesText | topos/core/io.py:104-114 | the faces text is `[` + one `[i, j, …]` per face joined by `, ` + `]` |
| Formats.JsonVerticesText | topos/core/io.py:95-102 | the vertex text is `[` + one `[x, y, z]` per Cartesian vertex joined by `, ` + `]` |
| Formats.JsonDump | topos/core/io.py:117-126 | the template filled with the quoted name and the two array texts; a vertex error wins |
| Formats.JsonLoad | topos/core/io.py:128-141 | a missing `vertices` field raises, then a missing `faces` field; vertices are Cartesian and faces always Quads; a missing name becomes `"<json_mesh>"`, a `null` one leaves the mesh reporting `"Geometry"` |
| Formats.JsonRoundTrip | topos/core/io.py:117-141 | loading the record of a dumped quad mesh with vertices, faces and a name needing no escape gives back its Cartesian vertices, faces and name |
| Formats.JsonTrianglesDoNotLoad | topos/core/io.py:139-140 | a dumped triangle mesh does not load back, because the loader always builds quads |
| Formats.JsonNoFacesDoNotLoad | topos/core/io.py:104-140 | a mesh with no faces dumps `[]` for them, which `np.array` reads as shape `(0,)` and the quad constructor rejects on reload |
| Formats.JsonNoVerticesDoNotLoad | topos/core/io.py:95-139 | a mesh with no vertices dumps `[]` for them, which `np.array` reads as shape `(0,)` and `Cartesian` rejects on reload |

## Left out

- `_coord_set_fn` (`topos/core/vertices.py:364-378`) is left out. It relies on parameter introspection from an external library and on `np.vectorize`, so the setter takes only arrays. `Vertices.Assign` reports any non-array as NotAnArray.
- Trigonometry, square roots and IEEE division are parameters (`FloatMath`). Nothing numerical is proved about the conversions or the foreign setters, only which columns they read and write.
- Float-to-text rendering inside `str.format` is the parameter `show`, and numpy's `str` of an array is `showArray`.
- Vertex arithmetic is over exact reals: `linspace`, the `+` of a translation (`Vec3.Plus`, `Vertices.Translate`, the world-view sum), the `*` of `Transforms.Scaled` and the products inside the coordinate conversions. There is no rounding, no NaN or infinity (such as `xs / np.cos(ts)` at an angle where the cosine is zero), and no signed zero. Every equation between computed coordinates therefore holds up to IEEE `==` at best, not bit for bit or as rendered text.
- Views.WorldRowsAtOrigin: `x + 0.0 == x` holds over the reals. In IEEE arithmetic `-0.0 + 0.0` is `+0.0`, so a vertex `(-0.0, 0.0, 0.0)` renders as `-0.0` in the mesh but `0.0` through a default world view; the rows agree only up to float `==`.
- Geometries.WorldViewAtOrigin: the same signed-zero caveat. The view's vertices equal the geometry's only up to float `==`.
- Object identity and sharing are left out. Geometries, vertex arrays and face arrays are values. In the source, `Mesh` keeps the caller's arrays (`topos/core/geometry.py:148-150`), `WorldView` keeps its geometry and position by reference (`topos/core/views.py:53-75`), and the vertex-array constructor keeps the caller's ndarray (`topos/core/vertices.py:210`). So a later change to a mesh, such as a new name, shows through every view of it, and the model cannot express this. Within `Buffers`, `Buffers.Buffer.Wrap` keeps the caller's storage and `Buffers.Buffer.Load` builds fresh storage.
- File I/O is left out: `DataFormat.load`/`dump` (`topos/core/io.py:22-37`) and `Geometry.save` (`topos/core/geometry.py:94-105`).
- `json.loads` is left out. The JSON loader takes a `JsonRecord`: each array field is present or absent, each array is as `np.array` would build it (the text `[]` as the empty float array of shape `(0,)`), and the name field is missing, `null` or a value. `Formats.JsonRoundTrip` relates the dump to the record through `DumpedRecord`, not by parsing the text.
- Formats.JsonRoundTrip: holds only for names without a double quote, backslash or control character (`PlainJsonText`). `'"{}"'.format(name)` does not escape such names, and since `json.loads` is not modelled, the model does not say what they read back as (invalid JSON, an early end of the string, or an escape).
- Text.Format: only `{}` and `{name}` fields are modelled. Numbered fields (`{0}`), attribute and index fields, conversions, format specs (`{:.3f}`) and the `{{`/`}}` escapes are not; the format strings the kernel itself writes use only `{}`.
- Vertices.Fmt: inherits the format-string limits of `Text.Format`.
- Faces.Fmt: inherits the format-string limits of `Text.Format`.
- `np.array` of ragged or non-numeric JSON lists is left out: the record holds well-formed arrays only.
- Vertex arrays with an integer element type are not modelled. Their truncating writes and integer rendering are left out, and vertex buffers hold reals only.
- `Scale` factors that are arrays rather than numbers are left out: a factor is an optional real.
- `Displace` (`topos/core/transforms.py:24-38`) and `EdgeView` (`topos/core/views.py:78-79`) are left out. The first's `transform` takes no `self` and does nothing; the second is empty.
- The error classes and their `annotate` context managers come from an external library and are left out. Errors are a plain datatype.
- The legacy modules `topos/vertices.py`, `topos/mesh.py` and `topos/errors.py` are a superseded revision and are not part of this model.
- A world view whose geometry is some other `Geometry` subclass is left out: a geometry is a `Mesh` or a `WorldView`.
- `scale(...)` simply returns `Scale(...)`, so the `Transforms.Scale` datatype stands for both.
- Transforms.ScaleCylindricalRows: covers the `r` and `t` factors only. On a cylindrical array, `z` is read through the Cartesian view and written back; `Transforms.ScaleHeight` states that step on its own.
- Transforms.Transform: its contract states only system and length. The row-level effect is stated by `Transforms.ScaleCartesianRows`, `Transforms.ScaleCylindricalRows` and `Transforms.ScaleHeight`.
- Buffers.Buffer.Copy: the storage independence of `copy()` is stated with `fresh`, and the unchanged source in `Buffers.TransformedCopy` with `old`.

## Findings

| source | as written | input that shows it | evidently intended | confidence | as-written member | corrected member |
|---|---|---|---|---|---|---|
| topos/core/generators.py:173-177 | the right-hand corners fold back when `lower_right >= (j+1)·N_theta`, which already holds for column `i = N_theta - 1` | `cylindrical_faces(3, 2, False)` gives the face `(2, 1, 4, 5)` instead of `(2, 3, 6, 5)`; with `close_loop=True` the closing face is `(3, 2, 5, 6)` instead of `(3, 1, 4, 6)` | fold only past the last column (`i = N_theta`), so that the open tube has the planar layout and the closing face joins the last column to the first | high; not executed | Generators.CylindricalFoldCounterexample | Generators.WrappedFaceShape |
| topos/core/views.py:60 | the position check rejects only when `len(shape) != 1 and shape[0] != 3` | position `np.zeros((3, 3))` passes and turns a one-vertex geometry into three world vertices; `np.zeros(5)` passes and no vertex array can then be added to it | reject unless the shape is `(3,)` (`or`), as the error message says | high; not executed | Views.PositionCheckCounterexample | Views.CheckPositionIntended |

The corrected face layout is `Generators.WrappedFace`. `Generators.WrappedOpenIsPlanar` proves that the open tube then has the planar layout, and `Generators.WrappedFoldExample` gives the corrected faces for the counterexample's input. `Views.IntendedPositionTranslates` proves that every position the corrected check accepts translates the vertices.

=== FILE: arrays.dfy ===
/** The slice of numpy the kernel relies on: n-dimensional arrays (shape plus
    row-major elements, integer- or float-typed) and `linspace`.
    Arithmetic is over `real`: floating-point rounding is not modelled.
 */
module Arrays {
  import opened Errors

  /** The elements of an array, flattened in row-major order; the constructor
      is the element type (an integer type or a floating type). */
  datatype Elems = Ints(ints: seq<int>) | Floats(reals: seq<real>) {

    function Count(): nat {
      if Ints? then |ints| else |reals|
    }

    /** Element `k` as a number (integers read as reals). */
    function At(k: nat): real
      requires k < Count()
    {
      if Ints? then ints[k] as real else reals[k]
    }
  }

  function Product(shape: seq<nat>): nat {
    if |shape| == 0 then 1 else shape[0] * Product(shape[1..])
  }

  datatype NdArray = NdArray(shape: seq<nat>, elems: Elems)

  /** A numpy array: as many elements as its shape holds. */
  type Array = a: NdArray | a.elems.Count() == Product(a.shape) witness NdArray([0], Floats([]))

  /** Any Python object passed where the source tests for `np.ndarray`. */
  datatype Value = Nd(arr: Array) | NotNd

  lemma ProductOfPair(n: nat, m: nat)
    ensures Product([n, m]) == n * m
  {
    assert [n, m][1..] == [m];
    assert Product([m]) == m * Product([]);
  }

  lemma RowBound(k: nat, n: nat, m: nat)
    requires k < n
    ensures k * m + m <= n * m
  {
    assert k * m + m == (k + 1) * m;
    assert (k + 1) * m <= n * m;
  }

  lemma CellIndex(k: nat, c: nat, n: nat, m: nat)
    requires k < n && c < m
    ensures k * m + c < n * m
  {
    RowBound(k, n, m);
  }

  /** The row-major position of element `(k, c)` in rows of width `w`. */
  function RowMajor(w: nat, k: nat, c: nat): nat {
    k * w + c
  }

  /** Element `(k, c)` of a two-dimensional array. */
  function Cell(a: Array, k: nat, c: nat): real
    requires |a.shape| == 2 && k < a.shape[0] && c < a.shape[1]
  {
    assert a.shape == [a.shape[0], a.shape[1]];
    ProductOfPair(a.shape[0], a.shape[1]);
    CellIndex(k, c, a.shape[0], a.shape[1]);
    a.elems.At(RowMajor(a.shape[1], k, c))
  }

  /** Row `k` of a two-dimensional array, as integers (for integer arrays). */
  function IntRow(a: Array, k: nat): (r: seq<int>)
    requires |a.shape| == 2 && k < a.shape[0] && a.elems.Ints?
    ensures |r| == a.shape[1]
    ensures forall c :: 0 <= c < |r| ==> r[c] as real == Cell(a, k, c)
  {
    assert a.shape == [a.shape[0], a.shape[1]];
    ProductOfPair(a.shape[0], a.shape[1]);
    var m := a.shape[1];
    RowBound(k, a.shape[0], m);
    a.elems.ints[k * m .. k * m + m]
  }

  /** The elements of a one-dimensional array. */
  function Flat(a: Array): (r: seq<real>)
    requires |a.shape| == 1
    ensures |r| == a.shape[0] == a.elems.Count()
    ensures forall k :: 0 <= k < |r| ==> r[k] == a.elems.At(k)
  {
    assert Product(a.shape) == a.shape[0] * Product([]);
    seq(a.shape[0], k requires 0 <= k < a.shape[0] => a.elems.At(k))
  }

  /** The one-dimensional float array holding `xs`. */
  function Vector(xs: seq<real>): (a: Array)
    ensures a.shape == [|xs|] && a.elems.Floats?
    ensures Flat(a) == xs
  {
    assert Product([|xs|]) == |xs| * Product([]);
    var a: Array := NdArray([|xs|], Floats(xs));
    assert forall k :: 0 <= k < |xs| ==> Flat(a)[k] == xs[k];
    a
  }

  /** Rows laid end to end: the row-major elements of a two-dimensional array. */
  function Concat<T>(rows: seq<seq<T>>): seq<T>
  {
    if |rows| == 0 then [] else rows[0] + Concat(rows[1..])
  }

  lemma RowStep(k: nat, w: nat)
    requires k > 0
    ensures k * w == (k - 1) * w + w
  {
  }

  lemma {:induction false} ConcatLength<T>(rows: seq<seq<T>>, w: nat)
    requires forall k :: 0 <= k < |rows| ==> |rows[k]| == w
    ensures |Concat(rows)| == |rows| * w
    decreases |rows|
  {
    if |rows| > 0 {
      ConcatLength(rows[1..], w);
      RowStep(|rows|, w);
    }
  }

  lemma {:induction false} ConcatAt<T>(rows: seq<seq<T>>, w: nat, k: nat, c: nat)
    requires forall i :: 0 <= i < |rows| ==> |rows[i]| == w
    requires k < |rows| && c < w
    ensures RowMajor(w, k, c) < |Concat(rows)| && Concat(rows)[RowMajor(w, k, c)] == rows[k][c]
    decreases k
  {
    ConcatLength(rows, w);
    CellIndex(k, c, |rows|, w);
    if k > 0 {
      var tail := rows[1..];
      ConcatAt(tail, w, k - 1, c);
      RowStep(k, w);
      assert Concat(rows) == rows[0] + Concat(tail);
    }
  }

  /** With rows of width `w`, element `(k, c)` sits at `k * w + c`. */
  lemma {:induction false} ConcatIndex<T>(rows: seq<seq<T>>, w: nat)
    requires forall k :: 0 <= k < |rows| ==> |rows[k]| == w
    ensures |Concat(rows)| == |rows| * w
    ensures forall k, c :: 0 <= k < |rows| && 0 <= c < w ==>
              RowMajor(w, k, c) < |Concat(rows)| && Concat(rows)[RowMajor(w, k, c)] == rows[k][c]
  {
    ConcatLength(rows, w);
    forall k, c | 0 <= k < |rows| && 0 <= c < w
      ensures RowMajor(w, k, c) < |Concat(rows)| && Concat(rows)[RowMajor(w, k, c)] == rows[k][c]
    {
      ConcatAt(rows, w, k, c);
    }
  }

  /** The two-dimensional integer array with the given rows of width `w`. */
  function IntMatrix(rows: seq<seq<int>>, w: nat): (a: Array)
    requires forall k :: 0 <= k < |rows| ==> |rows[k]| == w
    ensures a.shape == [|rows|, w] && a.elems.Ints?
    ensures forall k, c :: 0 <= k < |rows| && 0 <= c < w ==> Cell(a, k, c) == rows[k][c] as real
  {
    ConcatIndex(rows, w);
    ProductOfPair(|rows|, w);
    NdArray([|rows|, w], Ints(Concat(rows)))
  }

  /** The two-dimensional float array with the given rows of width `w`. */
  function RealMatrix(rows: seq<seq<real>>, w: nat): (a: Array)
    requires forall k :: 0 <= k < |rows| ==> |rows[k]| == w
    ensures a.shape == [|rows|, w] && a.elems.Floats?
    ensures forall k, c :: 0 <= k < |rows| && 0 <= c < w ==> Cell(a, k, c) == rows[k][c]
  {
    ConcatIndex(rows, w);
    ProductOfPair(|rows|, w);
    NdArray([|rows|, w], Floats(Concat(rows)))
  }

  /** `np.array([])`: an empty float array of shape `(0,)`. */
  const EmptyArray: Array := NdArray([0], Floats([]))

  // ---------------------------------------------------------------------------
  // numpy.linspace

  function Sample(start: real, stop: real, div: nat, k: nat): real
    requires div > 0
  {
    start + (k as real) * (stop - start) / (div as real)
  }

  /** The step count of `np.linspace`: the samples are spaced by
      `(stop - start) / Divisor(num, endpoint)`. */
  function Divisor(num: nat, endpoint: bool): nat
  {
    if endpoint && num > 1 then num - 1 else num
  }

  /** `np.linspace(start, stop, num, endpoint=endpoint)` over the reals:
      `num` evenly spaced samples from `start`, the last one equal to `stop`
      when the endpoint is included and `num > 1` (a single sample is
      `[start]`). */
  function Linspace(start: real, stop: real, num: int, endpoint: bool): (r: Result<seq<real>>)
    ensures r.Err? <==> num < 0
    ensures r.Err? ==> r.error == NegativeCount
    ensures r.Ok? ==> |r.value| == num
    ensures r.Ok? && num > 0 ==> r.value[0] == start
    ensures r.Ok? && endpoint && num > 1 ==> r.value[num - 1] == stop
  {
    if num < 0 then Err(NegativeCount)
    else if num == 0 then Ok([])
    else if endpoint && num == 1 then Ok([start])
    else
      var div := if endpoint then num - 1 else num;
      SampleAtDivisor(start, stop, div);
      Ok(seq(num, k requires 0 <= k < num => Sample(start, stop, div, k)))
  }

  /** The samples are evenly spaced: consecutive samples differ by
      `(stop - start) / Divisor(num, endpoint)`. */
  lemma LinspaceEvenlySpaced(start: real, stop: real, num: nat, endpoint: bool, k: nat)
    requires k + 1 < num
    ensures Linspace(start, stop, num, endpoint).Ok?
    ensures var r := Linspace(start, stop, num, endpoint).value;
            r[k + 1] - r[k] == (stop - start) / (Divisor(num, endpoint) as real)
  {
    var div := Divisor(num, endpoint);
    var r := Linspace(start, stop, num, endpoint).value;
    assert r[k] == Sample(start, stop, div, k) && r[k + 1] == Sample(start, stop, div, k + 1);
    SampleStep(start, stop, div, k);
  }

  lemma SampleStep(start: real, stop: real, div: nat, k: nat)
    requires div > 0
    ensures Sample(start, stop, div, k + 1) - Sample(start, stop, div, k) == (stop - start) / (div as real)
  {
    var d := (stop - start) / (div as real);
    assert (k as real) * (stop - start) / (div as real) == (k as real) * d;
    assert ((k + 1) as real) * (stop - start) / (div as real) == (k as real) * d + d;
  }

  lemma SampleAtDivisor(start: real, stop: real, div: nat)
    requires div > 0
    ensures Sample(start, stop, div, div) == stop
  {
    var x := div as real;
    assert x * (stop - start) / x == stop - start;
  }

  lemma ScaledFraction(k: nat, div: nat, d: real)
    requires 0 < div && k <= div && 0.0 <= d
    ensures 0.0 <= (k as real) * d / (div as real) <= d
    ensures k < div && 0.0 < d ==> (k as real) * d / (div as real) < d
  {
    var q := (k as real) / (div as real);
    assert (k as real) * d / (div as real) == q * d;
    assert 0.0 <= q <= 1.0;
    assert q * (div as real) == k as real;
    if k < div {
      assert q < 1.0;
    }
  }

  /** A sample at or before the divisor lies in `[start, stop]`. */
  lemma SampleBounds(start: real, stop: real, div: nat, k: nat)
    requires 0 < div && k <= div && start <= stop
    ensures start <= Sample(start, stop, div, k) <= stop
    ensures k < div && start < stop ==> Sample(start, stop, div, k) < stop
  {
    ScaledFraction(k, div, stop - start);
  }

  lemma SampleIncreasing(start: real, stop: real, div: nat, i: nat, j: nat)
    requires div > 0 && start < stop && i < j
    ensures Sample(start, stop, div, i) < Sample(start, stop, div, j)
  {
    var d := stop - start;
    var step := d / (div as real);
    assert step > 0.0;
    assert (i as real) * d / (div as real) == (i as real) * step;
    assert (j as real) * d / (div as real) == (j as real) * step;
    assert (j as real) * step - (i as real) * step == ((j - i) as real) * step;
  }

  /** Samples strictly increase when `start < stop`, so they are distinct. */
  lemma LinspaceIncreasing(start: real, stop: real, num: nat, endpoint: bool, i: nat, j: nat)
    requires start < stop && i < j < num
    ensures Linspace(start, stop, num, endpoint).value[i] < Linspace(start, stop, num, endpoint).value[j]
  {
    var div := if endpoint then num - 1 else num;
    SampleIncreasing(start, stop, div, i, j);
  }

  /** Every sample lies in `[start, stop]`, and below `stop` when the endpoint
      is excluded. */
  lemma LinspaceBounds(start: real, stop: real, num: nat, endpoint: bool, k: nat)
    requires start <= stop && k < num
    ensures start <= Linspace(start, stop, num, endpoint).value[k] <= stop
    ensures !endpoint && start < stop ==> Linspace(start, stop, num, endpoint).value[k] < stop
  {
    if !(endpoint && num == 1) {
      var div := if endpoint then num - 1 else num;
      assert Linspace(start, stop, num, endpoint).value[k] == Sample(start, stop, div, k);
      SampleBounds(start, stop, div, k);
    } else {
      assert Linspace(start, stop, num, endpoint).value == [start];
    }
  }
}

=== FILE: buffers.dfy ===
/** The storage behind a vertex array (topos/core/vertices.py): numpy's
    row-major `(n, 3)` float buffer, written in place by the axis setters,
    duplicated by `copy()`, and scaled in place by `Scale.transform` on the
    copy that `geometry >> transform` makes (topos/core/transforms.py).
 */
module Buffers {
  import opened Wrappers
  import opened Vertices
  import Transforms

  /** The cells of a sequence of rows in row-major order: cell `i` is column
      `i % 3` of row `i / 3`. */
  function Flatten(rows: seq<Vec3>): (r: seq<real>)
    ensures |r| == 3 * |rows|
    ensures forall i :: 0 <= i < |r| ==> r[i] == rows[i / 3].At(i % 3)
    decreases |rows|
  {
    if |rows| == 0 then [] else Flatten(rows[..|rows| - 1]) + rows[|rows| - 1].Cells()
  }

  /** The rows of a row-major buffer of `3 n` cells. */
  function Rows(cells: seq<real>): (r: seq<Vec3>)
    requires |cells| % 3 == 0
    ensures 3 * |r| == |cells|
    ensures forall k :: 0 <= k < |r| ==> r[k] == Vec3(cells[3 * k], cells[3 * k + 1], cells[3 * k + 2])
    decreases |cells|
  {
    if |cells| == 0 then [] else [Vec3(cells[0], cells[1], cells[2])] + Rows(cells[3..])
  }

  /** Reading the rows of a flattened buffer gives the rows back. */
  lemma {:induction false} RowsOfFlatten(rows: seq<Vec3>)
    ensures Rows(Flatten(rows)) == rows
  {
    var flat := Flatten(rows);
    var back := Rows(flat);
    forall k | 0 <= k < |rows|
      ensures back[k] == rows[k]
    {
      FlattenRow(rows, k);
    }
  }

  /** Flattening the rows of a buffer gives its cells back. */
  lemma {:induction false} FlattenOfRows(cells: seq<real>)
    requires |cells| % 3 == 0
    ensures Flatten(Rows(cells)) == cells
  {
    var rows := Rows(cells);
    var flat := Flatten(rows);
    forall i | 0 <= i < |cells|
      ensures flat[i] == cells[i]
    {
      var k := i / 3;
      assert i == 3 * k + i % 3;
      assert rows[k] == Vec3(cells[3 * k], cells[3 * k + 1], cells[3 * k + 2]);
    }
  }

  /** The three cells of row `k`. */
  lemma FlattenRow(rows: seq<Vec3>, k: nat)
    requires k < |rows|
    ensures Flatten(rows)[3 * k] == rows[k].c0
    ensures Flatten(rows)[3 * k + 1] == rows[k].c1
    ensures Flatten(rows)[3 * k + 2] == rows[k].c2
  {
    var flat := Flatten(rows);
    assert (3 * k) / 3 == k && (3 * k) % 3 == 0;
    assert (3 * k + 1) / 3 == k && (3 * k + 1) % 3 == 1;
    assert (3 * k + 2) / 3 == k && (3 * k + 2) % 3 == 2;
  }

  /** Replacing row `k` replaces its three cells and no other. */
  lemma FlattenUpdate(rows: seq<Vec3>, k: nat, q: Vec3)
    requires k < |rows|
    ensures Flatten(rows[k := q]) == Flatten(rows)[3 * k := q.c0][3 * k + 1 := q.c1][3 * k + 2 := q.c2]
  {
    var a := Flatten(rows[k := q]);
    var b := Flatten(rows)[3 * k := q.c0][3 * k + 1 := q.c1][3 * k + 2 := q.c2];
    forall i | 0 <= i < |a|
      ensures a[i] == b[i]
    {
      if i / 3 == k {
        assert i == 3 * k || i == 3 * k + 1 || i == 3 * k + 2;
      } else {
        assert i != 3 * k && i != 3 * k + 1 && i != 3 * k + 2;
      }
    }
  }

  /** The rows after the first `k` of `before` have been rewritten by a
      setter with values `vs`. */
  function SetPrefix(m: FloatMath, s: System, a: Axis, before: seq<Vec3>, vs: seq<real>, k: nat): (r: seq<Vec3>)
    requires |vs| == |before| && k <= |before|
    ensures |r| == |before|
    ensures forall j :: 0 <= j < |r| ==> r[j] == if j < k then SetRow(m, s, a, before[j], vs[j]) else before[j]
  {
    seq(|before|, j requires 0 <= j < |before| => if j < k then SetRow(m, s, a, before[j], vs[j]) else before[j])
  }

  /** Rewriting row `k` of the first-`k` prefix gives the first-`k + 1`
      prefix. */
  lemma SetPrefixStep(m: FloatMath, s: System, a: Axis, before: seq<Vec3>, vs: seq<real>, k: nat)
    requires |vs| == |before| && k < |before|
    ensures SetPrefix(m, s, a, before, vs, k)[k := SetRow(m, s, a, before[k], vs[k])]
         == SetPrefix(m, s, a, before, vs, k + 1)
  {
  }

  /** Once every row has been rewritten, the rows are the functional
      setter's. */
  lemma SetPrefixComplete(m: FloatMath, va: VertexArray, a: Axis, vs: seq<real>)
    requires |vs| == Length(va)
    ensures SetPrefix(m, va.system, a, va.data, vs, |va.data|) == SetAxis(m, va, a, vs).data
  {
  }

  /** A vertex buffer: `3 * count` cells holding `count` rows of the system
      it is tagged with. */
  class Buffer {
    const system: System
    const count: nat
    const cells: array<real>

    ghost predicate Valid()
      reads this
    {
      cells.Length == 3 * count
    }

    /** The vertex array the buffer currently holds. */
    function Contents(): (va: VertexArray)
      reads this, cells
      requires Valid()
      ensures va.system == system && Length(va) == count
    {
      VertexArray(system, Rows(cells[..]))
    }

    /** `VertexArray(data)`: the buffer keeps the caller's storage itself,
        with no copy, so later writes through either are seen by both. */
    constructor Wrap(system: System, count: nat, cells: array<real>)
      requires cells.Length == 3 * count
      ensures this.system == system && this.count == count && this.cells == cells && Valid()
    {
      this.system := system;
      this.count := count;
      this.cells := cells;
    }

    /** Fresh storage holding the given rows, as `np.array(rows)` builds it
        before the constructor wraps it (the JSON loader's
        `Cartesian(np.array(...))`). */
    constructor Load(va: VertexArray)
      ensures Valid() && fresh(cells) && Contents() == va
    {
      var flat := Flatten(va.data);
      system := va.system;
      count := |va.data|;
      cells := new real[|flat|](i requires 0 <= i < |flat| => flat[i]);
      new;
      assert cells[..] == flat;
      RowsOfFlatten(va.data);
    }

    /** `copy()`: a new buffer, with storage of its own, holding the same
        vertex array. */
    method Copy() returns (b: Buffer)
      requires Valid()
      ensures fresh(b) && fresh(b.cells) && b.Valid()
      ensures b.Contents() == Contents()
    {
      var data := new real[cells.Length];
      var i := 0;
      while i < cells.Length
        invariant 0 <= i <= cells.Length
        invariant data[..i] == cells[..i]
      {
        data[i] := cells[i];
        i := i + 1;
      }
      assert data[..] == cells[..];
      b := new Buffer.Wrap(system, count, data);
    }

    /** The setter `set_<a>(vs)` writing the buffer in place, one row at a
        time: the buffer ends up holding what the functional setter
        computes. */
    method SetAxisInPlace(m: FloatMath, a: Axis, vs: seq<real>)
      requires Valid() && |vs| == count
      modifies cells
      ensures Valid() && Contents() == SetAxis(m, old(Contents()), a, vs)
    {
      ghost var before := Contents().data;
      FlattenOfRows(cells[..]);
      RewriteRows(m, a, before, vs);
      RowsOfFlatten(SetPrefix(m, system, a, before, vs, count));
      SetPrefixComplete(m, old(Contents()), a, vs);
    }

    /** The setter's loop over the rows of a buffer holding `before`. */
    method RewriteRows(m: FloatMath, a: Axis, ghost before: seq<Vec3>, vs: seq<real>)
      requires Valid() && |vs| == count && |before| == count
      requires cells[..] == Flatten(before)
      modifies cells
      ensures cells[..] == Flatten(SetPrefix(m, system, a, before, vs, count))
    {
      var k := 0;
      while k < count
        invariant 0 <= k <= count
        invariant cells[..] == Flatten(SetPrefix(m, system, a, before, vs, k))
      {
        ghost var rows := SetPrefix(m, system, a, before, vs, k);
        FlattenRow(rows, k);
        var p := Vec3(cells[3 * k], cells[3 * k + 1], cells[3 * k + 2]);
        assert p == before[k];
        var q := SetRow(m, system, a, p, vs[k]);
        cells[3 * k] := q.c0;
        cells[3 * k + 1] := q.c1;
        cells[3 * k + 2] := q.c2;
        FlattenUpdate(rows, k, q);
        SetPrefixStep(m, system, a, before, vs, k);
        k := k + 1;
      }
    }

    /** One step of `Scale.transform` in place: with a factor, the axis is
        read, multiplied and written back through its setter. */
    method ScaleInPlace(m: FloatMath, a: Axis, factor: Option<real>)
      requires Valid()
      modifies cells
      ensures Valid() && Contents() == Transforms.ScaleAxis(m, old(Contents()), a, factor)
    {
      if factor.Some? {
        var values := Transforms.Scaled(Coordinate(m, Contents(), a), factor.value);
        Transforms.ScaleAxisAssigns(m, Contents(), a, factor.value);
        SetAxisInPlace(m, a, values);
      }
    }

    /** `Scale.transform(verts)` in place: the factors applied in the order
        `x`, `y`, `z`, `r`, `t`, the same buffer returned. */
    method TransformInPlace(m: FloatMath, s: Transforms.Scale)
      requires Valid()
      modifies cells
      ensures Valid() && Contents() == Transforms.Transform(m, s, old(Contents()))
    {
      ScaleInPlace(m, X, s.dx);
      ScaleInPlace(m, Y, s.dy);
      ScaleInPlace(m, Z, s.dz);
      ScaleInPlace(m, R, s.dr);
      ScaleInPlace(m, T, s.dt);
    }
  }

  /** The vertex half of `geometry >> Scale(...)`: the source's buffer is
      copied and the copy transformed; the result holds the transformed
      vertices in storage of its own, and the source buffer is left as it
      was. */
  method TransformedCopy(m: FloatMath, src: Buffer, s: Transforms.Scale) returns (out: Buffer)
    requires src.Valid()
    ensures fresh(out.cells) && out.Valid()
    ensures out.Contents() == Transforms.Transform(m, s, src.Contents())
    ensures src.Contents() == old(src.Contents())
  {
    out := src.Copy();
    out.TransformInPlace(m, s);
  }
}

=== FILE: errors.dfy ===
/** The exceptions the kernel raises, as plain values.

    Every operation that can raise in the source returns a `Result`; the error
    constructor names the condition that was detected, not the Python exception
    class (which is noted beside each constructor).
 */
module Errors {

  datatype Error =
    | NotAnArray                       // TypeError: a numpy array was required
    | BadShape                         // TypeError: the array's shape was rejected
    | NotIntegral                      // TypeError: face data whose element type is not an integer type
    | UnsupportedOperand               // TypeError: `+` with an operand of another type
    | NotIterable                      // TypeError: projection key that is not an iterable of strings
    | UnknownCoordinate(name: string)  // ValueError: projection letter outside "xyzrt"
    | NoSuchAttribute(name: string)    // AttributeError: projection item naming no coordinate
    | NothingToStack                   // ValueError: stacking an empty list of columns
    | NotAnInteger                     // TypeError: N_theta is not an int
    | NotPositive                      // ValueError: N_theta < 1
    | NegativeCount                    // ValueError: linspace with a negative number of samples
    | NotAString                       // TypeError: the name setter was given a non-string
    | NotAVertexArray                  // TypeError: Mesh vertices of another type
    | NotAFaceArray                    // TypeError: Mesh faces of another type
    | NotAGeometry                     // TypeError: a Geometry was required
    | MissingField(field: string)      // TypeError: a JSON record lacks a required field
    | NotSupported                     // NotImplementedError: OBJ loading
    | MissingFormatArgument            // IndexError: a format string with more fields than values
    | IndexOutOfRange                  // IndexError: reading shape[0] of a 0-d array
    | NotBroadcastable                 // ValueError: numpy could not broadcast two shapes
    | NoneHasNoAttribute(attr: string) // AttributeError: an attribute read on None
    | MissingKey(key: string)          // KeyError: a named format field, which `fmt` never fills

  /** The outcome of an operation that may raise. Usable with `:-`. */
  datatype Result<+T> = Ok(value: T) | Err(error: Error) {

    predicate IsFailure() {
      Err?
    }

    function PropagateFailure<U>(): Result<U>
      requires Err?
    {
      Err(error)
    }

    function Extract(): T
      requires Ok?
    {
      value
    }
  }
}

/** Optional values, and the three kinds of argument a dynamically typed
    parameter can receive. */
module Wrappers {

  datatype Option<+T> = None | Some(value: T)

  /** An argument of a Python parameter that expects a `T` or `None`:
      `Absent` is `None`, `Present(v)` an instance of the expected class,
      `Mistyped` an object of any other class. */
  datatype Arg<+T> = Absent | Present(value: T) | Mistyped
}

=== FILE: faces.dfy ===
/** Face arrays (topos/core/faces.py): validated integer buffers of shape
    `(n, k)`, one row of `k` vertex indices per face, with `k = 4` for quads
    and `k = 3` for triangles.
 */
module Faces {
  import opened Errors
  import opened Wrappers
  import opened Arrays
  import Text

  /** The two concrete face array classes. */
  datatype Kind = Quads | Tris {

    /** `num_sides` */
    function NumSides(): nat {
      if Quads? then 4 else 3
    }

    /** `name`, as used by `__repr__` */
    function Name(): string {
      if Quads? then "Quad" else "Tri"
    }
  }

  datatype FaceArray = FaceArray(kind: Kind, rows: seq<seq<int>>)

  /** Every row holds exactly `num_sides` indices. */
  predicate WellShaped(f: FaceArray) {
    forall k :: 0 <= k < |f.rows| ==> |f.rows[k]| == f.kind.NumSides()
  }

  /** A face array as construction leaves it. */
  type Faces = f: FaceArray | WellShaped(f) witness FaceArray(Quads, [])

  /** `Quads(data)` / `Tris(data)`: the data must be a numpy array, of shape
      `(n, num_sides)`, with an integer element type, checked in that order. */
  function FromValue(kind: Kind, v: Value): (r: Result<Faces>)
    ensures r.Ok? <==> v.Nd? && |v.arr.shape| == 2 && v.arr.shape[1] == kind.NumSides() && v.arr.elems.Ints?
    ensures v.NotNd? ==> r == Err(NotAnArray)
    ensures v.Nd? && (|v.arr.shape| != 2 || v.arr.shape[1] != kind.NumSides()) ==> r == Err(BadShape)
    ensures v.Nd? && |v.arr.shape| == 2 && v.arr.shape[1] == kind.NumSides() && !v.arr.elems.Ints? ==>
              r == Err(NotIntegral)
    ensures r.Ok? ==> r.value.kind == kind && Length(r.value) == v.arr.shape[0]
    ensures r.Ok? ==> forall k, c :: 0 <= k < Length(r.value) && 0 <= c < kind.NumSides() ==>
                        r.value.rows[k][c] as real == Cell(v.arr, k, c)
  {
    match v
    case NotNd => Err(NotAnArray)
    case Nd(a) =>
      if |a.shape| != 2 || a.shape[1] != kind.NumSides() then Err(BadShape)
      else if !a.elems.Ints? then Err(NotIntegral)
      else
        assert a.shape == [a.shape[0], kind.NumSides()];
        Ok(FaceArray(kind, seq(a.shape[0], k requires 0 <= k < a.shape[0] => IntRow(a, k))))
  }

  /** The integer array a face array stores. */
  function ToValue(f: Faces): (v: Value)
    ensures v.Nd? && v.arr.shape == [Length(f), f.kind.NumSides()] && v.arr.elems.Ints?
  {
    Nd(IntMatrix(f.rows, f.kind.NumSides()))
  }

  /** Validation accepts the stored array of any face array of the same kind
      and rebuilds the same rows. */
  lemma FromToValue(f: Faces)
    ensures FromValue(f.kind, ToValue(f)) == Ok(f)
  {
    var r := FromValue(f.kind, ToValue(f));
    assert r.Ok?;
    var g := r.value;
    forall k | 0 <= k < Length(f)
      ensures g.rows[k] == f.rows[k]
    {
      forall c | 0 <= c < f.kind.NumSides()
        ensures g.rows[k][c] == f.rows[k][c]
      {
        assert g.rows[k][c] as real == f.rows[k][c] as real;
      }
    }
    assert g.rows == f.rows;
  }

  /** `length`: the number of faces. */
  function Length(f: FaceArray): nat {
    |f.rows|
  }

  /** `__repr__`, e.g. `Quad Array: 2 faces`. */
  function Repr(f: FaceArray): string {
    f.kind.Name() + " Array: " + Text.Counted(Length(f), "face", "faces")
  }

  /** The representation reads `<Name> Array: `, then the count, which parses
      back to the length, then `face` exactly when there is one face. */
  lemma ReprCount(f: FaceArray)
    ensures var tail := Repr(f)[|f.kind.Name() + " Array: "|..];
            var parts := Text.Split(tail, ' ');
            Repr(f)[..|f.kind.Name() + " Array: "|] == f.kind.Name() + " Array: "
            && |parts| == 2
            && Text.ParseInt(parts[0]) == Some(Length(f) as int)
            && (parts[1] == "face" <==> Length(f) == 1)
  {
    var head := f.kind.Name() + " Array: ";
    var phrase := Text.Counted(Length(f), "face", "faces");
    assert Repr(f) == head + phrase;
    assert Repr(f)[|head|..] == phrase;
    Text.CountedReadsBack(Length(f), "face", "faces");
  }

  /** Each face's indices rendered as decimal numerals. */
  function Rendered(rows: seq<seq<int>>): (r: seq<seq<string>>)
    ensures |r| == |rows|
    ensures forall k :: 0 <= k < |r| ==> |r[k]| == |rows[k]|
    ensures forall k, c :: 0 <= k < |r| && 0 <= c < |rows[k]| ==> r[k][c] == Text.IntText(rows[k][c])
  {
    seq(|rows|, k requires 0 <= k < |rows| => seq(|rows[k]|, c requires 0 <= c < |rows[k]| => Text.IntText(rows[k][c])))
  }

  /** `f.fmt(fmtstr, prefix, suffix, sep)`: every face formatted, the lines
      joined by `sep` (no trailing separator), wrapped in prefix and suffix.
      As soon as there is a face to format, a named field such as `{x}`
      raises `KeyError`, and more `{}` fields than the face has indices
      (before any named field) raise `IndexError`. */
  function Fmt(f: Faces, t: Text.FormatString, prefix: string, suffix: string, sep: string): (r: Result<string>)
    ensures r.Ok? <==> Length(f) == 0 || (Text.Positional(t) && Text.FieldCount(t) <= f.kind.NumSides())
    ensures Length(f) > 0 && Text.FirstNamed(t.fields) > f.kind.NumSides() ==> r == Err(MissingFormatArgument)
    ensures Length(f) > 0 && Text.FirstNamed(t.fields) <= f.kind.NumSides() && !Text.Positional(t) ==>
              r == Err(MissingKey(t.fields[Text.FirstNamed(t.fields)].key))
    ensures r.Ok? ==> r.value == prefix + Text.Join(sep, Text.FormatRows(t, Rendered(f.rows)).value) + suffix
  {
    Text.FormatBlock(t, Rendered(f.rows), prefix, suffix, sep)
  }

  /** With a format string of `num_sides` fields separated by `between`, face
      `k` becomes `lead`, its indices joined by `between`, then `trail`. */
  lemma FmtFaceLines(f: Faces, lead: string, between: string, trail: string, prefix: string, suffix: string, sep: string)
    ensures var t := Text.Fields(lead, between, trail, f.kind.NumSides());
            var r := Fmt(f, t, prefix, suffix, sep);
            r.Ok?
            && |Text.FormatRows(t, Rendered(f.rows)).value| == Length(f)
            && forall k :: 0 <= k < Length(f) ==>
                 Text.FormatRows(t, Rendered(f.rows)).value[k] == lead + Text.Join(between, Rendered(f.rows)[k]) + trail
  {
    var t := Text.Fields(lead, between, trail, f.kind.NumSides());
    var rendered := Rendered(f.rows);
    forall k | 0 <= k < Length(f)
      ensures Text.Format(t, rendered[k]) == Ok(lead + Text.Join(between, rendered[k]) + trail)
    {
      Text.FormatFields(lead, between, trail, rendered[k]);
    }
  }
}

=== FILE: generators.dfy ===
/** The mesh generators (topos/core/generators.py): vertex grids laid out by
    `linspace`, `meshgrid` and a row-major reshape, and the quad faces that
    stitch such grids together, as 1-based vertex indices.
 */
module Generators {
  import opened Errors
  import opened Arrays
  import opened Vertices
  import Faces

  // ---------------------------------------------------------------------------
  // Index arithmetic

  lemma MulMono(c: nat, a: int, b: int)
    requires a <= b
    ensures c * a <= c * b
  {
    assert c * b - c * a == c * (b - a);
  }

  /** Position `RowMajor(w, j, i)` splits back into row `j` and column `i`. */
  lemma DivModRowMajor(w: nat, j: nat, i: nat)
    requires i < w
    ensures RowMajor(w, j, i) / w == j && RowMajor(w, j, i) % w == i
  {
    var k := RowMajor(w, j, i);
    var q := k / w;
    var r := k % w;
    assert w * q + r == w * j + i;
    if q > j {
      assert w * (j + 1) == w * j + w;
      MulMono(w, j + 1, q);
    } else if q < j {
      assert w * (q + 1) == w * q + w;
      MulMono(w, q + 1, j);
    }
  }

  /** Every position below `w * h` is `RowMajor(w, k / w, k % w)` with row
      below `h`. */
  lemma RowMajorSplit(k: nat, w: nat, h: nat)
    requires 0 < w && k < w * h
    ensures k / w < h && k % w < w && RowMajor(w, k / w, k % w) == k
  {
    var q := k / w;
    assert k == w * q + k % w;
    if q >= h {
      MulMono(w, h, q);
    }
  }

  // ---------------------------------------------------------------------------
  // Vertex grids

  /** `np.dstack` of the reshaped `np.meshgrid(xs, ys)` with a constant third
      column: the meshgrid's rows (one per `y`, each running over every `x`)
      laid end to end. */
  function Grid(xs: seq<real>, ys: seq<real>, third: real): (r: seq<Vec3>)
    ensures |r| == |xs| * |ys|
  {
    var rows := seq(|ys|, j requires 0 <= j < |ys| => seq(|xs|, i requires 0 <= i < |xs| => Vec3(xs[i], ys[j], third)));
    ConcatLength(rows, |xs|);
    Concat(seq(|ys|, j requires 0 <= j < |ys| => seq(|xs|, i requires 0 <= i < |xs| => Vec3(xs[i], ys[j], third))))
  }

  /** The grid has one row per `(x, y)` pair: point `i` of meshgrid row `j`
      is row `j * |xs| + i`, so `x` varies fastest; read the other way, row
      `k` pairs `xs[k % |xs|]` with `ys[k / |xs|]`. */
  lemma GridLayout(xs: seq<real>, ys: seq<real>, third: real)
    ensures |Grid(xs, ys, third)| == |xs| * |ys|
    ensures forall j, i :: 0 <= j < |ys| && 0 <= i < |xs| ==>
              RowMajor(|xs|, j, i) < |Grid(xs, ys, third)|
              && Grid(xs, ys, third)[RowMajor(|xs|, j, i)] == Vec3(xs[i], ys[j], third)
    ensures forall k :: 0 <= k < |Grid(xs, ys, third)| ==>
              k % |xs| < |xs| && k / |xs| < |ys|
              && Grid(xs, ys, third)[k] == Vec3(xs[k % |xs|], ys[k / |xs|], third)
  {
    GridCells(xs, ys, third);
    var g := Grid(xs, ys, third);
    forall k | 0 <= k < |g|
      ensures k % |xs| < |xs| && k / |xs| < |ys| && g[k] == Vec3(xs[k % |xs|], ys[k / |xs|], third)
    {
      RowMajorSplit(k, |xs|, |ys|);
      var j, i := k / |xs|, k % |xs|;
      assert g[RowMajor(|xs|, j, i)] == Vec3(xs[i], ys[j], third);
    }
  }

  /** Point `i` of meshgrid row `j` is row `j * |xs| + i` of the grid. */
  lemma GridCells(xs: seq<real>, ys: seq<real>, third: real)
    ensures forall j, i :: 0 <= j < |ys| && 0 <= i < |xs| ==>
              RowMajor(|xs|, j, i) < |Grid(xs, ys, third)|
              && Grid(xs, ys, third)[RowMajor(|xs|, j, i)] == Vec3(xs[i], ys[j], third)
  {
    var rows := seq(|ys|, j requires 0 <= j < |ys| => seq(|xs|, i requires 0 <= i < |xs| => Vec3(xs[i], ys[j], third)));
    ConcatIndex(rows, |xs|);
    assert Grid(xs, ys, third) == Concat(rows);
  }

  /** A grid over samples within `[a, b]` and `[c, d]` stays within the box. */
  lemma GridBounds(xs: seq<real>, ys: seq<real>, third: real, a: real, b: real, c: real, d: real)
    requires forall i :: 0 <= i < |xs| ==> a <= xs[i] <= b
    requires forall j :: 0 <= j < |ys| ==> c <= ys[j] <= d
    ensures forall k :: 0 <= k < |Grid(xs, ys, third)| ==>
              a <= Grid(xs, ys, third)[k].c0 <= b && c <= Grid(xs, ys, third)[k].c1 <= d
  {
    GridLayout(xs, ys, third);
  }

  /** `planar_vertices(N, xmin, xmax, ymin, ymax)`: the rows of the `(N², 3)`
      array of an `N × N` grid over `[xmin, xmax] × [ymin, ymax]` at `z = 0`.
      A negative `N` is rejected by `linspace`. */
  function PlanarVertices(n: int, xmin: real, xmax: real, ymin: real, ymax: real): (r: Result<seq<Vec3>>)
    ensures r.Err? <==> n < 0
    ensures r.Err? ==> r.error == NegativeCount
    ensures r.Ok? ==> |r.value| == n * n
  {
    var xs :- Linspace(xmin, xmax, n, true);
    var ys := Linspace(ymin, ymax, n, true).value;
    Ok(Grid(xs, ys, 0.0))
  }

  /** Point `i` of meshgrid row `j` of the planar grid is vertex `j * N + i`,
      at `z = 0`. */
  lemma PlanarVerticesGrid(n: nat, xmin: real, xmax: real, ymin: real, ymax: real)
    ensures var vs := PlanarVertices(n, xmin, xmax, ymin, ymax).value;
            var xs := Linspace(xmin, xmax, n, true).value;
            var ys := Linspace(ymin, ymax, n, true).value;
            forall j, i :: 0 <= j < n && 0 <= i < n ==>
              RowMajor(n, j, i) < |vs| && vs[RowMajor(n, j, i)] == Vec3(xs[i], ys[j], 0.0)
  {
    var xs := Linspace(xmin, xmax, n, true).value;
    var ys := Linspace(ymin, ymax, n, true).value;
    assert PlanarVertices(n, xmin, xmax, ymin, ymax).value == Grid(xs, ys, 0.0);
    GridLayout(xs, ys, 0.0);
  }

  /** Read the other way: vertex `k` of the planar grid takes its `x` from
      sample `k mod N` and its `y` from sample `k div N`, at `z = 0`. */
  lemma PlanarVerticesLayout(n: nat, xmin: real, xmax: real, ymin: real, ymax: real)
    ensures var vs := PlanarVertices(n, xmin, xmax, ymin, ymax).value;
            var xs := Linspace(xmin, xmax, n, true).value;
            var ys := Linspace(ymin, ymax, n, true).value;
            forall k :: 0 <= k < |vs| ==>
              0 < n && k % n < n && k / n < n && vs[k] == Vec3(xs[k % n], ys[k / n], 0.0)
  {
    var xs := Linspace(xmin, xmax, n, true).value;
    var ys := Linspace(ymin, ymax, n, true).value;
    assert PlanarVertices(n, xmin, xmax, ymin, ymax).value == Grid(xs, ys, 0.0);
    GridLayout(xs, ys, 0.0);
  }

  /** Every planar `x` lies in `[xmin, xmax]` and every `y` in `[ymin, ymax]`. */
  lemma PlanarVerticesBounds(n: nat, xmin: real, xmax: real, ymin: real, ymax: real)
    requires xmin <= xmax && ymin <= ymax
    ensures var vs := PlanarVertices(n, xmin, xmax, ymin, ymax).value;
            forall k :: 0 <= k < |vs| ==> xmin <= vs[k].c0 <= xmax && ymin <= vs[k].c1 <= ymax
  {
    var xs := Linspace(xmin, xmax, n, true).value;
    var ys := Linspace(ymin, ymax, n, true).value;
    forall i | 0 <= i < n
      ensures xmin <= xs[i] <= xmax && ymin <= ys[i] <= ymax
    {
      LinspaceBounds(xmin, xmax, n, true, i);
      LinspaceBounds(ymin, ymax, n, true, i);
    }
    GridBounds(xs, ys, 0.0, xmin, xmax, ymin, ymax);
    assert PlanarVertices(n, xmin, xmax, ymin, ymax).value == Grid(xs, ys, 0.0);
  }

  /** With more than one vertex per side both ends of each interval occur:
      the first row of the grid runs from `xmin` to `xmax`, and the first and
      last vertices have `ymin` and `ymax`. */
  lemma PlanarVerticesRange(n: nat, xmin: real, xmax: real, ymin: real, ymax: real)
    requires n > 1
    ensures var vs := PlanarVertices(n, xmin, xmax, ymin, ymax).value;
            n <= |vs|
            && vs[0].c0 == xmin && vs[n - 1].c0 == xmax
            && vs[0].c1 == ymin && vs[|vs| - 1].c1 == ymax
  {
    var xs := Linspace(xmin, xmax, n, true).value;
    var ys := Linspace(ymin, ymax, n, true).value;
    var vs := PlanarVertices(n, xmin, xmax, ymin, ymax).value;
    PlanarVerticesGrid(n, xmin, xmax, ymin, ymax);
    var last := RowMajor(n, n - 1, n - 1);
    RowStep(n, n);
    assert last == n * n - 1 && |vs| == n * n;
    assert vs[RowMajor(n, 0, 0)] == Vec3(xs[0], ys[0], 0.0);
    assert vs[RowMajor(n, 0, n - 1)] == Vec3(xs[n - 1], ys[0], 0.0);
    assert vs[last] == Vec3(xs[n - 1], ys[n - 1], 0.0);
  }

  /** A Python argument that must be an `int`: `bool` is a subclass of `int`,
      so `True` and `False` pass the check as 1 and 0. */
  datatype IntArg = IntValue(i: int) | BoolValue(b: bool) | NotInt {
    function AsInt(): int
      requires !NotInt?
    {
      if IntValue? then i else if b then 1 else 0
    }
  }

  /** `2 * math.pi` as a double, written out exactly. */
  const TwoPi: real := 6.28318530717958623199592693708837032318115234375

  /** Whether `cylindrical_vertices` includes the `theta_max` endpoint: only
      when the range stops short of a full turn. */
  function ThetaEndpoint(thetaMax: real): bool {
    thetaMax < TwoPi
  }

  /** `cylindrical_vertices(N_theta, N_z, r, zmin, zmax, theta_min, theta_max)`:
      the rows `(θ, z, r)` of an `N_θ × N_z` tube.  `N_theta` must be an
      `int` (a TypeError otherwise) and at least 1 (a ValueError otherwise);
      a negative `N_z` is rejected by `linspace`. */
  function CylindricalVertices(nTheta: IntArg, nz: int, r: real, zmin: real, zmax: real,
                               thetaMin: real, thetaMax: real): (res: Result<seq<Vec3>>)
    ensures nTheta.NotInt? ==> res == Err(NotAnInteger)
    ensures !nTheta.NotInt? && nTheta.AsInt() < 1 ==> res == Err(NotPositive)
    ensures !nTheta.NotInt? && nTheta.AsInt() >= 1 && nz < 0 ==> res == Err(NegativeCount)
    ensures res.Ok? <==> !nTheta.NotInt? && nTheta.AsInt() >= 1 && nz >= 0
    ensures res.Ok? ==> |res.value| == nTheta.AsInt() * nz
  {
    if nTheta.NotInt? then Err(NotAnInteger)
    else
      var nt := nTheta.AsInt();
      if nt < 1 then Err(NotPositive)
      else
        var ts := Linspace(thetaMin, thetaMax, nt, ThetaEndpoint(thetaMax)).value;
        var zs :- Linspace(zmin, zmax, nz, true);
        Ok(Grid(ts, zs, r))
  }

  /** Point `i` of ring `j` of the tube is vertex `j * N_θ + i`, with angle
      sample `i`, height sample `j` and radius `r`. */
  lemma CylindricalVerticesGrid(nt: nat, nz: nat, r: real, zmin: real, zmax: real, thetaMin: real, thetaMax: real)
    requires nt >= 1
    ensures var vs := CylindricalVertices(IntValue(nt), nz, r, zmin, zmax, thetaMin, thetaMax).value;
            var ts := Linspace(thetaMin, thetaMax, nt, ThetaEndpoint(thetaMax)).value;
            var zs := Linspace(zmin, zmax, nz, true).value;
            forall j, i :: 0 <= j < nz && 0 <= i < nt ==>
              RowMajor(nt, j, i) < |vs| && vs[RowMajor(nt, j, i)] == Vec3(ts[i], zs[j], r)
  {
    var ts := Linspace(thetaMin, thetaMax, nt, ThetaEndpoint(thetaMax)).value;
    var zs := Linspace(zmin, zmax, nz, true).value;
    assert CylindricalVertices(IntValue(nt), nz, r, zmin, zmax, thetaMin, thetaMax).value == Grid(ts, zs, r);
    GridLayout(ts, zs, r);
  }

  /** Read the other way: every radius of the tube is `r`, and vertex `k`
      takes `θ` from sample `k mod N_θ` and `z` from sample `k div N_θ`. */
  lemma CylindricalVerticesLayout(nt: nat, nz: nat, r: real, zmin: real, zmax: real, thetaMin: real, thetaMax: real)
    requires nt >= 1
    ensures var vs := CylindricalVertices(IntValue(nt), nz, r, zmin, zmax, thetaMin, thetaMax).value;
            var ts := Linspace(thetaMin, thetaMax, nt, ThetaEndpoint(thetaMax)).value;
            var zs := Linspace(zmin, zmax, nz, true).value;
            forall k :: 0 <= k < |vs| ==>
              k % nt < nt && k / nt < nz && vs[k] == Vec3(ts[k % nt], zs[k / nt], r)
  {
    var ts := Linspace(thetaMin, thetaMax, nt, ThetaEndpoint(thetaMax)).value;
    var zs := Linspace(zmin, zmax, nz, true).value;
    assert CylindricalVertices(IntValue(nt), nz, r, zmin, zmax, thetaMin, thetaMax).value == Grid(ts, zs, r);
    GridLayout(ts, zs, r);
  }

  /** With the default angular range `[0, 2π)` the first `N_θ` vertices carry
      `N_θ` distinct, increasing angles starting at 0, and every angle of the
      tube is one of them, below `2π`. */
  lemma CylindricalThetaDefaults(nt: nat, nz: nat, r: real, zmin: real, zmax: real, i: nat, j: nat)
    requires nt >= 1 && nz >= 1 && i < j < nt
    ensures var vs := CylindricalVertices(IntValue(nt), nz, r, zmin, zmax, 0.0, TwoPi).value;
            vs[0].c0 == 0.0 && vs[i].c0 < vs[j].c0
            && forall k :: 0 <= k < |vs| ==> vs[k].c0 == vs[k % nt].c0 && 0.0 <= vs[k].c0 < TwoPi
  {
    var ts := Linspace(0.0, TwoPi, nt, false).value;
    var vs := CylindricalVertices(IntValue(nt), nz, r, zmin, zmax, 0.0, TwoPi).value;
    CylindricalVerticesLayout(nt, nz, r, zmin, zmax, 0.0, TwoPi);
    MulMono(nt, 1, nz);
    LinspaceIncreasing(0.0, TwoPi, nt, false, i, j);
    forall k | 0 <= k < |vs|
      ensures vs[k].c0 == vs[k % nt].c0 && 0.0 <= vs[k].c0 < TwoPi
    {
      RowMajorSplit(k, nt, nz);
      DivModRowMajor(nt, 0, k % nt);
      LinspaceBounds(0.0, TwoPi, nt, false, k % nt);
    }
  }

  /** An angular range that stops short of a full turn is sampled with both
      ends included: the first vertex has `theta_min`, vertex `N_θ - 1` has
      `theta_max`. */
  lemma CylindricalThetaRange(nt: nat, nz: nat, r: real, zmin: real, zmax: real, thetaMin: real, thetaMax: real)
    requires nt > 1 && nz >= 1 && thetaMin <= thetaMax < TwoPi
    ensures var vs := CylindricalVertices(IntValue(nt), nz, r, zmin, zmax, thetaMin, thetaMax).value;
            vs[0].c0 == thetaMin && vs[nt - 1].c0 == thetaMax
            && forall k :: 0 <= k < |vs| ==> thetaMin <= vs[k].c0 <= thetaMax
  {
    var vs := CylindricalVertices(IntValue(nt), nz, r, zmin, zmax, thetaMin, thetaMax).value;
    CylindricalVerticesLayout(nt, nz, r, zmin, zmax, thetaMin, thetaMax);
    MulMono(nt, 1, nz);
    DivModRowMajor(nt, 0, nt - 1);
    forall k | 0 <= k < |vs|
      ensures thetaMin <= vs[k].c0 <= thetaMax
    {
      RowMajorSplit(k, nt, nz);
      LinspaceBounds(thetaMin, thetaMax, nt, true, k % nt);
    }
  }

  /** Along the tube's axis the heights run from `zmin` (first vertex) to
      `zmax` (last vertex). */
  lemma CylindricalZRange(nt: nat, nz: nat, r: real, zmin: real, zmax: real, thetaMin: real, thetaMax: real)
    requires nt >= 1 && nz > 1
    ensures var vs := CylindricalVertices(IntValue(nt), nz, r, zmin, zmax, thetaMin, thetaMax).value;
            |vs| > 0 && vs[0].c1 == zmin && vs[|vs| - 1].c1 == zmax
  {
    var vs := CylindricalVertices(IntValue(nt), nz, r, zmin, zmax, thetaMin, thetaMax).value;
    CylindricalVerticesGrid(nt, nz, r, zmin, zmax, thetaMin, thetaMax);
    var last := RowMajor(nt, nz - 1, nt - 1);
    RowStep(nz, nt);
    assert last == nz * nt - 1;
    assert |vs| == nt * nz;
    assert vs[RowMajor(nt, 0, 0)].c1 == zmin;
    assert vs[last].c1 == zmax;
  }

  // ---------------------------------------------------------------------------
  // Quad faces

  /** One face, corners in anti-clockwise order. */
  datatype Quad = Quad(ll: int, lr: int, ur: int, ul: int) {
    function Cells(): seq<int> {
      [ll, lr, ur, ul]
    }
  }

  /** Every corner of `q` is one of the vertex indices `1 … hi`. */
  predicate IndicesIn(q: Quad, hi: int) {
    1 <= q.ll <= hi && 1 <= q.lr <= hi && 1 <= q.ur <= hi && 1 <= q.ul <= hi
  }

  /** `np.array(faces)`: an `(n, 4)` integer array, or `np.array([])` — a
      float array of shape `(0,)` — when there are no faces. */
  function FaceData(quads: seq<Quad>): (a: Array)
    ensures |quads| == 0 ==> a == EmptyArray
    ensures |quads| > 0 ==> a == IntMatrix(seq(|quads|, k requires 0 <= k < |quads| => quads[k].Cells()), 4)
  {
    if |quads| == 0 then EmptyArray
    else IntMatrix(seq(|quads|, k requires 0 <= k < |quads| => quads[k].Cells()), 4)
  }

  /** `Quads(np.array(faces))` accepts exactly a non-empty face list and
      keeps its faces in order; the empty list is rejected for its shape. */
  lemma QuadsOfFaceData(quads: seq<Quad>)
    ensures |quads| == 0 ==> Faces.FromValue(Faces.Quads, Nd(FaceData(quads))) == Err(BadShape)
    ensures |quads| > 0 ==>
              Faces.FromValue(Faces.Quads, Nd(FaceData(quads)))
              == Ok(Faces.FaceArray(Faces.Quads, seq(|quads|, k requires 0 <= k < |quads| => quads[k].Cells())))
  {
    if |quads| > 0 {
      var f := Faces.FaceArray(Faces.Quads, seq(|quads|, k requires 0 <= k < |quads| => quads[k].Cells()));
      assert Faces.WellShaped(f);
      Faces.FromToValue(f);
    }
  }

  // ----- cylindrical_faces

  /** The face the loop body of `cylindrical_faces` builds for row `j` and
      column `i`: the planar corners, then each right-hand corner pulled back
      by `N_θ - 1` once it reaches the next row. */
  function CylindricalFace(nt: int, j: int, i: int): Quad {
    var row := j * nt;  // so (j + 1) * nt is row + nt and (j + 2) * nt is row + 2 * nt
    var lowerRight := row + i + 1;
    var upperRight := row + nt + i + 1;
    Quad(row + i,
         if lowerRight >= row + nt then lowerRight - (nt - 1) else lowerRight,
         if upperRight >= row + 2 * nt then upperRight - (nt - 1) else upperRight,
         row + nt + i)
  }

  /** Python's `len(range(lo, hi))`. */
  function RangeLength(lo: int, hi: int): nat {
    if hi <= lo then 0 else hi - lo
  }

  function CloseCount(close: bool): nat {
    if close then 1 else 0
  }

  /** The number of faces per ring: `len(range(1, N_theta + close_loop))`. */
  function RowWidth(nt: int, close: bool): nat {
    RangeLength(1, nt + CloseCount(close))
  }

  /** The faces of `cylindrical_faces` by loop iteration: row `j` of the
      table holds the faces of outer iteration `j`, in inner-loop order. */
  function CylindricalTable(nt: int, nz: int, close: bool): seq<seq<Quad>> {
    var w := RowWidth(nt, close);
    seq(RangeLength(0, nz - 1), j requires 0 <= j < RangeLength(0, nz - 1) =>
      seq(w, c requires 0 <= c < w => CylindricalFace(nt, j, c + 1)))
  }

  function CylindricalFaceList(nt: int, nz: int, close: bool): seq<Quad> {
    Concat(CylindricalTable(nt, nz, close))
  }

  lemma {:induction false} ConcatSnoc<T>(rows: seq<seq<T>>, j: nat)
    requires j < |rows|
    ensures Concat(rows[..j + 1]) == Concat(rows[..j]) + rows[j]
    decreases j
  {
    if j > 0 {
      ConcatSnoc(rows[1..], j - 1);
      assert rows[1..][..j] == rows[..j + 1][1..];
      assert rows[1..][..j - 1] == rows[..j][1..];
    } else {
      assert rows[..1][1..] == [];
    }
  }

  /** `cylindrical_faces(N_theta, N_z, close_loop)`, loop for loop: the faces
      it appends, in order. */
  method CylindricalFaces(nt: int, nz: int, close: bool) returns (faces: seq<Quad>)
    ensures faces == CylindricalFaceList(nt, nz, close)
  {
    var table := CylindricalTable(nt, nz, close);
    faces := [];
    var j := 0;
    while j < nz - 1
      invariant 0 <= j <= |table| && (j < nz - 1 ==> j < |table|)
      invariant faces == Concat(table[..j])
    {
      var i := 1;
      while i < nt + CloseCount(close)
        invariant 1 <= i && i - 1 <= |table[j]|
        invariant faces == Concat(table[..j]) + table[j][..i - 1]
      {
        var lowerLeft := j * nt + i;
        var lowerRight := j * nt + i + 1;
        var upperRight := (j + 1) * nt + i + 1;
        var upperLeft := (j + 1) * nt + i;
        if lowerRight >= (j + 1) * nt {
          lowerRight := lowerRight - (nt - 1);
        }
        if upperRight >= (j + 2) * nt {
          upperRight := upperRight - (nt - 1);
        }
        Distribute(j, nt);
        assert table[j][i - 1] == Quad(lowerLeft, lowerRight, upperRight, upperLeft);
        assert table[j][..i] == table[j][..i - 1] + [table[j][i - 1]];
        faces := faces + [Quad(lowerLeft, lowerRight, upperRight, upperLeft)];
        i := i + 1;
      }
      assert table[j][..i - 1] == table[j];
      ConcatSnoc(table, j);
      j := j + 1;
    }
    assert table[..j] == table;
  }

  /** `cylindrical_faces` as the array it returns. */
  function CylindricalFacesArray(nt: int, nz: int, close: bool): Array {
    FaceData(CylindricalFaceList(nt, nz, close))
  }

  lemma CylindricalTableShape(nt: int, nz: int, close: bool)
    ensures forall j :: 0 <= j < |CylindricalTable(nt, nz, close)| ==>
              |CylindricalTable(nt, nz, close)[j]| == RowWidth(nt, close)
  {
  }

  /** `cylindrical_faces` yields `(N_θ - 1 + [close_loop]) · (N_z - 1)` faces
      (each factor taken as 0 when negative); face `c` of row `j` is the face
      for column `c + 1`. */
  lemma CylindricalFaceCount(nt: int, nz: int, close: bool)
    ensures |CylindricalFaceList(nt, nz, close)| == RangeLength(0, nz - 1) * RowWidth(nt, close)
    ensures forall j, c :: 0 <= j < RangeLength(0, nz - 1) && 0 <= c < RowWidth(nt, close) ==>
              RowMajor(RowWidth(nt, close), j, c) < |CylindricalFaceList(nt, nz, close)|
              && CylindricalFaceList(nt, nz, close)[RowMajor(RowWidth(nt, close), j, c)]
                 == CylindricalFace(nt, j, c + 1)
  {
    var table := CylindricalTable(nt, nz, close);
    CylindricalTableShape(nt, nz, close);
    assert |table| == RangeLength(0, nz - 1);
    ConcatIndex(table, RowWidth(nt, close));
    forall j, c | 0 <= j < RangeLength(0, nz - 1) && 0 <= c < RowWidth(nt, close)
      ensures table[j][c] == CylindricalFace(nt, j, c + 1)
    {
    }
  }

  /** The documented count `(N_θ - 1)(N_z - 1)` holds exactly when the loop
      is not closed (for a tube with at least two rings). */
  lemma CylindricalDocumentedCount(nt: int, nz: int, close: bool)
    requires nt >= 1 && nz >= 2
    ensures |CylindricalFaceList(nt, nz, close)| == (nt - 1) * (nz - 1) <==> !close
  {
    CylindricalFaceCount(nt, nz, close);
    if close {
      assert RangeLength(1, nt + 1) == nt;
      assert nt * (nz - 1) - (nt - 1) * (nz - 1) == nz - 1;
    }
  }

  lemma Distribute(j: int, nt: int)
    ensures (j + 1) * nt == j * nt + nt && (j + 2) * nt == j * nt + 2 * nt
  {
  }

  /** The corners of any face of the loop: the left corners are never moved;
      a right corner is pulled back by exactly `N_θ - 1`, and both right
      corners are pulled back together, precisely when `i + 1 >= N_θ`.  So
      `ul - ll == N_θ` and `ur - lr == N_θ` always. */
  lemma CylindricalFaceCorners(nt: int, j: int, i: int)
    ensures var q := CylindricalFace(nt, j, i);
            q.ll == j * nt + i && q.ul == (j + 1) * nt + i
            && q.ul - q.ll == nt && q.ur - q.lr == nt
            && (i + 1 < nt ==> q.lr == q.ll + 1 && q.ur == q.ul + 1)
            && (i + 1 >= nt ==> q.lr == q.ll + 1 - (nt - 1) && q.ur == q.ul + 1 - (nt - 1))
  {
    Distribute(j, nt);
  }

  /** For `N_θ >= 2` every index `cylindrical_faces` produces names one of the
      `N_θ · N_z` vertices of the tube. */
  lemma CylindricalFaceBounds(nt: int, nz: int, close: bool, j: nat, c: nat)
    requires nt >= 2 && j < RangeLength(0, nz - 1) && c < RowWidth(nt, close)
    ensures IndicesIn(CylindricalFace(nt, j, c + 1), nt * nz)
  {
    var i := c + 1;
    var row := j * nt;
    MulMono(nt, j + 2, nz);
    MulMono(nt, 0, j);
    Distribute(j, nt);
    assert 0 <= row && row + 2 * nt <= nt * nz;
    assert 1 <= i <= nt;
    var q := CylindricalFace(nt, j, i);
    assert q.ll == row + i && q.ul == row + nt + i;
  }

  // ----- planar_faces

  /** `[i for i in range(1, hi) if i % n != 0]`: the lower-left corners.
      Python's floored `%` and Dafny's Euclidean `%` agree on whether the
      remainder is zero. */
  function Kept(n: int, hi: int): seq<int>
    requires n != 0 || hi <= 1
    decreases hi
  {
    if hi <= 1 then [] else Kept(n, hi - 1) + (if (hi - 1) % n != 0 then [hi - 1] else [])
  }

  /** The face with lower-left corner `l` in a grid `n` wide. */
  function PlanarQuad(n: int, l: int): Quad {
    Quad(l, l + 1, l + (n + 1), l + n)
  }

  /** The faces of `planar_faces(N)`: corners `ns`, `ns + 1`, `ns + (N + 1)`,
      `ns + N`, face by face. */
  function PlanarFaceList(n: int): (r: seq<Quad>) {
    Map(Kept(n, n * (n - 1)), QuadAt(n))
  }

  /** `PlanarQuad` for a fixed grid width, as a function of the corner. */
  function QuadAt(n: int): int -> Quad {
    l => PlanarQuad(n, l)
  }

  /** `planar_faces(N)` as the array it returns: when there are no lower-left
      corners, `np.dstack` of four empty float arrays gives a float array of
      shape `(0, 4)`. */
  function PlanarFaces(n: int): (a: Array)
    ensures |PlanarFaceList(n)| == 0 ==> a.shape == [0, 4] && a.elems.Floats?
    ensures |PlanarFaceList(n)| > 0 ==> a == FaceData(PlanarFaceList(n))
  {
    var quads := PlanarFaceList(n);
    if |quads| == 0 then NdArray([0, 4], Floats([])) else FaceData(quads)
  }

  /** The face of the nested-loop reference for row `j`, column `i`. */
  function ReferenceFace(n: int, j: int, i: int): Quad {
    var row := j * n;
    Quad(i + row, (i + 1) + row, (i + 1) + (row + n), i + (row + n))
  }

  function ReferenceTable(n: int): seq<seq<Quad>> {
    var m := RangeLength(0, n - 1);
    var w := RangeLength(1, n);
    seq(m, j requires 0 <= j < m => seq(w, c requires 0 <= c < w => ReferenceFace(n, j, c + 1)))
  }

  /** The older nested-loop `planar_faces` kept by the test suite as the
      reference: rows `j` outer, columns `i` from 1 to `N - 1` inner. */
  method ReferencePlanarFaces(n: int) returns (faces: seq<Quad>)
    ensures faces == Concat(ReferenceTable(n))
  {
    var table := ReferenceTable(n);
    faces := [];
    var j := 0;
    while j < n - 1
      invariant 0 <= j <= |table| && (j < n - 1 ==> j < |table|)
      invariant faces == Concat(table[..j])
    {
      var i := 1;
      while i < n
        invariant 1 <= i && i - 1 <= |table[j]|
        invariant faces == Concat(table[..j]) + table[j][..i - 1]
      {
        var face := Quad(i + j * n, (i + 1) + j * n, (i + 1) + (j + 1) * n, i + (j + 1) * n);
        Distribute(j, n);
        assert table[j][i - 1] == face;
        assert table[j][..i] == table[j][..i - 1] + [face];
        faces := faces + [face];
        i := i + 1;
      }
      assert table[j][..i - 1] == table[j];
      ConcatSnoc(table, j);
      j := j + 1;
    }
    assert table[..j] == table;
  }

  /** The lower-left corners of row `j`. */
  function CornerRow(n: int, j: int): seq<int> {
    seq(RangeLength(1, n), c requires 0 <= c < RangeLength(1, n) => (c + 1) + j * n)
  }

  /** The lower-left corners of rows `0 … j - 1`. */
  function CornerRows(n: int, j: nat): seq<seq<int>> {
    seq(j, r requires 0 <= r < j => CornerRow(n, r))
  }

  /** Within row `j`, the kept numbers below `j * n + c` are those of the
      earlier rows followed by `j * n + 1, …, j * n + c - 1`. */
  lemma {:induction false} KeptWithinRow(n: int, j: nat, c: nat)
    requires n > 1 && c <= n
    ensures Kept(n, j * n + c) == Kept(n, j * n) + CornerRow(n, j)[..if c == 0 then 0 else c - 1]
    decreases c
  {
    if c == 1 {
      DivModRowMajor(n, j, 0);
    } else if c > 1 {
      KeptWithinRow(n, j, c - 1);
      DivModRowMajor(n, j, c - 1);
      assert CornerRow(n, j)[..c - 1] == CornerRow(n, j)[..c - 2] + [(c - 1) + j * n];
    }
  }

  /** The kept numbers below `j * n` are the corner rows `0 … j - 1`. */
  lemma {:induction false} KeptRows(n: int, j: nat)
    requires n > 1
    ensures Kept(n, j * n) == Concat(CornerRows(n, j))
    decreases j
  {
    var rows := CornerRows(n, j);
    if j > 0 {
      KeptRows(n, j - 1);
      KeptWithinRow(n, j - 1, n);
      Distribute(j - 1, n);
      assert CornerRow(n, j - 1)[..n - 1] == CornerRow(n, j - 1);
      assert rows[..j - 1] == CornerRows(n, j - 1);
      ConcatSnoc(rows, j - 1);
      assert rows[..j] == rows;
    }
  }

  function Map<T, U>(xs: seq<T>, f: T -> U): (r: seq<U>)
    ensures |r| == |xs|
  {
    seq(|xs|, k requires 0 <= k < |xs| => f(xs[k]))
  }

  function MapRows<T, U>(rows: seq<seq<T>>, f: T -> U): (r: seq<seq<U>>)
    ensures |r| == |rows|
  {
    seq(|rows|, j requires 0 <= j < |rows| => Map(rows[j], f))
  }

  /** Mapping a function over rows laid end to end maps it over each row. */
  lemma {:induction false} ConcatMap<T, U>(rows: seq<seq<T>>, f: T -> U)
    ensures Map(Concat(rows), f) == Concat(MapRows(rows, f))
    decreases |rows|
  {
    if |rows| > 0 {
      ConcatMap(rows[1..], f);
      assert MapRows(rows, f)[1..] == MapRows(rows[1..], f);
      assert Map(Concat(rows), f) == Map(rows[0], f) + Map(Concat(rows[1..]), f);
    }
  }

  /** Row by row, the planar faces over the corner rows are the reference's. */
  lemma PlanarRowsMatch(n: int)
    requires n > 1
    ensures MapRows(CornerRows(n, n - 1), QuadAt(n)) == ReferenceTable(n)
  {
    var mapped := MapRows(CornerRows(n, n - 1), QuadAt(n));
    var reference := ReferenceTable(n);
    forall r | 0 <= r < n - 1
      ensures mapped[r] == reference[r]
    {
      forall c | 0 <= c < n - 1
        ensures mapped[r][c] == reference[r][c]
      {
        Distribute(r, n);
      }
    }
  }

  /** For `N > 1`, `planar_faces(N)` lists exactly the faces of the nested-loop
      reference, in the same order. */
  lemma PlanarMatchesReference(n: int)
    requires n > 1
    ensures PlanarFaceList(n) == Concat(ReferenceTable(n))
  {
    KeptRows(n, n - 1);
    assert (n - 1) * n == n * (n - 1);
    ConcatMap(CornerRows(n, n - 1), QuadAt(n));
    PlanarRowsMatch(n);
  }

  /** For `N > 1` there are `(N - 1)²` faces. */
  lemma PlanarFaceCount(n: int)
    requires n > 1
    ensures |PlanarFaceList(n)| == (n - 1) * (n - 1)
  {
    PlanarMatchesReference(n);
    var table := ReferenceTable(n);
    assert forall j :: 0 <= j < |table| ==> |table[j]| == n - 1;
    ConcatLength(table, n - 1);
  }

  lemma {:induction false} KeptRange(n: int, hi: int)
    requires n != 0 || hi <= 1
    ensures forall x :: x in Kept(n, hi) ==> 1 <= x < hi
    decreases hi
  {
    if hi > 1 {
      KeptRange(n, hi - 1);
    }
  }

  /** Every planar face has `lr - ll == 1`, `ur - ul == 1`, `ul - ll == N`
      and `ur - lr == N`; for `N > 1` all of its indices lie in `1 … N²`. */
  lemma PlanarFaceCorners(n: int, k: nat)
    requires k < |PlanarFaceList(n)|
    ensures var q := PlanarFaceList(n)[k];
            q.lr - q.ll == 1 && q.ur - q.ul == 1 && q.ul - q.ll == n && q.ur - q.lr == n
    ensures n > 1 ==> IndicesIn(PlanarFaceList(n)[k], n * n)
  {
    var ns := Kept(n, n * (n - 1));
    if n > 1 {
      KeptRange(n, n * (n - 1));
      assert ns[k] in ns;
      assert n * (n - 1) + n == n * n;
    }
  }

  /** `Quads(planar_faces(N))` succeeds exactly for `N > 1`; for `N` of 0 or
      1 the empty float result is rejected for its element type. */
  lemma PlanarFacesAsQuads(n: nat)
    ensures Faces.FromValue(Faces.Quads, Nd(PlanarFaces(n))).Ok? <==> n > 1
    ensures n <= 1 ==> Faces.FromValue(Faces.Quads, Nd(PlanarFaces(n))) == Err(NotIntegral)
  {
    if n > 1 {
      PlanarFaceCount(n);
      MulMono(n - 1, 1, n - 1);
      QuadsOfFaceData(PlanarFaceList(n));
    } else {
      assert n * (n - 1) <= 1;
    }
  }

  // ---------------------------------------------------------------------------
  // The closing fold, as evidently intended

  /** The column after column `i` round a tube `N_θ` columns wide: the last
      column is followed by the first. */
  function NextColumn(nt: int, i: int): int {
    if i < nt then i + 1 else 1
  }

  /** The face for row `j`, column `i` whose right-hand corners lie on the
      next column round the tube. */
  function WrappedFace(nt: int, j: int, i: int): Quad
  {
    var row := j * nt;
    Quad(row + i, row + NextColumn(nt, i), row + nt + NextColumn(nt, i), row + nt + i)
  }

  function WrappedTable(nt: int, nz: int, close: bool): seq<seq<Quad>>
  {
    var w := RowWidth(nt, close);
    seq(RangeLength(0, nz - 1), j requires 0 <= j < RangeLength(0, nz - 1) =>
      seq(w, c requires 0 <= c < w => WrappedFace(nt, j, c + 1)))
  }

  function WrappedFaceList(nt: int, nz: int, close: bool): seq<Quad>
  {
    Concat(WrappedTable(nt, nz, close))
  }

  /** Each wrapped face joins column `i` to its neighbour round the tube,
      the closing face joining the last column to the first, and every index
      names one of the tube's `N_θ · N_z` vertices, for any `N_θ >= 1`. */
  lemma WrappedFaceShape(nt: int, nz: int, close: bool, j: nat, c: nat)
    requires nt >= 1 && j < RangeLength(0, nz - 1) && c < RowWidth(nt, close)
    ensures var q := WrappedFace(nt, j, c + 1);
            q.ul - q.ll == nt && q.ur - q.lr == nt
            && (c + 1 < nt ==> q.lr == q.ll + 1)
            && (c + 1 == nt ==> q.lr == j * nt + 1)
            && IndicesIn(q, nt * nz)
  {
    WrappedFaceBounds(nt, nz, j, c + 1);
  }

  lemma WrappedFaceBounds(nt: int, nz: int, j: nat, i: int)
    requires nt >= 1 && j + 2 <= nz && 1 <= i <= nt
    ensures IndicesIn(WrappedFace(nt, j, i), nt * nz)
  {
    var row := j * nt;
    MulMono(nt, j + 2, nz);
    MulMono(nt, 0, j);
    Distribute(j, nt);
    assert 0 <= row && row + 2 * nt <= nt * nz;
  }

  /** Without the closing face, the wrapped faces of an `N × N` tube are
      exactly the faces of the `N × N` plane, which is the layout the two
      generators are meant to share. */
  lemma WrappedOpenIsPlanar(n: int)
    requires n > 1
    ensures WrappedFaceList(n, n, false) == PlanarFaceList(n)
  {
    PlanarMatchesReference(n);
    WrappedTableIsReference(n);
  }

  /** Row by row, the open wrapped table of an `N × N` tube is the reference
      table of the `N × N` plane. */
  lemma WrappedTableIsReference(n: int)
    requires n > 1
    ensures WrappedTable(n, n, false) == ReferenceTable(n)
  {
    var wrapped := WrappedTable(n, n, false);
    var reference := ReferenceTable(n);
    assert |wrapped| == |reference| == n - 1;
    forall j | 0 <= j < n - 1
      ensures wrapped[j] == reference[j]
    {
      assert |wrapped[j]| == |reference[j]| == n - 1;
      forall c | 0 <= c < n - 1
        ensures wrapped[j][c] == reference[j][c]
      {
        WrappedFaceIsReference(n, j, c + 1);
      }
    }
  }

  /** Away from the closing column a wrapped face is the reference face. */
  lemma WrappedFaceIsReference(n: int, j: int, i: int)
    requires 1 <= i < n
    ensures WrappedFace(n, j, i) == ReferenceFace(n, j, i)
  {
  }

  /** As written, the fold already fires for column `N_θ - 1`, so the second
      face of an open three-column tube joins its second column back to the
      first instead of to the third, and the closing face of a closed tube
      lands on column 2 instead of column 1. */
  lemma CylindricalFoldCounterexample()
    ensures |CylindricalFaceList(3, 2, false)| == 2
    ensures CylindricalFaceList(3, 2, false)[1] == Quad(2, 1, 4, 5)
    ensures |CylindricalFaceList(3, 2, true)| == 3
    ensures CylindricalFaceList(3, 2, true)[2] == Quad(3, 2, 5, 6)
  {
    var open := CylindricalTable(3, 2, false);
    var closed := CylindricalTable(3, 2, true);
    assert |open| == 1 && |open[0]| == 2;
    assert |closed| == 1 && |closed[0]| == 3;
    assert open[0][1] == CylindricalFace(3, 0, 2) == Quad(2, 1, 4, 5);
    assert closed[0][2] == CylindricalFace(3, 0, 3) == Quad(3, 2, 5, 6);
    OneRow(open);
    OneRow(closed);
  }

  /** The wrapped faces of the same tubes join column 2 to column 3, and
      the closing face joins column 3 to column 1. */
  lemma WrappedFoldExample()
    ensures |WrappedFaceList(3, 2, false)| == 2
    ensures WrappedFaceList(3, 2, false)[1] == Quad(2, 3, 6, 5)
    ensures |WrappedFaceList(3, 2, true)| == 3
    ensures WrappedFaceList(3, 2, true)[2] == Quad(3, 1, 4, 6)
  {
    var open := WrappedTable(3, 2, false);
    var closed := WrappedTable(3, 2, true);
    assert |open| == 1 && |open[0]| == 2;
    assert |closed| == 1 && |closed[0]| == 3;
    assert open[0][1] == WrappedFace(3, 0, 2) == Quad(2, 3, 6, 5);
    assert closed[0][2] == WrappedFace(3, 0, 3) == Quad(3, 1, 4, 6);
    OneRow(open);
    OneRow(closed);
  }

  lemma OneRow<T>(rows: seq<seq<T>>)
    requires |rows| == 1
    ensures Concat(rows) == rows[0]
  {
    assert Concat(rows[1..]) == [];
  }
}

=== FILE: geometry.dfy ===
/** Geometries (topos/core/geometry.py and topos/core/views.py): the named
    containers the transforms and the file formats work on.  A mesh holds an
    optional vertex array and an optional face array; a world view wraps
    another geometry and places it at a position without changing it.
 */
module Geometries {
  import opened Errors
  import opened Wrappers
  import opened Arrays
  import opened Vertices
  import Faces
  import Views
  import Text

  /** A stored `_name`.  The name setter only ever stores a string, but the
      mesh constructor stores whatever it is given; `shown` is `str()` of
      such an object. */
  datatype Name = StrName(s: string) | OtherName(shown: string) {
    /** `"{}".format(name)` */
    function Shown(): string {
      if StrName? then s else shown
    }
  }

  /** The two concrete geometries.  A world view's name is always a string,
      since it is stored through the name setter. */
  datatype Geometry =
    | Mesh(verts: Option<VertexArray>, faces: Option<Faces.Faces>, meshName: Option<Name>)
    | WorldView(inner: Option<Geometry>, position: Array, viewName: string)

  // ---------------------------------------------------------------------------
  // The name property

  /** The getter `g.name`: the stored name, `"Geometry"` when none is stored. */
  function NameOf(g: Geometry): Name {
    match g
    case Mesh(_, _, n) => if n.None? then StrName("Geometry") else n.value
    case WorldView(_, _, n) => StrName(n)
  }

  /** The setter `g.name = value`: only a string is stored. */
  function SetName(g: Geometry, value: Name): (r: Result<Geometry>)
    ensures r.Ok? <==> value.StrName?
    ensures r.Err? ==> r.error == NotAString
    ensures r.Ok? ==> r.value.Mesh? == g.Mesh?
  {
    if !value.StrName? then Err(NotAString)
    else match g
      case Mesh(v, f, _) => Ok(Mesh(v, f, Some(value)))
      case WorldView(i, p, _) => Ok(WorldView(i, p, value.s))
  }

  /** Reading the name back after setting a string gives that string, and
      the setter changes nothing else. */
  lemma SetNameThenGet(g: Geometry, s: string)
    ensures SetName(g, StrName(s)).Ok?
    ensures NameOf(SetName(g, StrName(s)).value) == StrName(s)
    ensures g.Mesh? ==> SetName(g, StrName(s)).value.verts == g.verts
                        && SetName(g, StrName(s)).value.faces == g.faces
    ensures g.WorldView? ==> SetName(g, StrName(s)).value.inner == g.inner
                             && SetName(g, StrName(s)).value.position == g.position
  {
  }

  // ---------------------------------------------------------------------------
  // Mesh

  /** `Mesh(verts, faces, name)`: each of the first two arguments must be
      absent (`None`) or of its array class, vertices checked first; the name
      is stored as given, unchecked. */
  function NewMesh(verts: Arg<VertexArray>, faces: Arg<Faces.Faces>, name: Option<Name>): (r: Result<Geometry>)
    ensures r.Ok? <==> !verts.Mistyped? && !faces.Mistyped?
    ensures verts.Mistyped? ==> r == Err(NotAVertexArray)
    ensures !verts.Mistyped? && faces.Mistyped? ==> r == Err(NotAFaceArray)
    ensures r.Ok? ==> r.value.Mesh? && r.value.meshName == name
    ensures r.Ok? ==> (r.value.verts.Some? <==> verts.Present?) && (verts.Present? ==> r.value.verts.value == verts.value)
    ensures r.Ok? ==> (r.value.faces.Some? <==> faces.Present?) && (faces.Present? ==> r.value.faces.value == faces.value)
  {
    if verts.Mistyped? then Err(NotAVertexArray)
    else if faces.Mistyped? then Err(NotAFaceArray)
    else
      var v := if verts.Present? then Some(verts.value) else None;
      var f := if faces.Present? then Some(faces.value) else None;
      Ok(Mesh(v, f, name))
  }

  // ---------------------------------------------------------------------------
  // The `vertices` and `faces` properties

  /** `g.vertices`.  A mesh returns what it stores.  A world view takes the
      Cartesian view of its geometry's vertices, adds the position under
      numpy broadcasting and wraps the sum as a new Cartesian array; reading
      an attribute of a missing geometry or of missing vertices raises. */
  function VerticesOf(m: FloatMath, g: Geometry): (r: Result<Option<VertexArray>>)
    ensures g.Mesh? ==> r == Ok(g.verts)
    ensures g.WorldView? && g.inner.None? ==> r == Err(NoneHasNoAttribute("vertices"))
    ensures g.WorldView? && r.Ok? ==> r.value.Some? && r.value.value.system == Cartesian
    ensures g.WorldView? && g.inner.Some? && VerticesOf(m, g.inner.value) == Ok(None) ==>
              r == Err(NoneHasNoAttribute("cartesian"))
    decreases g
  {
    match g
    case Mesh(v, _, _) => Ok(v)
    case WorldView(inner, p, _) =>
      if inner.None? then Err(NoneHasNoAttribute("vertices"))
      else
        var v :- VerticesOf(m, inner.value);
        if v.None? then Err(NoneHasNoAttribute("cartesian"))
        else
          var world :- Views.WorldRows(View(m, v.value, Cartesian), p);
          Ok(Some(VertexArray(Cartesian, world)))
  }

  /** The geometry at the bottom of a chain of world views: the mesh whose
      faces every view in the chain reports, or `None` when some view wraps
      no geometry. */
  function Base(g: Geometry): (r: Option<Geometry>)
    ensures r.Some? ==> r.value.Mesh?
    decreases g
  {
    match g
    case Mesh(_, _, _) => Some(g)
    case WorldView(inner, _, _) => if inner.None? then None else Base(inner.value)
  }

  /** `g.faces`: a mesh's own faces; a world view passes its geometry's faces
      through, and raises when it wraps no geometry. */
  function FacesOf(g: Geometry): (r: Result<Option<Faces.Faces>>)
    ensures r.Ok? <==> Base(g).Some?
    ensures r.Ok? ==> r.value == Base(g).value.faces
    ensures r.Err? ==> r.error == NoneHasNoAttribute("faces")
    decreases g
  {
    match g
    case Mesh(_, f, _) => Ok(f)
    case WorldView(inner, _, _) =>
      if inner.None? then Err(NoneHasNoAttribute("faces")) else FacesOf(inner.value)
  }

  // ---------------------------------------------------------------------------
  // WorldView construction

  /** The setter `view.geometry = value`: `None` or a geometry is stored;
      anything else raises. */
  function CheckGeometry(value: Arg<Geometry>): (r: Result<Option<Geometry>>)
    ensures r.Ok? <==> !value.Mistyped?
    ensures r.Err? ==> r.error == NotAGeometry
    ensures value.Present? ==> r == Ok(Some(value.value))
    ensures value.Absent? ==> r == Ok(None)
  {
    match value
    case Absent => Ok(None)
    case Present(g) => Ok(Some(g))
    case Mistyped => Err(NotAGeometry)
  }

  /** `WorldView(geometry, position, name)`: the geometry setter, then the
      position setter with `np.array([0., 0., 0.])` for a missing position,
      then the name setter with `"WorldView:"` for a missing name. */
  function NewWorldView(geometry: Arg<Geometry>, position: Option<Value>, name: Option<Name>): (r: Result<Geometry>)
    ensures r.Ok? <==> !geometry.Mistyped?
                       && (position.None? || Views.CheckPosition(position.value).Ok?)
                       && (name.None? || name.value.StrName?)
    ensures geometry.Mistyped? ==> r == Err(NotAGeometry)
    ensures !geometry.Mistyped? && position.Some? && Views.CheckPosition(position.value).Err? ==>
              r == Err(Views.CheckPosition(position.value).error)
    ensures r.Err? && r.error == NotAString ==> name.Some? && name.value.OtherName?
    ensures r.Ok? ==> r.value.WorldView?
    ensures r.Ok? ==> r.value.inner == CheckGeometry(geometry).value
    ensures r.Ok? ==> r.value.position == if position.None? then Views.Origin else position.value.arr
    ensures r.Ok? ==> NameOf(r.value) == if name.None? then StrName("WorldView:") else name.value
  {
    var inner :- CheckGeometry(geometry);
    var p :- if position.None? then Ok(Views.Origin) else Views.CheckPosition(position.value);
    var n := if name.None? then StrName("WorldView:") else name.value;
    SetName(WorldView(inner, p, "WorldView:"), n)
  }

  /** The setter `view.position = value` on an existing world view. */
  function SetPosition(g: Geometry, value: Value): (r: Result<Geometry>)
    requires g.WorldView?
    ensures r.Ok? <==> Views.CheckPosition(value).Ok?
    ensures r.Ok? ==> r.value == WorldView(g.inner, value.arr, g.viewName)
  {
    var p :- Views.CheckPosition(value);
    Ok(WorldView(g.inner, p, g.viewName))
  }

  /** A world view at the default position reports the Cartesian view of its
      geometry's vertices, unchanged, and its geometry's faces. */
  lemma WorldViewAtOrigin(m: FloatMath, g: Geometry, va: VertexArray)
    requires VerticesOf(m, g) == Ok(Some(va))
    ensures NewWorldView(Present(g), None, None).Ok?
    ensures VerticesOf(m, NewWorldView(Present(g), None, None).value) == Ok(Some(VertexArray(Cartesian, View(m, va, Cartesian))))
    ensures FacesOf(NewWorldView(Present(g), None, None).value) == FacesOf(g)
    ensures NameOf(NewWorldView(Present(g), None, None).value) == StrName("WorldView:")
  {
    var w := NewWorldView(Present(g), None, None).value;
    assert w == WorldView(Some(g), Views.Origin, "WorldView:");
    Views.WorldRowsAtOrigin(View(m, va, Cartesian));
  }

  /** A shape-`(3,)` position translates: the view's vertices are the sum
      `Cartesian(verts.cartesian) + position` of the vertex arrays, row by row
      the wrapped geometry's Cartesian rows shifted by the position. */
  lemma WorldViewTranslates(m: FloatMath, g: Geometry, va: VertexArray, p: Array, name: string)
    requires VerticesOf(m, g) == Ok(Some(va)) && p.shape == [3]
    ensures var w := VerticesOf(m, WorldView(Some(g), p, name));
            w.Ok? && w.value.Some?
            && Ok(w.value.value) == Add(m, VertexArray(Cartesian, View(m, va, Cartesian)), ArrayOperand(p))
            && Length(w.value.value) == Length(va)
            && forall k :: 0 <= k < Length(va) ==> w.value.value.data[k] == View(m, va, Cartesian)[k].Plus(Shift(p))
  {
    Views.WorldRowsTranslate(m, View(m, va, Cartesian), p);
  }

  /** Views nest: a view of a view at positions `p` then `q` shifts each
      Cartesian row of the innermost geometry by `p` and then by `q`. */
  lemma NestedViewsShiftTwice(m: FloatMath, g: Geometry, va: VertexArray, p: Array, q: Array, n1: string, n2: string)
    requires VerticesOf(m, g) == Ok(Some(va)) && p.shape == [3] && q.shape == [3]
    ensures var w := VerticesOf(m, WorldView(Some(WorldView(Some(g), p, n1)), q, n2));
            w.Ok? && w.value.Some? && Length(w.value.value) == Length(va)
            && forall k :: 0 <= k < Length(va) ==>
                 w.value.value.data[k] == View(m, va, Cartesian)[k].Plus(Shift(p)).Plus(Shift(q))
  {
    var inner := WorldView(Some(g), p, n1);
    WorldViewTranslates(m, g, va, p, n1);
    var iv := VerticesOf(m, inner).value.value;
    assert iv.system == Cartesian;
    assert View(m, iv, Cartesian) == iv.data;
    WorldViewTranslates(m, inner, iv, q, n2);
  }

  /** Every world view in a chain reports the faces of the mesh at its
      bottom, whatever the positions. */
  lemma {:induction false} ViewsShareFaces(g: Geometry, p: Array, name: string)
    ensures FacesOf(WorldView(Some(g), p, name)) == FacesOf(g)
    ensures Base(g).Some? ==> FacesOf(WorldView(Some(g), p, name)) == Ok(Base(g).value.faces)
  {
  }

  // ---------------------------------------------------------------------------
  // __repr__

  /** `_repr_hook`: nothing for a mesh; the wrapped geometry's name and the
      position (rendered by `showArray`, numpy's `str`) for a world view. */
  function ReprHook(showArray: Array -> string, g: Geometry): (r: Result<string>)
    ensures r.Err? <==> g.WorldView? && g.inner.None?
    ensures r.Err? ==> r.error == NoneHasNoAttribute("name")
    ensures g.Mesh? ==> r == Ok("")
    ensures g.WorldView? && r.Ok? ==>
              r.value == Text.Terminated(["Geometry: " + NameOf(g.inner.value).Shown(), "Position: " + showArray(g.position)])
  {
    match g
    case Mesh(_, _, _) => Ok("")
    case WorldView(inner, p, _) =>
      if inner.None? then Err(NoneHasNoAttribute("name"))
      else
        var lines := ["Geometry: " + NameOf(inner.value).Shown(), "Position: " + showArray(p)];
        assert lines[1..][1..] == [];
        assert Text.Terminated(lines[1..]) == lines[1] + "\n";
        assert Text.Terminated(lines) == lines[0] + "\n" + (lines[1] + "\n");
        Ok("Geometry: " + NameOf(inner.value).Shown() + "\n" + "Position: " + showArray(p) + "\n")
  }

  /** `"Vertices: {}\n".format(length)` when there are vertices, else nothing. */
  function VertexPart(v: Option<VertexArray>): string {
    if v.Some? then "Vertices: " + Text.IntText(Length(v.value)) + "\n" else ""
  }

  /** `"Faces: {}\n".format(length)` when there are faces, else nothing. */
  function FacePart(f: Option<Faces.Faces>): string {
    if f.Some? then "Faces: " + Text.IntText(Faces.Length(f.value)) + "\n" else ""
  }

  /** The `Vertices: n` and `Faces: m` lines: present only for present arrays. */
  function CountLines(v: Option<VertexArray>, f: Option<Faces.Faces>): seq<string> {
    (if v.Some? then ["Vertices: " + Text.IntText(Length(v.value))] else [])
    + (if f.Some? then ["Faces: " + Text.IntText(Faces.Length(f.value))] else [])
  }

  /** `repr(g)`: the name line, the hook, then a count line for each of the
      vertices and the faces that is present; reading either property may
      raise for a world view. */
  function GeometryRepr(m: FloatMath, showArray: Array -> string, g: Geometry): Result<string>
  {
    var head := NameOf(g).Shown() + "\n";
    var hook :- ReprHook(showArray, g);
    var v :- VerticesOf(m, g);
    var f :- FacesOf(g);
    Ok(head + hook + VertexPart(v) + FacePart(f))
  }

  /** A mesh's representation is its name line and then one count line per
      array it holds, vertices first; each line reads back. */
  lemma MeshReprLines(m: FloatMath, showArray: Array -> string, g: Geometry)
    requires g.Mesh? && '\n' !in NameOf(g).Shown()
    ensures GeometryRepr(m, showArray, g).Ok?
    ensures Text.Lines(GeometryRepr(m, showArray, g).value) == [NameOf(g).Shown()] + CountLines(g.verts, g.faces)
  {
    ReprTerminated(m, showArray, g, [NameOf(g).Shown()]);
    CountLinesClean(g.verts, g.faces);
    Text.TerminatedLines([NameOf(g).Shown()] + CountLines(g.verts, g.faces));
  }

  /** A world view over a mesh with vertices: name line, geometry line,
      position line, then the vertex count, which is the mesh's, and the
      mesh's face count when it has faces. */
  lemma WorldViewReprLines(m: FloatMath, showArray: Array -> string, g: Geometry, p: Array, name: string)
    requires g.Mesh? && g.verts.Some? && p.shape == [3]
    requires '\n' !in name && '\n' !in NameOf(g).Shown() && '\n' !in showArray(p)
    ensures GeometryRepr(m, showArray, WorldView(Some(g), p, name)).Ok?
    ensures Text.Lines(GeometryRepr(m, showArray, WorldView(Some(g), p, name)).value)
         == [name, "Geometry: " + NameOf(g).Shown(), "Position: " + showArray(p)] + CountLines(g.verts, g.faces)
  {
    var w := WorldView(Some(g), p, name);
    var hookLines := ["Geometry: " + NameOf(g).Shown(), "Position: " + showArray(p)];
    WorldViewTranslates(m, g, g.verts.value, p, name);
    var v := VerticesOf(m, w).value;
    assert Length(v.value) == Length(g.verts.value);
    assert CountLines(v, g.faces) == CountLines(g.verts, g.faces);
    ReprTerminated(m, showArray, w, [name] + hookLines);
    CountLinesClean(g.verts, g.faces);
    assert [name] + hookLines == [name, "Geometry: " + NameOf(g).Shown(), "Position: " + showArray(p)];
    Text.TerminatedLines([name, "Geometry: " + NameOf(g).Shown(), "Position: " + showArray(p)] + CountLines(g.verts, g.faces));
  }

  /** The representation, when it succeeds, is the head lines followed by the
      count lines, all newline-terminated. */
  lemma ReprTerminated(m: FloatMath, showArray: Array -> string, g: Geometry, headLines: seq<string>)
    requires ReprHook(showArray, g).Ok? && VerticesOf(m, g).Ok? && FacesOf(g).Ok?
    requires Text.Terminated(headLines) == NameOf(g).Shown() + "\n" + ReprHook(showArray, g).value
    ensures GeometryRepr(m, showArray, g)
         == Ok(Text.Terminated(headLines + CountLines(VerticesOf(m, g).value, FacesOf(g).value)))
  {
    ReprSplit(m, showArray, g);
    Text.TerminatedAppend(headLines, CountLines(VerticesOf(m, g).value, FacesOf(g).value));
  }

  /** The representation is the head, then the count lines. */
  lemma ReprSplit(m: FloatMath, showArray: Array -> string, g: Geometry)
    requires ReprHook(showArray, g).Ok? && VerticesOf(m, g).Ok? && FacesOf(g).Ok?
    ensures GeometryRepr(m, showArray, g)
         == Ok((NameOf(g).Shown() + "\n" + ReprHook(showArray, g).value)
               + Text.Terminated(CountLines(VerticesOf(m, g).value, FacesOf(g).value)))
  {
    var v := VerticesOf(m, g).value;
    var f := FacesOf(g).value;
    var head := NameOf(g).Shown() + "\n";
    var hook := ReprHook(showArray, g).value;
    assert GeometryRepr(m, showArray, g) == Ok(head + hook + VertexPart(v) + FacePart(f));
    CountPartsTerminated(v, f);
    assert head + hook + VertexPart(v) + FacePart(f) == (head + hook) + (VertexPart(v) + FacePart(f));
  }

  lemma CountPartsTerminated(v: Option<VertexArray>, f: Option<Faces.Faces>)
    ensures Text.Terminated(CountLines(v, f)) == VertexPart(v) + FacePart(f)
  {
    var vl := if v.Some? then ["Vertices: " + Text.IntText(Length(v.value))] else [];
    var fl := if f.Some? then ["Faces: " + Text.IntText(Faces.Length(f.value))] else [];
    assert Text.Terminated(vl) == VertexPart(v);
    assert Text.Terminated(fl) == FacePart(f);
    Text.TerminatedAppend(vl, fl);
  }

  lemma CountLinesClean(v: Option<VertexArray>, f: Option<Faces.Faces>)
    ensures forall i :: 0 <= i < |CountLines(v, f)| ==> '\n' !in CountLines(v, f)[i]
  {
  }
}

=== FILE: io.dfy ===
/** The file formats (topos/core/io.py): text assembled from a geometry's
    name and the `fmt` output of its vertex and face arrays.  OBJ can only be
    written; JSON is written, and read back from an already-parsed record.
 */
module Formats {
  import opened Errors
  import opened Wrappers
  import opened Arrays
  import opened Vertices
  import opened Geometries
  import Faces
  import Text

  /** The two `DataFormat` implementations; both declare `Geometry` as the
      type they handle. */
  datatype Format = Obj | Json

  /** `fmt.dumps(obj)`: `obj` is `None` when it is not a geometry, which
      raises before anything is written. */
  function Dumps(m: FloatMath, show: real -> Text.Word, fmt: Format, obj: Option<Geometry>): (r: Result<string>)
    ensures obj.None? ==> r == Err(NotAGeometry)
    ensures obj.Some? && fmt == Obj ==> r == ObjDump(m, show, obj.value)
    ensures obj.Some? && fmt == Json ==> r == JsonDump(m, show, obj.value)
  {
    if obj.None? then Err(NotAGeometry)
    else if fmt == Obj then ObjDump(m, show, obj.value)
    else JsonDump(m, show, obj.value)
  }

  /** `fmt.loads(data)` for OBJ: reading is not supported. */
  function ObjLoad(data: string): (r: Result<Geometry>)
    ensures r == Err(NotSupported)
  {
    Err(NotSupported)
  }

  // ---------------------------------------------------------------------------
  // The array parts, written by the arrays' `fmt`

  /** The arguments of a `fmt` call on a geometry's array: a format string of
      one field per column, `lead` before the first, `between` between two,
      `trail` after the last; then the block's prefix, suffix and row
      separator. */
  datatype Layout = Layout(lead: string, between: string, trail: string, prefix: string, suffix: string, sep: string)

  /** `fmt("v {} {} {}", suffix="\n")` */
  const ObjVertexLayout := Layout("v ", " ", "", "", "\n", "\n")

  /** `fmt("f " + " ".join("{}" ...), suffix="\n")` */
  const ObjFaceLayout := Layout("f ", " ", "", "", "\n", "\n")

  /** `fmt("[" + ", ".join("{}" ...) + "]", prefix="[", suffix="]", sep=", ")`,
      for vertices and faces alike. */
  const JsonLayout := Layout("[", ", ", "]", "[", "]", ", ")

  /** The line of one row: `lead`, its fields joined by `between`, `trail`. */
  function LaidOut(l: Layout, fields: seq<string>): string {
    l.lead + Text.Join(l.between, fields) + l.trail
  }

  /** The block of a sequence of rows: the prefix, the rows' lines joined by
      the separator, the suffix. */
  function Block(l: Layout, rows: seq<seq<string>>): string {
    l.prefix + Text.Join(l.sep, seq(|rows|, k requires 0 <= k < |rows| => LaidOut(l, rows[k]))) + l.suffix
  }

  /** `geometry.vertices.fmt(...)` with three fields: missing vertices raise
      (`None` has no `fmt`); otherwise the block of the rendered rows of the
      Cartesian view, so that zero vertices leave just prefix and suffix. */
  function DumpVertices(m: FloatMath, show: real -> Text.Word, g: Geometry, l: Layout): (r: Result<string>)
    ensures r.Ok? <==> VerticesOf(m, g).Ok? && VerticesOf(m, g).value.Some?
    ensures VerticesOf(m, g) == Ok(None) ==> r == Err(NoneHasNoAttribute("fmt"))
    ensures VerticesOf(m, g).Err? ==> r == Err(VerticesOf(m, g).error)
    ensures r.Ok? ==> r.value == Block(l, Rendered(show, View(m, VerticesOf(m, g).value.value, Cartesian)))
  {
    var v :- VerticesOf(m, g);
    if v.None? then Err(NoneHasNoAttribute("fmt"))
    else
      var t := Text.Fields(l.lead, l.between, l.trail, 3);
      var rendered := Rendered(show, View(m, v.value, Cartesian));
      FmtVertexLines(m, show, v.value, l.lead, l.between, l.trail, l.prefix, l.suffix, l.sep);
      assert Text.FormatRows(t, rendered).value == seq(|rendered|, k requires 0 <= k < |rendered| => LaidOut(l, rendered[k]));
      Ok(Fmt(m, show, v.value, t, l.prefix, l.suffix, l.sep).value)
  }

  /** `geometry.faces.fmt(...)` with `num_sides` fields: missing faces raise
      (`None` has no `num_sides`); otherwise the block of the faces'
      rendered indices. */
  function DumpFaces(g: Geometry, l: Layout): (r: Result<string>)
    ensures r.Ok? <==> FacesOf(g).Ok? && FacesOf(g).value.Some?
    ensures FacesOf(g) == Ok(None) ==> r == Err(NoneHasNoAttribute("num_sides"))
    ensures FacesOf(g).Err? ==> r == Err(FacesOf(g).error)
    ensures r.Ok? ==> r.value == Block(l, Faces.Rendered(FacesOf(g).value.value.rows))
  {
    var f :- FacesOf(g);
    if f.None? then Err(NoneHasNoAttribute("num_sides"))
    else
      var fa := f.value;
      var t := Text.Fields(l.lead, l.between, l.trail, fa.kind.NumSides());
      var rendered := Faces.Rendered(fa.rows);
      Faces.FmtFaceLines(fa, l.lead, l.between, l.trail, l.prefix, l.suffix, l.sep);
      assert Text.FormatRows(t, rendered).value == seq(|rendered|, k requires 0 <= k < |rendered| => LaidOut(l, rendered[k]));
      Ok(Faces.Fmt(fa, t, l.prefix, l.suffix, l.sep).value)
  }

  /** An empty array writes just the prefix and the suffix: a lone newline
      in OBJ, `[]` in JSON. */
  lemma EmptyBlock(l: Layout)
    ensures Block(l, []) == l.prefix + l.suffix
    ensures Block(ObjVertexLayout, []) == "\n" && Block(JsonLayout, []) == "[]"
  {
  }

  // ---------------------------------------------------------------------------
  // OBJ

  /** `"o {}\n".format(geometry.name)` */
  function ObjName(g: Geometry): string {
    "o " + NameOf(g).Shown() + "\n"
  }

  /** `ObjFormat._dump`: the name part, the vertex part, the face part. */
  function ObjDump(m: FloatMath, show: real -> Text.Word, g: Geometry): (r: Result<string>)
    ensures r.Ok? <==> DumpVertices(m, show, g, ObjVertexLayout).Ok? && DumpFaces(g, ObjFaceLayout).Ok?
    ensures DumpVertices(m, show, g, ObjVertexLayout).Err? ==> r == Err(DumpVertices(m, show, g, ObjVertexLayout).error)
    ensures r.Ok? ==> r.value == ObjName(g) + DumpVertices(m, show, g, ObjVertexLayout).value + DumpFaces(g, ObjFaceLayout).value
  {
    var name := ObjName(g);
    var vertices :- DumpVertices(m, show, g, ObjVertexLayout);
    var faces :- DumpFaces(g, ObjFaceLayout);
    Ok(name + vertices + faces)
  }

  /** The OBJ line of one vertex. */
  function VertexLine(show: real -> Text.Word, p: Vec3): string {
    "v " + Text.Join(" ", [show(p.c0), show(p.c1), show(p.c2)])
  }

  /** The OBJ line of one face. */
  function FaceLine(row: seq<int>): string {
    "f " + Text.Join(" ", seq(|row|, c requires 0 <= c < |row| => Text.IntText(row[c])))
  }

  /** The `v` lines of a sequence of Cartesian rows, in order. */
  function VertexLines(show: real -> Text.Word, rows: seq<Vec3>): (r: seq<string>)
    ensures |r| == |rows|
    ensures forall k :: 0 <= k < |r| ==> r[k] == VertexLine(show, rows[k])
  {
    seq(|rows|, k requires 0 <= k < |rows| => VertexLine(show, rows[k]))
  }

  /** The `f` lines of a sequence of faces, in order. */
  function FaceLines(rows: seq<seq<int>>): (r: seq<string>)
    ensures |r| == |rows|
    ensures forall k :: 0 <= k < |r| ==> r[k] == FaceLine(rows[k])
  {
    seq(|rows|, k requires 0 <= k < |rows| => FaceLine(rows[k]))
  }

  /** A geometry with vertices and faces is written as the lines
      `o <name>`, then one `v` line per Cartesian vertex in order, then one
      `f` line per face in order, each line ending in a newline. */
  lemma ObjDumpLines(m: FloatMath, show: real -> Text.Word, g: Geometry)
    requires VerticesOf(m, g).Ok? && VerticesOf(m, g).value.Some? && Length(VerticesOf(m, g).value.value) > 0
    requires FacesOf(g).Ok? && FacesOf(g).value.Some? && Faces.Length(FacesOf(g).value.value) > 0
    requires '\n' !in NameOf(g).Shown()
    ensures ObjDump(m, show, g).Ok?
    ensures var va := VerticesOf(m, g).value.value;
            var f := FacesOf(g).value.value;
            Text.Lines(ObjDump(m, show, g).value)
              == ["o " + NameOf(g).Shown()] + VertexLines(show, View(m, va, Cartesian)) + FaceLines(f.rows)
  {
    var va := VerticesOf(m, g).value.value;
    var f := FacesOf(g).value.value;
    var vl := VertexLines(show, View(m, va, Cartesian));
    var fl := FaceLines(f.rows);
    ObjVertexPart(m, show, g);
    ObjFacePart(g);
    var head := ["o " + NameOf(g).Shown()];
    assert Text.Terminated(head) == ObjName(g) by {
      assert Text.Terminated(head) == head[0] + "\n" + Text.Terminated([]);
    }
    Text.TerminatedAppend(head, vl);
    Text.TerminatedAppend(head + vl, fl);
    assert ObjDump(m, show, g).value == Text.Terminated(head + vl + fl);
    VertexLinesClean(show, View(m, va, Cartesian));
    FaceLinesClean(f.rows);
    var all := head + vl + fl;
    assert forall i :: 0 <= i < |all| ==> '\n' !in all[i];
    Text.TerminatedLines(all);
  }

  /** The OBJ vertex part of a geometry with vertices is its `v` lines, each
      newline-terminated. */
  lemma ObjVertexPart(m: FloatMath, show: real -> Text.Word, g: Geometry)
    requires VerticesOf(m, g).Ok? && VerticesOf(m, g).value.Some? && Length(VerticesOf(m, g).value.value) > 0
    ensures DumpVertices(m, show, g, ObjVertexLayout) == Ok(Text.Terminated(VertexLines(show, View(m, VerticesOf(m, g).value.value, Cartesian))))
  {
    var view := View(m, VerticesOf(m, g).value.value, Cartesian);
    var rendered := Rendered(show, view);
    forall k | 0 <= k < |rendered| ensures LaidOut(ObjVertexLayout, rendered[k]) == VertexLine(show, view[k]) {
      assert rendered[k] == [show(view[k].c0), show(view[k].c1), show(view[k].c2)];
    }
    TerminatedBlock(ObjVertexLayout, rendered, VertexLines(show, view));
  }

  /** The OBJ face part of a geometry with faces is its `f` lines, each
      newline-terminated. */
  lemma ObjFacePart(g: Geometry)
    requires FacesOf(g).Ok? && FacesOf(g).value.Some? && Faces.Length(FacesOf(g).value.value) > 0
    ensures DumpFaces(g, ObjFaceLayout) == Ok(Text.Terminated(FaceLines(FacesOf(g).value.value.rows)))
  {
    var rows := FacesOf(g).value.value.rows;
    var rendered := Faces.Rendered(rows);
    forall k | 0 <= k < |rendered| ensures LaidOut(ObjFaceLayout, rendered[k]) == FaceLine(rows[k]) {
      assert rendered[k] == seq(|rows[k]|, c requires 0 <= c < |rows[k]| => Text.IntText(rows[k][c]));
    }
    TerminatedBlock(ObjFaceLayout, rendered, FaceLines(rows));
  }

  /** A non-empty block with no prefix and newline separator and suffix is
      its lines, each newline-terminated. */
  lemma TerminatedBlock(l: Layout, rows: seq<seq<string>>, lines: seq<string>)
    requires l.prefix == "" && l.sep == "\n" && l.suffix == "\n"
    requires |lines| == |rows| > 0
    requires forall k :: 0 <= k < |rows| ==> LaidOut(l, rows[k]) == lines[k]
    ensures Block(l, rows) == Text.Terminated(lines)
  {
    assert seq(|rows|, k requires 0 <= k < |rows| => LaidOut(l, rows[k])) == lines;
    Text.JoinTerminated(lines);
    assert "" + Text.Join("\n", lines) == Text.Join("\n", lines);
  }

  /** No `v` line holds a newline. */
  lemma VertexLinesClean(show: real -> Text.Word, rows: seq<Vec3>)
    ensures forall k :: 0 <= k < |rows| ==> '\n' !in VertexLine(show, rows[k])
  {
    forall k | 0 <= k < |rows| ensures '\n' !in VertexLine(show, rows[k]) {
      Text.JoinAvoids(" ", [show(rows[k].c0), show(rows[k].c1), show(rows[k].c2)], '\n');
    }
  }

  /** No `f` line holds a newline. */
  lemma FaceLinesClean(rows: seq<seq<int>>)
    ensures forall k :: 0 <= k < |rows| ==> '\n' !in FaceLine(rows[k])
  {
    forall k | 0 <= k < |rows| ensures '\n' !in FaceLine(rows[k]) {
      var row := rows[k];
      Text.JoinAvoids(" ", seq(|row|, c requires 0 <= c < |row| => Text.IntText(row[c])), '\n');
    }
  }

  /** A face line splits at spaces into `f` and one numeral per index, and
      each numeral reads back as its index. */
  lemma FaceLineReadsBack(row: seq<int>)
    requires |row| > 0
    ensures var parts := Text.Split(FaceLine(row), ' ');
            |parts| == 1 + |row| && parts[0] == "f"
            && forall c :: 0 <= c < |row| ==> Text.ParseInt(parts[1 + c]) == Some(row[c])
  {
    var numerals := seq(|row|, c requires 0 <= c < |row| => Text.IntText(row[c]));
    assert FaceLine(row) == "f" + [' '] + Text.Join([' '], numerals);
    Text.SplitAfterFirst("f", Text.Join([' '], numerals), ' ');
    Text.SplitJoin(numerals, ' ');
    forall c | 0 <= c < |row| ensures Text.ParseInt(numerals[c]) == Some(row[c]) {
      Text.ParseIntText(row[c]);
    }
  }

  // ---------------------------------------------------------------------------
  // JSON

  /** The JSON text of one row of numerals: `[a, b, ...]`. */
  function JsonList(items: seq<string>): string {
    "[" + Text.Join(", ", items) + "]"
  }

  /** The JSON face text is a list of lists: one `[i, j, ...]` per face, in
      order. */
  lemma JsonFacesText(g: Geometry)
    requires FacesOf(g).Ok? && FacesOf(g).value.Some?
    ensures var rendered := Faces.Rendered(FacesOf(g).value.value.rows);
            DumpFaces(g, JsonLayout) == Ok(JsonList(seq(|rendered|, k requires 0 <= k < |rendered| => JsonList(rendered[k]))))
  {
    var rendered := Faces.Rendered(FacesOf(g).value.value.rows);
    JsonBlock(rendered);
  }

  /** The JSON vertex text is a list of `[x, y, z]` triples of the Cartesian
      view, in order. */
  lemma JsonVerticesText(m: FloatMath, show: real -> Text.Word, g: Geometry)
    requires VerticesOf(m, g).Ok? && VerticesOf(m, g).value.Some?
    ensures var rendered := Rendered(show, View(m, VerticesOf(m, g).value.value, Cartesian));
            DumpVertices(m, show, g, JsonLayout) == Ok(JsonList(seq(|rendered|, k requires 0 <= k < |rendered| => JsonList(rendered[k]))))
  {
    var rendered := Rendered(show, View(m, VerticesOf(m, g).value.value, Cartesian));
    JsonBlock(rendered);
  }

  /** A JSON block is a list of lists. */
  lemma JsonBlock(rows: seq<seq<string>>)
    ensures Block(JsonLayout, rows) == JsonList(seq(|rows|, k requires 0 <= k < |rows| => JsonList(rows[k])))
  {
    assert seq(|rows|, k requires 0 <= k < |rows| => LaidOut(JsonLayout, rows[k]))
        == seq(|rows|, k requires 0 <= k < |rows| => JsonList(rows[k]));
  }

  /** `'"{}"'.format(name)` */
  function Quoted(s: string): string {
    "\"" + s + "\""
  }

  /** `JsonFormat._dump`: the template
      `{"name": $name, "vertices": $vertices, "faces": $faces}` filled with
      the quoted name and the two array texts, computed in that order. */
  function JsonDump(m: FloatMath, show: real -> Text.Word, g: Geometry): (r: Result<string>)
    ensures r.Ok? <==> DumpVertices(m, show, g, JsonLayout).Ok? && DumpFaces(g, JsonLayout).Ok?
    ensures DumpVertices(m, show, g, JsonLayout).Err? ==> r == Err(DumpVertices(m, show, g, JsonLayout).error)
    ensures r.Ok? ==>
              r.value == "{\"name\": " + Quoted(NameOf(g).Shown()) + ", \"vertices\": " + DumpVertices(m, show, g, JsonLayout).value
                         + ", \"faces\": " + DumpFaces(g, JsonLayout).value + "}"
  {
    var name := Quoted(NameOf(g).Shown());
    var vertices :- DumpVertices(m, show, g, JsonLayout);
    var faces :- DumpFaces(g, JsonLayout);
    Ok("{\"name\": " + name + ", \"vertices\": " + vertices + ", \"faces\": " + faces + "}")
  }

  /** The `name` field of a parsed record: absent, `null`, or a value. */
  datatype JsonName = Missing | Null | Given(name: Name)

  /** What `json.loads` produced, as far as the loader looks at it: each
      array field present or not, and as `np.array` builds it; the name
      field as above. */
  datatype JsonRecord = JsonRecord(vertices: Option<Array>, faces: Option<Array>, name: JsonName)

  /** The name the loader passes to `Mesh`: `"<json_mesh>"` for a missing
      field, `None` for `null`, the value otherwise. */
  function LoadedName(n: JsonName): Option<Name> {
    match n
    case Missing => Some(StrName("<json_mesh>"))
    case Null => None
    case Given(v) => Some(v)
  }

  /** `JsonFormat._load` over a parsed record: both array fields are
      required, vertices first; the vertices are always Cartesian and the
      faces always quads; a missing name defaults to `"<json_mesh>"` and a
      `null` one leaves the mesh unnamed, so that it reports `"Geometry"`. */
  function JsonLoad(record: JsonRecord): (r: Result<Geometry>)
    ensures record.vertices.None? ==> r == Err(MissingField("vertices"))
    ensures record.vertices.Some? && record.faces.None? ==> r == Err(MissingField("faces"))
    ensures r.Ok? <==> record.vertices.Some? && record.faces.Some?
                       && FromValue(Cartesian, Nd(record.vertices.value)).Ok?
                       && Faces.FromValue(Faces.Quads, Nd(record.faces.value)).Ok?
    ensures r.Ok? ==> r.value.Mesh? && r.value.verts.Some? && r.value.faces.Some?
                      && r.value.verts.value.system == Cartesian
                      && r.value.faces.value.kind == Faces.Quads
    ensures r.Ok? && record.name.Missing? ==> NameOf(r.value) == StrName("<json_mesh>")
    ensures r.Ok? && record.name.Null? ==> NameOf(r.value) == StrName("Geometry")
    ensures r.Ok? && record.name.Given? ==> NameOf(r.value) == record.name.name
  {
    if record.vertices.None? then Err(MissingField("vertices"))
    else if record.faces.None? then Err(MissingField("faces"))
    else
      var verts :- FromValue(Cartesian, Nd(record.vertices.value));
      var faces :- Faces.FromValue(Faces.Quads, Nd(record.faces.value));
      NewMesh(Present(verts), Present(faces), LoadedName(record.name))
  }

  /** A name the dump writes between quotes without changing how it reads:
      `'"{}"'.format(name)` does no escaping, so a quote, a backslash or a
      control character would end the string early, start an escape, or make
      the text invalid JSON. */
  predicate PlainJsonText(s: string) {
    forall i :: 0 <= i < |s| ==> s[i] != '"' && s[i] != '\\' && s[i] >= ' '
  }

  /** `np.array` of a dumped list: the `(n, w)` array of its rows, or, for
      the text `[]`, the empty float array of shape `(0,)`. */
  function DumpedVertices(m: FloatMath, va: VertexArray): Array {
    if Length(va) == 0 then EmptyArray else ToArray(View(m, va, Cartesian))
  }

  function DumpedFaces(f: Faces.Faces): Array {
    if Faces.Length(f) == 0 then EmptyArray else Faces.ToValue(f).arr
  }

  /** The record `json.loads` makes of the text `JsonDump` writes for a mesh
      with the given arrays and a plain name: the Cartesian rows, the face
      indices and the name as a string. */
  function DumpedRecord(m: FloatMath, va: VertexArray, f: Faces.Faces, name: Name): JsonRecord
    requires PlainJsonText(name.Shown())
  {
    JsonRecord(Some(DumpedVertices(m, va)), Some(DumpedFaces(f)), Given(StrName(name.Shown())))
  }

  /** Loading what a quad mesh with vertices and faces dumps gives back a
      mesh with its Cartesian vertices, its faces and its name. */
  lemma JsonRoundTrip(m: FloatMath, va: VertexArray, f: Faces.Faces, name: Name)
    requires f.kind == Faces.Quads && Length(va) > 0 && Faces.Length(f) > 0
    requires PlainJsonText(name.Shown())
    ensures JsonLoad(DumpedRecord(m, va, f, name))
         == Ok(Mesh(Some(VertexArray(Cartesian, View(m, va, Cartesian))), Some(f), Some(StrName(name.Shown()))))
  {
    FromToArray(Cartesian, View(m, va, Cartesian));
    Faces.FromToValue(f);
  }

  /** The loader always builds quads, so what a triangle mesh with faces
      dumps does not load back. */
  lemma JsonTrianglesDoNotLoad(m: FloatMath, va: VertexArray, f: Faces.Faces, name: Name)
    requires f.kind == Faces.Tris && Length(va) > 0 && Faces.Length(f) > 0
    requires PlainJsonText(name.Shown())
    ensures JsonLoad(DumpedRecord(m, va, f, name)) == Err(BadShape)
  {
    FromToArray(Cartesian, View(m, va, Cartesian));
  }

  /** A mesh without vertices dumps `"vertices": []`, which `np.array` reads
      as an empty one-dimensional array, which `Cartesian` rejects. */
  lemma JsonNoVerticesDoNotLoad(m: FloatMath, show: real -> Text.Word, va: VertexArray, f: Faces.Faces, name: Name)
    requires Length(va) == 0 && PlainJsonText(name.Shown())
    ensures DumpVertices(m, show, Mesh(Some(va), Some(f), Some(name)), JsonLayout) == Ok("[]")
    ensures JsonLoad(DumpedRecord(m, va, f, name)) == Err(BadShape)
  {
    assert Rendered(show, View(m, va, Cartesian)) == [];
    EmptyBlock(JsonLayout);
  }

  /** A mesh with vertices but without faces dumps `"faces": []`, which
      `np.array` reads as an empty one-dimensional array, which the quad
      constructor rejects. */
  lemma JsonNoFacesDoNotLoad(m: FloatMath, show: real -> Text.Word, va: VertexArray, f: Faces.Faces, name: Name)
    requires Faces.Length(f) == 0 && Length(va) > 0 && PlainJsonText(name.Shown())
    ensures DumpFaces(Mesh(Some(va), Some(f), Some(name)), JsonLayout) == Ok("[]")
    ensures JsonLoad(DumpedRecord(m, va, f, name)) == Err(BadShape)
  {
    assert Faces.Rendered(f.rows) == [];
    EmptyBlock(JsonLayout);
    FromToArray(Cartesian, View(m, va, Cartesian));
  }
}

=== FILE: text.dfy ===
/** Text assembly shared by the array formatters and the file formats:
    `sep.join`, `str.split`, decimal numerals, and `str.format` over format
    strings whose fields are automatic `{}` or named `{key}` fields.
 */
module Text {
  import opened Errors
  import opened Wrappers

  /** A rendered number: non-empty, and free of the characters the output
      formats use as delimiters (space, newline, comma, brackets). */
  predicate IsWord(s: string) {
    |s| > 0 && forall i :: 0 <= i < |s| ==> s[i] !in " \n,[]"
  }

  type Word = s: string | IsWord(s) witness "0"

  /** Python's `sep.join(items)`. */
  function Join(sep: string, items: seq<string>): string
  {
    if |items| == 0 then ""
    else if |items| == 1 then items[0]
    else items[0] + sep + Join(sep, items[1..])
  }

  /** Python's `s.split(c)` for a one-character separator. */
  function Split(s: string, c: char): (r: seq<string>)
    ensures |r| > 0
  {
    if |s| == 0 then [""]
    else
      var rest := Split(s[1..], c);
      if s[0] == c then [""] + rest
      else [[s[0]] + rest[0]] + rest[1..]
  }

  /** Python's `s.split("\n")[:-1]`: the lines of a block whose lines all end in a newline. */
  function Lines(s: string): seq<string>
  {
    var parts := Split(s, '\n');
    parts[..|parts| - 1]
  }

  lemma {:induction false} SplitWithoutSeparator(a: string, c: char)
    requires c !in a
    ensures Split(a, c) == [a]
    decreases |a|
  {
    if |a| > 0 {
      SplitWithoutSeparator(a[1..], c);
      assert [a[0]] + a[1..] == a;
    }
  }

  lemma {:induction false} SplitAfterFirst(a: string, b: string, c: char)
    requires c !in a
    ensures Split(a + [c] + b, c) == [a] + Split(b, c)
    decreases |a|
  {
    var s := a + [c] + b;
    if |a| == 0 {
      assert s[0] == c && s[1..] == b;
    } else {
      assert s[0] == a[0];
      assert s[1..] == a[1..] + [c] + b;
      SplitAfterFirst(a[1..], b, c);
      assert [a[0]] + a[1..] == a;
    }
  }

  /** `split` undoes `join` when no item contains the separator. */
  lemma {:induction false} SplitJoin(items: seq<string>, c: char)
    requires |items| > 0
    requires forall i :: 0 <= i < |items| ==> c !in items[i]
    ensures Split(Join([c], items), c) == items
    decreases |items|
  {
    if |items| == 1 {
      SplitWithoutSeparator(items[0], c);
    } else {
      SplitJoin(items[1..], c);
      SplitAfterFirst(items[0], Join([c], items[1..]), c);
      assert [items[0]] + items[1..] == items;
    }
  }

  lemma {:induction false} JoinSnoc(sep: string, items: seq<string>, x: string)
    requires |items| > 0
    ensures Join(sep, items + [x]) == Join(sep, items) + sep + x
    decreases |items|
  {
    if |items| == 1 {
      assert items + [x] == [items[0], x];
    } else {
      assert (items + [x])[1..] == items[1..] + [x];
      JoinSnoc(sep, items[1..], x);
    }
  }

  /** A block of newline-terminated lines, as the OBJ writer emits it, splits
      back into exactly those lines. */
  lemma LinesOfBlock(lines: seq<string>)
    requires |lines| > 0
    requires forall i :: 0 <= i < |lines| ==> '\n' !in lines[i]
    ensures Lines(Join("\n", lines) + "\n") == lines
  {
    JoinSnoc("\n", lines, "");
    assert Join("\n", lines) + "\n" == Join("\n", lines + [""]);
    SplitJoin(lines + [""], '\n');
    assert (lines + [""])[..|lines|] == lines;
  }

  /** Lines each followed by a newline, as built by repeated `"{}\n".format(...)`. */
  function Terminated(lines: seq<string>): string
  {
    if |lines| == 0 then "" else lines[0] + "\n" + Terminated(lines[1..])
  }

  lemma {:induction false} TerminatedAppend(a: seq<string>, b: seq<string>)
    ensures Terminated(a + b) == Terminated(a) + Terminated(b)
    decreases |a|
  {
    if |a| == 0 {
      assert a + b == b;
    } else {
      assert (a + b)[1..] == a[1..] + b;
      TerminatedAppend(a[1..], b);
    }
  }

  /** Splitting newline-terminated lines at newlines gives the lines and an
      empty remainder, so `Lines` reads them back. */
  lemma {:induction false} TerminatedLines(lines: seq<string>)
    requires forall i :: 0 <= i < |lines| ==> '\n' !in lines[i]
    ensures Split(Terminated(lines), '\n') == lines + [""]
    ensures Lines(Terminated(lines)) == lines
    decreases |lines|
  {
    if |lines| > 0 {
      TerminatedLines(lines[1..]);
      SplitAfterFirst(lines[0], Terminated(lines[1..]), '\n');
      assert [lines[0]] + (lines[1..] + [""]) == lines + [""];
    }
    assert (lines + [""])[..|lines|] == lines;
  }

  /** A non-empty `sep.join` followed by `sep` and more items is one join. */
  lemma {:induction false} JoinAppend(sep: string, a: seq<string>, b: seq<string>)
    requires |a| > 0 && |b| > 0
    ensures Join(sep, a + b) == Join(sep, a) + sep + Join(sep, b)
    decreases |a|
  {
    if |a| == 1 {
      assert (a + b)[1..] == b;
    } else {
      assert (a + b)[1..] == a[1..] + b;
      JoinAppend(sep, a[1..], b);
    }
  }

  /** A character in neither the separator nor any item is not in the join. */
  lemma {:induction false} JoinAvoids(sep: string, items: seq<string>, ch: char)
    requires ch !in sep
    requires forall i :: 0 <= i < |items| ==> ch !in items[i]
    ensures ch !in Join(sep, items)
    decreases |items|
  {
    if |items| > 1 {
      JoinAvoids(sep, items[1..], ch);
    }
  }

  /** Joining non-empty lines with newlines and ending with one more newline
      is the same as terminating every line. */
  lemma {:induction false} JoinTerminated(lines: seq<string>)
    requires |lines| > 0
    ensures Join("\n", lines) + "\n" == Terminated(lines)
    decreases |lines|
  {
    if |lines| > 1 {
      JoinTerminated(lines[1..]);
    }
  }

  // ---------------------------------------------------------------------------
  // Decimal numerals: how `str.format` renders an integer, and a reader for it.

  function Digit(d: nat): char
    requires d < 10
  {
    ('0' as int + d) as char
  }

  function DigitValue(ch: char): nat
    requires '0' <= ch <= '9'
  {
    ch as int - '0' as int
  }

  predicate IsDigits(s: string) {
    |s| > 0 && forall i :: 0 <= i < |s| ==> '0' <= s[i] <= '9'
  }

  /** The decimal numeral of `n`, without leading zeros. */
  function NatText(n: nat): (r: string)
    ensures IsDigits(r)
    decreases n
  {
    if n < 10 then [Digit(n)] else NatText(n / 10) + [Digit(n % 10)]
  }

  /** `"{}".format(i)` for an integer `i`. */
  function IntText(i: int): (r: Word)
    ensures i < 0 <==> r[0] == '-'
  {
    var digits := if i < 0 then NatText(-i) else NatText(i);
    assert forall k :: 0 <= k < |digits| ==> digits[k] !in " \n,[]-";
    if i < 0 then "-" + digits else digits
  }

  function ParseNat(s: string): nat
    requires IsDigits(s)
    decreases |s|
  {
    if |s| == 1 then DigitValue(s[0])
    else ParseNat(s[..|s| - 1]) * 10 + DigitValue(s[|s| - 1])
  }

  /** Python's `int(s)` restricted to an optional minus sign followed by digits. */
  function ParseInt(s: string): Option<int>
  {
    if |s| > 1 && s[0] == '-' && IsDigits(s[1..]) then
      var magnitude: int := ParseNat(s[1..]);
      Some(-magnitude)
    else if IsDigits(s) then Some(ParseNat(s) as int)
    else None
  }

  lemma {:induction false} ParseNatText(n: nat)
    ensures ParseNat(NatText(n)) == n
    decreases n
  {
    if n >= 10 {
      var s := NatText(n);
      assert s[..|s| - 1] == NatText(n / 10);
      ParseNatText(n / 10);
    }
  }

  /** Reading a rendered integer gives the integer back. */
  lemma ParseIntText(i: int)
    ensures ParseInt(IntText(i)) == Some(i)
  {
    var s := IntText(i);
    if i < 0 {
      var digits := NatText(-i);
      assert s == "-" + digits;
      assert s[1..] == digits;
      ParseNatText(-i);
    } else {
      assert s == NatText(i);
      assert s[0] != '-';
      ParseNatText(i);
    }
  }

  // ---------------------------------------------------------------------------
  // `str.format` called with positional arguments only: `{}` fields take the
  // arguments in turn, and a named field `{key}` finds no keyword argument.

  /** A replacement field: automatically numbered `{}`, or named `{key}`. */
  datatype Field = Auto | Named(key: string)

  /** A format string, given by the literal text before, between and after
      its replacement fields. */
  datatype Template = Template(literals: seq<string>, fields: seq<Field>)

  type FormatString = t: Template | |t.literals| == |t.fields| + 1 witness Template([""], [])

  function FieldCount(t: FormatString): nat
  {
    |t.fields|
  }

  /** The position of the first named field, or the number of fields when
      every field is `{}`. */
  function FirstNamed(fields: seq<Field>): (i: nat)
    ensures i <= |fields|
    ensures forall j :: 0 <= j < i ==> fields[j].Auto?
    ensures i < |fields| ==> fields[i].Named?
  {
    if |fields| == 0 || fields[0].Named? then 0 else 1 + FirstNamed(fields[1..])
  }

  /** Every field is `{}`. */
  predicate Positional(t: FormatString)
  {
    FirstNamed(t.fields) == |t.fields|
  }

  /** `t.format(*args)`, fields filled left to right: the first field that
      cannot be filled raises, `IndexError` for a `{}` past the last
      argument and `KeyError` for a named field; surplus arguments are
      ignored. */
  function Format(t: FormatString, args: seq<string>): (r: Result<string>)
    ensures var n := FirstNamed(t.fields);
            if |args| < n then r == Err(MissingFormatArgument)
            else if n < FieldCount(t) then r == Err(MissingKey(t.fields[n].key))
            else r.Ok?
    decreases |t.fields|
  {
    if |t.fields| == 0 then Ok(t.literals[0])
    else if t.fields[0].Named? then Err(MissingKey(t.fields[0].key))
    else if |args| == 0 then Err(MissingFormatArgument)
    else
      var rest :- Format(Template(t.literals[1..], t.fields[1..]), args[1..]);
      Ok(t.literals[0] + args[0] + rest)
  }

  /** The format string `lead + sep.join("{}" for _ in range(k)) + trail`. */
  function Fields(lead: string, sep: string, trail: string, k: nat): (t: FormatString)
    ensures FieldCount(t) == k && Positional(t)
  {
    if k == 0 then Template([lead + trail], [])
    else Template([lead] + seq(k - 1, _ => sep) + [trail], seq(k, _ => Auto))
  }

  lemma {:induction false} FillSeparated(lead: string, sep: string, trail: string, args: seq<string>)
    requires |args| > 0
    ensures Format(Template([lead] + seq(|args| - 1, _ => sep) + [trail], seq(|args|, _ => Auto)), args)
         == Ok(lead + Join(sep, args) + trail)
    decreases |args|
  {
    var t := Template([lead] + seq(|args| - 1, _ => sep) + [trail], seq(|args|, _ => Auto));
    var rest := Template(t.literals[1..], t.fields[1..]);
    if |args| == 1 {
      assert rest == Template([trail], []);
    } else {
      assert rest == Template([sep] + seq(|args| - 2, _ => sep) + [trail], seq(|args| - 1, _ => Auto));
      FillSeparated(sep, sep, trail, args[1..]);
      assert t.literals[0] == lead && t.fields[0] == Auto;
      assert Format(t, args) == Ok(lead + args[0] + (sep + Join(sep, args[1..]) + trail));
      assert Join(sep, args) == args[0] + sep + Join(sep, args[1..]);
      assert lead + args[0] + (sep + Join(sep, args[1..]) + trail) == lead + Join(sep, args) + trail;
    }
  }

  /** A format string of `k` fields separated by `sep` renders `k` values as
      their `sep`-join, wrapped in the surrounding text. */
  lemma FormatFields(lead: string, sep: string, trail: string, args: seq<string>)
    requires |args| > 0
    ensures Format(Fields(lead, sep, trail, |args|), args) == Ok(lead + Join(sep, args) + trail)
  {
    FillSeparated(lead, sep, trail, args);
  }

  /** Formats every row with `t`, stopping at the first row that lacks values. */
  function FormatRows(t: FormatString, rows: seq<seq<string>>): (r: Result<seq<string>>)
    ensures r.Ok? <==> forall k :: 0 <= k < |rows| ==> Format(t, rows[k]).Ok?
    ensures |rows| > 0 && Format(t, rows[0]).Err? ==> r == Err(Format(t, rows[0]).error)
    ensures r.Ok? ==> |r.value| == |rows|
    ensures r.Ok? ==> forall k :: 0 <= k < |rows| ==> Format(t, rows[k]) == Ok(r.value[k])
  {
    if |rows| == 0 then Ok([])
    else
      var first :- Format(t, rows[0]);
      var rest :- FormatRows(t, rows[1..]);
      assert forall k :: 1 <= k < |rows| ==> rows[k] == rows[1..][k - 1];
      Ok([first] + rest)
  }

  /** The shared body of `VertexArray.fmt` and `FaceArray.fmt`:
      `prefix + sep.join(fmtstr.format(*row) for row in rows) + suffix`. */
  function FormatBlock(t: FormatString, rows: seq<seq<string>>, prefix: string, suffix: string, sep: string)
    : (r: Result<string>)
    ensures r.Ok? <==> FormatRows(t, rows).Ok?
    ensures r.Ok? ==> r.value == prefix + Join(sep, FormatRows(t, rows).value) + suffix
  {
    var lines :- FormatRows(t, rows);
    Ok(prefix + Join(sep, lines) + suffix)
  }

  // ---------------------------------------------------------------------------
  // The `n item(s)` phrase of the array representations.

  /** `"{} {}".format(n, one if n == 1 else many)`. */
  function Counted(n: nat, one: string, many: string): string
  {
    IntText(n) + " " + (if n == 1 then one else many)
  }

  /** The phrase splits into the numeral, which reads back as `n`, and the
      noun, which is the singular one exactly when `n` is 1. */
  lemma CountedReadsBack(n: nat, one: string, many: string)
    requires ' ' !in one && ' ' !in many && one != many
    ensures |Split(Counted(n, one, many), ' ')| == 2
    ensures ParseInt(Split(Counted(n, one, many), ' ')[0]) == Some(n)
    ensures Split(Counted(n, one, many), ' ')[1] == one <==> n == 1
  {
    var noun := if n == 1 then one else many;
    assert ' ' !in IntText(n);
    SplitAfterFirst(IntText(n), noun, ' ');
    SplitWithoutSeparator(noun, ' ');
    ParseIntText(n);
  }
}

=== FILE: transforms.dfy ===
/** Vertex transforms (topos/core/transforms.py): `geometry >> transform`
    builds a new mesh whose vertices are the transform applied to a copy of
    the geometry's vertices, keeping its faces and its name.  `Scale`
    multiplies chosen coordinates by constant factors.
 */
module Transforms {
  import opened Errors
  import opened Wrappers
  import opened Arrays
  import opened Vertices
  import opened Geometries

  /** `Scale(dx, dy, dz, dr, dt)`, also what `scale(...)` returns: an
      optional factor per coordinate. */
  datatype Scale = Scale(dx: Option<real>, dy: Option<real>, dz: Option<real>, dr: Option<real>, dt: Option<real>)

  /** `values * factor` for a float vector and a number. */
  function Scaled(xs: seq<real>, f: real): (r: seq<real>)
    ensures |r| == |xs|
    ensures forall k :: 0 <= k < |xs| ==> r[k] == xs[k] * f
  {
    seq(|xs|, k requires 0 <= k < |xs| => xs[k] * f)
  }

  /** One iteration of `Scale.transform`: with a factor, read the coordinate
      through its getter and write back the product through its setter (an
      array of the right shape, so the assignment always succeeds); without
      one, leave the array alone. */
  function ScaleAxis(m: FloatMath, va: VertexArray, a: Axis, factor: Option<real>): (r: VertexArray)
    ensures r.system == va.system && Length(r) == Length(va)
    ensures factor.None? ==> r == va
    ensures factor.Some? && NativeColumn(va.system, a).Some? ==>
              forall k :: 0 <= k < Length(r) ==>
                r.data[k].At(NativeColumn(va.system, a).value) == va.data[k].At(NativeColumn(va.system, a).value) * factor.value
    ensures forall k, c :: 0 <= k < Length(r) && 0 <= c < 3 && c !in Written(va.system, a) ==>
              r.data[k].At(c) == va.data[k].At(c)
  {
    if factor.None? then va
    else
      var values := Scaled(Coordinate(m, va, a), factor.value);
      Assign(m, va, a, Nd(Vector(values))).value
  }

  /** A step is the property assignment `verts.<a> = verts.<a> * factor`:
      the product has the array's length, so the setter accepts it. */
  lemma ScaleAxisAssigns(m: FloatMath, va: VertexArray, a: Axis, f: real)
    ensures var values := Scaled(Coordinate(m, va, a), f);
            Assign(m, va, a, Nd(Vector(values))) == Ok(ScaleAxis(m, va, a, Some(f)))
            && ScaleAxis(m, va, a, Some(f)) == SetAxis(m, va, a, values)
  {
  }

  /** `Scale.transform(verts)`: the factors applied in the order x, y, z, r, t. */
  function Transform(m: FloatMath, s: Scale, va: VertexArray): (r: VertexArray)
    ensures r.system == va.system && Length(r) == Length(va)
  {
    var afterX := ScaleAxis(m, va, X, s.dx);
    var afterY := ScaleAxis(m, afterX, Y, s.dy);
    var afterZ := ScaleAxis(m, afterY, Z, s.dz);
    var afterR := ScaleAxis(m, afterZ, R, s.dr);
    ScaleAxis(m, afterR, T, s.dt)
  }

  /** With no factor set the transform leaves the vertices as they are. */
  lemma NoFactorsIsIdentity(m: FloatMath, va: VertexArray)
    ensures Transform(m, Scale(None, None, None, None, None), va) == va
  {
  }

  /** One scaling step on a native axis rewrites exactly that column of
      each row. */
  lemma ScaleAxisRow(m: FloatMath, va: VertexArray, a: Axis, c: nat, f: real, k: nat)
    requires NativeColumn(va.system, a) == Some(c) && k < Length(va)
    ensures ScaleAxis(m, va, a, Some(f)).system == va.system
    ensures ScaleAxis(m, va, a, Some(f)).data[k] == va.data[k].With(c, va.data[k].At(c) * f)
  {
    var r := ScaleAxis(m, va, a, Some(f));
    var w := va.data[k].With(c, va.data[k].At(c) * f);
    assert Written(va.system, a) == {c};
    assert forall d :: 0 <= d < 3 ==> r.data[k].At(d) == w.At(d);
  }

  /** On a Cartesian array, factors for `x`, `y` and `z` scale each row
      componentwise. */
  lemma ScaleCartesianRows(m: FloatMath, va: VertexArray, fx: real, fy: real, fz: real)
    requires va.system == Cartesian
    ensures var r := Transform(m, Scale(Some(fx), Some(fy), Some(fz), None, None), va);
            forall k :: 0 <= k < Length(va) ==>
              r.data[k] == Vec3(va.data[k].c0 * fx, va.data[k].c1 * fy, va.data[k].c2 * fz)
  {
    ScaleCartesianChain(m, va, fx, fy, fz);
    forall k | 0 <= k < Length(va) {
      ScaleCartesianRow(m, va, fx, fy, fz, k);
    }
  }

  lemma ScaleCartesianChain(m: FloatMath, va: VertexArray, fx: real, fy: real, fz: real)
    ensures Transform(m, Scale(Some(fx), Some(fy), Some(fz), None, None), va)
         == ScaleAxis(m, ScaleAxis(m, ScaleAxis(m, va, X, Some(fx)), Y, Some(fy)), Z, Some(fz))
  {
    var a3 := ScaleAxis(m, ScaleAxis(m, ScaleAxis(m, va, X, Some(fx)), Y, Some(fy)), Z, Some(fz));
    assert ScaleAxis(m, a3, R, None) == a3;
  }

  lemma ScaleCartesianRow(m: FloatMath, va: VertexArray, fx: real, fy: real, fz: real, k: nat)
    requires va.system == Cartesian && k < Length(va)
    ensures ScaleAxis(m, ScaleAxis(m, ScaleAxis(m, va, X, Some(fx)), Y, Some(fy)), Z, Some(fz)).data[k]
         == Vec3(va.data[k].c0 * fx, va.data[k].c1 * fy, va.data[k].c2 * fz)
  {
    ScaleCartesianPlane(m, va, fx, fy, k);
    ScaleHeightRow(m, ScaleAxis(m, ScaleAxis(m, va, X, Some(fx)), Y, Some(fy)), fz, k);
  }

  lemma ScaleHeightRow(m: FloatMath, va: VertexArray, fz: real, k: nat)
    requires va.system == Cartesian && k < Length(va)
    ensures ScaleAxis(m, va, Z, Some(fz)).data[k] == Vec3(va.data[k].c0, va.data[k].c1, va.data[k].c2 * fz)
  {
    ScaleAxisRow(m, va, Z, 2, fz, k);
  }

  lemma ScaleCartesianPlane(m: FloatMath, va: VertexArray, fx: real, fy: real, k: nat)
    requires va.system == Cartesian && k < Length(va)
    ensures var a2 := ScaleAxis(m, ScaleAxis(m, va, X, Some(fx)), Y, Some(fy));
            a2.system == Cartesian && k < Length(a2)
            && a2.data[k] == Vec3(va.data[k].c0 * fx, va.data[k].c1 * fy, va.data[k].c2)
  {
    var a1 := ScaleAxis(m, va, X, Some(fx));
    ScaleAxisRow(m, va, X, 0, fx, k);
    ScaleAxisRow(m, a1, Y, 1, fy, k);
  }

  /** On a cylindrical array, factors for `r` and `t` scale the stored
      radius and angle of each row `(θ, z, r)` and keep its height. */
  lemma ScaleCylindricalRows(m: FloatMath, va: VertexArray, fr: real, ft: real)
    requires va.system == Cylindrical
    ensures var r := Transform(m, Scale(None, None, None, Some(fr), Some(ft)), va);
            forall k :: 0 <= k < Length(va) ==>
              r.data[k] == Vec3(va.data[k].c0 * ft, va.data[k].c1, va.data[k].c2 * fr)
  {
    ScaleCylindricalChain(m, va, fr, ft);
    forall k | 0 <= k < Length(va) {
      ScaleCylindricalRow(m, va, fr, ft, k);
    }
  }

  lemma ScaleCylindricalChain(m: FloatMath, va: VertexArray, fr: real, ft: real)
    ensures Transform(m, Scale(None, None, None, Some(fr), Some(ft)), va)
         == ScaleAxis(m, ScaleAxis(m, va, R, Some(fr)), T, Some(ft))
  {
    var a1 := ScaleAxis(m, va, X, None);
    assert a1 == va;
    var a2 := ScaleAxis(m, a1, Y, None);
    assert a2 == va;
    var a3 := ScaleAxis(m, a2, Z, None);
    assert a3 == va;
  }

  lemma ScaleCylindricalRow(m: FloatMath, va: VertexArray, fr: real, ft: real, k: nat)
    requires va.system == Cylindrical && k < Length(va)
    ensures ScaleAxis(m, ScaleAxis(m, va, R, Some(fr)), T, Some(ft)).data[k]
         == Vec3(va.data[k].c0 * ft, va.data[k].c1, va.data[k].c2 * fr)
  {
    var a4 := ScaleAxis(m, va, R, Some(fr));
    ScaleAxisRow(m, va, R, 2, fr, k);
    ScaleAxisRow(m, a4, T, 0, ft, k);
  }

  /** Scaling only `z` multiplies the `z` column, in either system, and keeps
      the other two stored columns. */
  lemma ScaleHeight(m: FloatMath, va: VertexArray, fz: real)
    ensures var r := Transform(m, Scale(None, None, Some(fz), None, None), va);
            forall k :: 0 <= k < Length(va) ==>
              r.data[k].At(ZColumn(va.system)) == va.data[k].At(ZColumn(va.system)) * fz
              && forall c :: 0 <= c < 3 && c != ZColumn(va.system) ==> r.data[k].At(c) == va.data[k].At(c)
  {
    var r := ScaleAxis(m, va, Z, Some(fz));
    assert Transform(m, Scale(None, None, Some(fz), None, None), va) == r;
    assert NativeColumn(va.system, Z) == Some(ZColumn(va.system));
    assert Written(va.system, Z) == {ZColumn(va.system)};
  }

  // ---------------------------------------------------------------------------
  // `geometry >> transform`

  /** `other >> transform` (`VertexTransform.__rrshift__`).  `other` is `None`
      when the left operand is not a geometry.  The geometry's vertices are
      read (a world view may raise), copied (missing vertices raise),
      transformed; then its faces and name are read and a new mesh built. */
  function Rshift(m: FloatMath, s: Scale, other: Option<Geometry>): (r: Result<Geometry>)
    ensures other.None? ==> r == Err(NotAGeometry)
    ensures other.Some? ==>
              (r.Ok? <==> VerticesOf(m, other.value).Ok? && VerticesOf(m, other.value).value.Some? && FacesOf(other.value).Ok?)
    ensures other.Some? && VerticesOf(m, other.value) == Ok(None) ==> r == Err(NoneHasNoAttribute("copy"))
    ensures r.Ok? ==> r.value.Mesh? && r.value.verts.Some?
  {
    if other.None? then Err(NotAGeometry)
    else
      var g := other.value;
      var v :- VerticesOf(m, g);
      if v.None? then Err(NoneHasNoAttribute("copy"))
      else
        var moved := Transform(m, s, v.value);
        var f :- FacesOf(g);
        NewMesh(Present(moved), if f.None? then Absent else Present(f.value), Some(NameOf(g)))
  }

  /** The new mesh carries the transformed vertices, the source's faces and
      the source's name, which is `"Geometry"` when the source has none. */
  lemma RshiftKeepsFacesAndName(m: FloatMath, s: Scale, g: Geometry)
    requires VerticesOf(m, g).Ok? && VerticesOf(m, g).value.Some? && FacesOf(g).Ok?
    ensures var r := Rshift(m, s, Some(g));
            r.Ok?
            && VerticesOf(m, r.value) == Ok(Some(Transform(m, s, VerticesOf(m, g).value.value)))
            && FacesOf(r.value) == FacesOf(g)
            && NameOf(r.value) == NameOf(g)
            && (g.Mesh? && g.meshName.None? ==> NameOf(r.value) == StrName("Geometry"))
  {
  }

  /** A mesh with vertices, sent through a scale with no factors, comes back
      as a mesh with the same vertices and faces and its name made explicit. */
  lemma RshiftIdentity(m: FloatMath, g: Geometry)
    requires g.Mesh? && g.verts.Some?
    ensures Rshift(m, Scale(None, None, None, None, None), Some(g)) == Ok(Mesh(g.verts, g.faces, Some(NameOf(g))))
  {
    NoFactorsIsIdentity(m, g.verts.value);
  }
}

=== FILE: vertices.dfy ===
/** Vertex arrays (topos/core/vertices.py): an `(n, 3)` buffer tagged with the
    coordinate system it natively stores.  Cartesian rows are `(x, y, z)`;
    cylindrical rows are stored in the order `(θ, z, r)`.

    The trigonometric and square-root conversions are floating-point numpy
    calls; they are a parameter (`FloatMath`), so what is proved here is where
    each value is read from and written to, never a numerical identity.
 */
module Vertices {
  import opened Errors
  import opened Wrappers
  import opened Arrays
  import Text

  datatype System = Cartesian | Cylindrical {
    /** `type(self).__name__` */
    function Name(): string {
      if Cartesian? then "Cartesian" else "Cylindrical"
    }
  }

  /** One row of a buffer, columns 0, 1 and 2. */
  datatype Vec3 = Vec3(c0: real, c1: real, c2: real) {

    function At(col: nat): real
      requires col < 3
    {
      if col == 0 then c0 else if col == 1 then c1 else c2
    }

    function With(col: nat, v: real): (r: Vec3)
      requires col < 3
      ensures r.At(col) == v
      ensures forall c :: 0 <= c < 3 && c != col ==> r.At(c) == At(c)
    {
      if col == 0 then Vec3(v, c1, c2) else if col == 1 then Vec3(c0, v, c2) else Vec3(c0, c1, v)
    }

    function Plus(o: Vec3): Vec3 {
      Vec3(c0 + o.c0, c1 + o.c1, c2 + o.c2)
    }

    function Cells(): seq<real> {
      [c0, c1, c2]
    }
  }

  /** The coordinate names a vertex array understands: `x`, `y`, `z`, `r`, `t`. */
  datatype Axis = X | Y | Z | R | T

  /** numpy's `cos`, `sin`, `arctan2`, `sqrt` and floating-point division. */
  datatype FloatMath = FloatMath(
    cos: real -> real,
    sin: real -> real,
    atan2: (real, real) -> real,
    sqrt: real -> real,
    div: (real, real) -> real)

  datatype VertexArray = VertexArray(system: System, data: seq<Vec3>)

  // ---------------------------------------------------------------------------
  // Construction, length, representation

  /** `Cartesian(data)` / `Cylindrical(data)`: only a numpy array of shape
      `(n, 3)` is accepted, and its rows become the buffer. */
  function FromValue(system: System, v: Value): (r: Result<VertexArray>)
    ensures r.Ok? <==> v.Nd? && |v.arr.shape| == 2 && v.arr.shape[1] == 3
    ensures r.Err? ==> r.error == (if v.Nd? then BadShape else NotAnArray)
    ensures r.Ok? ==> r.value.system == system && Length(r.value) == v.arr.shape[0]
    ensures r.Ok? ==> forall k, c :: 0 <= k < Length(r.value) && 0 <= c < 3 ==>
                        r.value.data[k].At(c) == Cell(v.arr, k, c)
  {
    match v
    case NotNd => Err(NotAnArray)
    case Nd(a) =>
      if |a.shape| != 2 || a.shape[1] != 3 then Err(BadShape)
      else
        var n := a.shape[0];
        Ok(VertexArray(system, seq(n, k requires 0 <= k < n => Vec3(Cell(a, k, 0), Cell(a, k, 1), Cell(a, k, 2)))))
  }

  /** The `(n, 3)` float array holding the given rows. */
  function ToArray(rows: seq<Vec3>): (a: Array)
    ensures a.shape == [|rows|, 3]
    ensures forall k, c :: 0 <= k < |rows| && 0 <= c < 3 ==> Cell(a, k, c) == rows[k].At(c)
  {
    RealMatrix(seq(|rows|, k requires 0 <= k < |rows| => rows[k].Cells()), 3)
  }

  /** Constructing from an array built from rows gives back exactly those rows. */
  lemma FromToArray(system: System, rows: seq<Vec3>)
    ensures FromValue(system, Nd(ToArray(rows))) == Ok(VertexArray(system, rows))
  {
    var r := FromValue(system, Nd(ToArray(rows)));
    assert r.Ok?;
    var va := r.value;
    assert |va.data| == |rows|;
    forall k | 0 <= k < |rows|
      ensures va.data[k] == rows[k]
    {
      assert va.data[k].At(0) == rows[k].At(0);
      assert va.data[k].At(1) == rows[k].At(1);
      assert va.data[k].At(2) == rows[k].At(2);
    }
    assert va.data == rows;
  }

  /** `length`: the number of rows. */
  function Length(va: VertexArray): nat {
    |va.data|
  }

  /** `__repr__`, e.g. `Cartesian Array: 1 vertex`. */
  function Repr(va: VertexArray): string {
    va.system.Name() + " Array: " + Text.Counted(Length(va), "vertex", "vertices")
  }

  /** The representation reads `<System> Array: `, then the count, which
      parses back to the length, then `vertex` exactly when there is one row. */
  lemma ReprCount(va: VertexArray)
    ensures var head := va.system.Name() + " Array: ";
            var parts := Text.Split(Repr(va)[|head|..], ' ');
            Repr(va)[..|head|] == head
            && |parts| == 2
            && Text.ParseInt(parts[0]) == Some(Length(va) as int)
            && (parts[1] == "vertex" <==> Length(va) == 1)
  {
    var head := va.system.Name() + " Array: ";
    var phrase := Text.Counted(Length(va), "vertex", "vertices");
    assert Repr(va) == head + phrase;
    assert Repr(va)[|head|..] == phrase;
    Text.CountedReadsBack(Length(va), "vertex", "vertices");
  }

  // ---------------------------------------------------------------------------
  // Conversions and per-axis reads

  /** `Cartesian.cylindrical` for one row: `(atan2(y, x), z, sqrt(x² + y²))`. */
  function CylindricalOf(m: FloatMath, p: Vec3): Vec3 {
    Vec3(m.atan2(p.c1, p.c0), p.c2, m.sqrt(p.c0 * p.c0 + p.c1 * p.c1))
  }

  /** `Cylindrical.cartesian` for one row `(θ, z, r)`: `(r cos θ, r sin θ, z)`. */
  function CartesianOf(m: FloatMath, q: Vec3): Vec3 {
    Vec3(q.c2 * m.cos(q.c0), q.c2 * m.sin(q.c0), q.c1)
  }

  /** The column holding `z` in each system's row layout. */
  function ZColumn(s: System): nat {
    if s == Cartesian then 2 else 1
  }

  /** `va.cartesian` (`to == Cartesian`) or `va.cylindrical`: the buffer itself
      in the native system, a converted copy otherwise.  `z` is carried over
      unconverted, from its column in one layout to its column in the other. */
  function View(m: FloatMath, va: VertexArray, to: System): (r: seq<Vec3>)
    ensures |r| == Length(va)
    ensures to == va.system ==> r == va.data
    ensures forall k :: 0 <= k < |r| ==> r[k].At(ZColumn(to)) == va.data[k].At(ZColumn(va.system))
  {
    if to == va.system then va.data
    else if to == Cartesian then seq(|va.data|, k requires 0 <= k < |va.data| => CartesianOf(m, va.data[k]))
    else seq(|va.data|, k requires 0 <= k < |va.data| => CylindricalOf(m, va.data[k]))
  }

  /** The view an axis getter reads (`x`, `y`, `z` from the Cartesian view,
      `r`, `t` from the cylindrical one) and the column it reads there. */
  function ViewFor(a: Axis): System {
    if a in {X, Y, Z} then Cartesian else Cylindrical
  }

  function ViewColumn(a: Axis): nat
    ensures ViewColumn(a) < 3
  {
    match a
    case X => 0
    case Y => 1
    case Z => 2
    case R => 2
    case T => 0
  }

  /** The buffer column that stores an axis natively, if the system has one:
      Cartesian `x → 0, y → 1, z → 2`; cylindrical `t → 0, z → 1, r → 2`. */
  function NativeColumn(s: System, a: Axis): (r: Option<nat>)
    ensures r.Some? ==> r.value < 3
    ensures r.Some? <==> ViewFor(a) == s || a == Z
  {
    match (s, a)
    case (Cartesian, X) => Some(0)
    case (Cartesian, Y) => Some(1)
    case (Cartesian, Z) => Some(2)
    case (Cylindrical, T) => Some(0)
    case (Cylindrical, Z) => Some(1)
    case (Cylindrical, R) => Some(2)
    case _ => None
  }

  /** The getter `va.x`, `va.y`, `va.z`, `va.r` or `va.t`.  An axis the
      system stores natively is read straight from its column. */
  function Coordinate(m: FloatMath, va: VertexArray, a: Axis): (r: seq<real>)
    ensures |r| == Length(va)
    ensures NativeColumn(va.system, a).Some? ==>
              forall k :: 0 <= k < |r| ==> r[k] == va.data[k].At(NativeColumn(va.system, a).value)
  {
    var rows := View(m, va, ViewFor(a));
    seq(|rows|, k requires 0 <= k < |rows| => rows[k].At(ViewColumn(a)))
  }

  // ---------------------------------------------------------------------------
  // Per-axis writes (`set_x` … `set_t` of each concrete class)

  /** The buffer columns a setter overwrites: one column for a native axis; the
      coupled pair for a foreign one (Cartesian `r`, `t` rewrite `x` and `y`;
      cylindrical `x`, `y` rewrite `θ` and `r`). */
  function Written(s: System, a: Axis): set<nat> {
    match NativeColumn(s, a)
    case Some(c) => {c}
    case None => if s == Cartesian then {0, 1} else {0, 2}
  }

  /** One row of a setter with new value `v`. */
  function SetRow(m: FloatMath, s: System, a: Axis, p: Vec3, v: real): Vec3 {
    match NativeColumn(s, a)
    case Some(c) => p.With(c, v)
    case None =>
      if s == Cartesian && a == R then
        var t := CylindricalOf(m, p).c0;
        Vec3(v * m.cos(t), v * m.sin(t), p.c2)
      else if s == Cartesian then
        var rho := CylindricalOf(m, p).c2;
        Vec3(rho * m.cos(v), rho * m.sin(v), p.c2)
      else if a == X then
        var t := m.atan2(CartesianOf(m, p).c1, v);
        Vec3(t, p.c1, m.div(v, m.cos(t)))
      else
        var t := m.atan2(v, CartesianOf(m, p).c0);
        Vec3(t, p.c1, m.div(v, m.sin(t)))
  }

  /** `va.set_<a>(vs)` on a buffer of matching length.  Columns outside
      `Written` keep their values; a native axis receives `vs` verbatim; a
      foreign Cartesian write stores the Cartesian image of the cylindrical
      point with the new coordinate and the other, previous one; a foreign
      cylindrical write stores the angle of the Cartesian point with the new
      coordinate and the previous other one, and as radius the new
      coordinate divided by that angle's cosine (`x`) or sine (`y`). */
  function SetAxis(m: FloatMath, va: VertexArray, a: Axis, vs: seq<real>): (r: VertexArray)
    requires |vs| == Length(va)
    ensures r.system == va.system && Length(r) == Length(va)
    ensures forall k, c :: 0 <= k < Length(r) && 0 <= c < 3 && c !in Written(va.system, a) ==>
              r.data[k].At(c) == va.data[k].At(c)
    ensures NativeColumn(va.system, a).Some? ==>
              forall k :: 0 <= k < Length(r) ==> r.data[k].At(NativeColumn(va.system, a).value) == vs[k]
    ensures va.system == Cartesian && a == R ==>
              forall k :: 0 <= k < Length(r) ==>
                r.data[k] == CartesianOf(m, Vec3(CylindricalOf(m, va.data[k]).c0, va.data[k].c2, vs[k]))
    ensures va.system == Cartesian && a == T ==>
              forall k :: 0 <= k < Length(r) ==>
                r.data[k] == CartesianOf(m, Vec3(vs[k], va.data[k].c2, CylindricalOf(m, va.data[k]).c2))
    ensures va.system == Cylindrical && a == X ==>
              forall k :: 0 <= k < Length(r) ==>
                r.data[k].c0 == CylindricalOf(m, Vec3(vs[k], CartesianOf(m, va.data[k]).c1, va.data[k].c1)).c0
                && r.data[k].c2 == m.div(vs[k], m.cos(r.data[k].c0))
    ensures va.system == Cylindrical && a == Y ==>
              forall k :: 0 <= k < Length(r) ==>
                r.data[k].c0 == CylindricalOf(m, Vec3(CartesianOf(m, va.data[k]).c0, vs[k], va.data[k].c1)).c0
                && r.data[k].c2 == m.div(vs[k], m.sin(r.data[k].c0))
  {
    var rows := seq(|vs|, k requires 0 <= k < |vs| => SetRow(m, va.system, a, va.data[k], vs[k]));
    VertexArray(va.system, rows)
  }

  /** The property setter `va.<a> = value` for a value that is not callable:
      it must be a numpy array of shape `(length,)`. */
  function Assign(m: FloatMath, va: VertexArray, a: Axis, value: Value): (r: Result<VertexArray>)
    ensures r.Ok? <==> value.Nd? && value.arr.shape == [Length(va)]
    ensures value.NotNd? ==> r == Err(NotAnArray)
    ensures value.Nd? && !r.Ok? ==> r == Err(BadShape)
    ensures r.Ok? ==> r.value == SetAxis(m, va, a, Flat(value.arr))
  {
    match value
    case NotNd => Err(NotAnArray)
    case Nd(arr) =>
      if arr.shape != [Length(va)] then Err(BadShape)
      else Ok(SetAxis(m, va, a, Flat(arr)))
  }

  /** Writing a natively stored axis and reading it back gives the values
      written. */
  lemma NativeSetThenGet(m: FloatMath, va: VertexArray, a: Axis, vs: seq<real>)
    requires |vs| == Length(va) && NativeColumn(va.system, a).Some?
    ensures Coordinate(m, SetAxis(m, va, a, vs), a) == vs
  {
  }

  /** Writing one native axis leaves every other native axis as it was. */
  lemma NativeSetKeepsOthers(m: FloatMath, va: VertexArray, a: Axis, b: Axis, vs: seq<real>)
    requires |vs| == Length(va) && a != b
    requires NativeColumn(va.system, a).Some? && NativeColumn(va.system, b).Some?
    ensures Coordinate(m, SetAxis(m, va, a, vs), b) == Coordinate(m, va, b)
  {
    var r := SetAxis(m, va, a, vs);
    var cb := NativeColumn(va.system, b).value;
    assert cb !in Written(va.system, a);
  }

  /** Any write other than to `z` leaves the `z` coordinate unchanged, in
      either system. */
  lemma SetKeepsZ(m: FloatMath, va: VertexArray, a: Axis, vs: seq<real>)
    requires |vs| == Length(va) && a != Z
    ensures Coordinate(m, SetAxis(m, va, a, vs), Z) == Coordinate(m, va, Z)
  {
    assert ZColumn(va.system) !in Written(va.system, a);
  }

  /** Writes to two different native axes commute. */
  lemma NativeSetsCommute(m: FloatMath, va: VertexArray, a: Axis, b: Axis, u: seq<real>, w: seq<real>)
    requires |u| == Length(va) && |w| == Length(va) && a != b
    requires NativeColumn(va.system, a).Some? && NativeColumn(va.system, b).Some?
    ensures SetAxis(m, SetAxis(m, va, a, u), b, w) == SetAxis(m, SetAxis(m, va, b, w), a, u)
  {
    var left := SetAxis(m, SetAxis(m, va, a, u), b, w);
    var right := SetAxis(m, SetAxis(m, va, b, w), a, u);
    forall k | 0 <= k < Length(va)
      ensures left.data[k] == right.data[k]
    {
      assert forall c :: 0 <= c < 3 ==> left.data[k].At(c) == right.data[k].At(c);
    }
  }

  // ---------------------------------------------------------------------------
  // Addition

  /** The right operand of `va + other`. */
  datatype Operand = VertexOperand(va: VertexArray) | ArrayOperand(arr: Array) | OtherOperand

  /** `va + other`.  Another vertex array is concatenated with ITS rows first,
      both converted to `va`'s system; a shape-`(3,)` array translates every
      row; anything else raises.  The result has `va`'s class. */
  function Add(m: FloatMath, va: VertexArray, other: Operand): (r: Result<VertexArray>)
    ensures r.Ok? <==> other.VertexOperand? || (other.ArrayOperand? && other.arr.shape == [3])
    ensures other.OtherOperand? ==> r == Err(UnsupportedOperand)
    ensures other.ArrayOperand? && !r.Ok? ==> r == Err(BadShape)
    ensures r.Ok? ==> r.value.system == va.system
    ensures other.VertexOperand? ==>
              Length(r.value) == Length(other.va) + Length(va)
              && r.value.data[..Length(other.va)] == View(m, other.va, va.system)
              && r.value.data[Length(other.va)..] == va.data
    ensures other.ArrayOperand? && r.Ok? ==>
              Length(r.value) == Length(va)
              && forall k :: 0 <= k < Length(va) ==> r.value.data[k] == va.data[k].Plus(Shift(other.arr))
  {
    match other
    case VertexOperand(o) =>
      var rows := View(m, o, va.system) + va.data;
      assert rows[..Length(o)] == View(m, o, va.system);
      Ok(VertexArray(va.system, rows))
    case ArrayOperand(arr) =>
      if arr.shape != [3] then Err(BadShape)
      else Ok(Translate(va, Shift(arr)))
    case OtherOperand => Err(UnsupportedOperand)
  }

  /** The three components of a shape-`(3,)` array. */
  function Shift(arr: Array): Vec3
    requires arr.shape == [3]
  {
    var v := Flat(arr);
    Vec3(v[0], v[1], v[2])
  }

  function Translate(va: VertexArray, v: Vec3): (r: VertexArray)
    ensures r.system == va.system && Length(r) == Length(va)
    ensures forall k :: 0 <= k < Length(r) ==> r.data[k] == va.data[k].Plus(v)
  {
    VertexArray(va.system, seq(|va.data|, k requires 0 <= k < |va.data| => va.data[k].Plus(v)))
  }

  /** For arrays of one system, concatenation is associative:
      `(a + b) + c == a + (b + c)` (both put `c`'s rows first, then `b`'s, then `a`'s). */
  lemma AddAssociative(m: FloatMath, a: VertexArray, b: VertexArray, c: VertexArray)
    requires a.system == b.system == c.system
    ensures Add(m, Add(m, a, VertexOperand(b)).value, VertexOperand(c))
         == Add(m, a, VertexOperand(Add(m, b, VertexOperand(c)).value))
  {
    var ab := Add(m, a, VertexOperand(b)).value;
    var bc := Add(m, b, VertexOperand(c)).value;
    assert ab.data == b.data + a.data;
    assert bc.data == c.data + b.data;
    var left := Add(m, ab, VertexOperand(c)).value;
    var right := Add(m, a, VertexOperand(bc)).value;
    assert left.data == c.data + (b.data + a.data);
    assert right.data == (c.data + b.data) + a.data;
    assert c.data + (b.data + a.data) == (c.data + b.data) + a.data;
    assert left == right;
  }

  /** For arrays of one system, translating a concatenation translates both
      parts: `(a + b) + v == (a + v) + (b + v)`. */
  lemma TranslateDistributes(m: FloatMath, a: VertexArray, b: VertexArray, v: Array)
    requires a.system == b.system && v.shape == [3]
    ensures Add(m, Add(m, a, VertexOperand(b)).value, ArrayOperand(v))
         == Add(m, Add(m, a, ArrayOperand(v)).value, VertexOperand(Add(m, b, ArrayOperand(v)).value))
  {
    var t := Shift(v);
    var ab := Add(m, a, VertexOperand(b)).value;
    assert ab == VertexArray(a.system, b.data + a.data);
    TranslateConcat(a.system, b.data, a.data, t);
    var av := Translate(a, t);
    var bv := Translate(b, t);
    assert Add(m, a, ArrayOperand(v)).value == av;
    assert Add(m, b, ArrayOperand(v)).value == bv;
    assert Add(m, av, VertexOperand(bv)).value.data == bv.data + av.data;
  }

  /** Translating the rows `x + y` translates `x` and `y` separately. */
  lemma TranslateConcat(s: System, x: seq<Vec3>, y: seq<Vec3>, t: Vec3)
    ensures Translate(VertexArray(s, x + y), t).data
         == Translate(VertexArray(s, x), t).data + Translate(VertexArray(s, y), t).data
  {
    var l := Translate(VertexArray(s, x + y), t).data;
    var r := Translate(VertexArray(s, x), t).data + Translate(VertexArray(s, y), t).data;
    assert |l| == |r|;
    forall k | 0 <= k < |l|
      ensures l[k] == r[k]
    {
      if k < |x| {
        assert r[k] == Translate(VertexArray(s, x), t).data[k];
      } else {
        assert r[k] == Translate(VertexArray(s, y), t).data[k - |x|];
      }
    }
  }

  // ---------------------------------------------------------------------------
  // Multi-axis projection `va[key]`

  /** One element produced by iterating a projection key. */
  datatype KeyItem = Str(s: string) | NonStr

  /** A projection key: a string (iterated character by character), another
      iterable, or an object that cannot be iterated. */
  datatype Key = StrKey(s: string) | ItemsKey(items: seq<KeyItem>) | NotIterableKey

  const Coords: string := "xyzrt"

  /** Python's `s in t` for strings: `s` occurs in `t` as a substring. */
  predicate Occurs(s: string, t: string)
    decreases |t|
  {
    (|s| <= |t| && t[..|s|] == s) || (|t| > 0 && Occurs(s, t[1..]))
  }

  lemma OccursSingle(ch: char, t: string)
    ensures Occurs([ch], t) <==> ch in t
    decreases |t|
  {
    if |t| > 0 {
      OccursSingle(ch, t[1..]);
      assert t == [t[0]] + t[1..];
    }
  }

  function AxisNamed(ch: char): Axis
    requires ch in Coords
  {
    if ch == 'x' then X else if ch == 'y' then Y else if ch == 'z' then Z else if ch == 'r' then R else T
  }

  /** One loop step of `__getitem__`: a non-string item fails the `in` test
      with a TypeError (reported as "not an iterable"); a string that is not
      a substring of `"xyzrt"` is an unknown coordinate; a substring of
      another length (such as `"xy"` or `""`) names no attribute. */
  function ItemAxis(item: KeyItem): (r: Result<Axis>)
    ensures r.Ok? <==> item.Str? && |item.s| == 1 && item.s[0] in Coords
    ensures r.Ok? ==> r.value == AxisNamed(item.s[0])
  {
    match item
    case NonStr => Err(NotIterable)
    case Str(s) =>
      if |s| == 1 then OccursSingle(s[0], Coords); assert s == [s[0]]; (if !Occurs(s, Coords) then Err(UnknownCoordinate(s)) else Ok(AxisNamed(s[0])))
      else if !Occurs(s, Coords) then Err(UnknownCoordinate(s))
      else Err(NoSuchAttribute(s))
  }

  function ItemAxes(items: seq<KeyItem>): (r: Result<seq<Axis>>)
    ensures r.Ok? <==> forall i :: 0 <= i < |items| ==> ItemAxis(items[i]).Ok?
    ensures r.Ok? ==> |r.value| == |items| && forall i :: 0 <= i < |items| ==> r.value[i] == ItemAxis(items[i]).value
  {
    if |items| == 0 then Ok([])
    else
      var a :- ItemAxis(items[0]);
      var rest :- ItemAxes(items[1..]);
      assert forall i :: 1 <= i < |items| ==> items[i] == items[1..][i - 1];
      Ok([a] + rest)
  }

  function KeyItems(key: Key): seq<KeyItem>
    requires !key.NotIterableKey?
  {
    if key.StrKey? then seq(|key.s|, i requires 0 <= i < |key.s| => Str([key.s[i]])) else key.items
  }

  /** `va[key]`: one column per key letter, in key order, repeats allowed.
      For a string key the projection succeeds exactly when the key is a
      non-empty word over `x y z r t`; for any other iterable key, exactly
      when it is non-empty and every item is one such letter. Column `j` of
      row `k` is then row `k` of the getter for item `j`, so `va['x', 'z']`
      and `va['xz']` agree. */
  function Project(m: FloatMath, va: VertexArray, key: Key): (r: Result<seq<seq<real>>>)
    ensures key.NotIterableKey? ==> r == Err(NotIterable)
    ensures key.StrKey? ==> (r.Ok? <==> |key.s| > 0 && forall i :: 0 <= i < |key.s| ==> key.s[i] in Coords)
    ensures key.StrKey? && r.Ok? ==>
              |r.value| == Length(va)
              && forall k, j :: 0 <= k < Length(va) && 0 <= j < |key.s| ==>
                   |r.value[k]| == |key.s| && r.value[k][j] == Coordinate(m, va, AxisNamed(key.s[j]))[k]
    ensures key.ItemsKey? ==>
              (r.Ok? <==> |key.items| > 0 && forall i :: 0 <= i < |key.items| ==> ItemAxis(key.items[i]).Ok?)
    ensures key.ItemsKey? && r.Ok? ==>
              |r.value| == Length(va)
              && forall k, j :: 0 <= k < Length(va) && 0 <= j < |key.items| ==>
                   |r.value[k]| == |key.items| && r.value[k][j] == Coordinate(m, va, ItemAxis(key.items[j]).value)[k]
  {
    if key.NotIterableKey? then Err(NotIterable)
    else
      assert key.StrKey? ==> forall i :: 0 <= i < |key.s| ==> (ItemAxis(KeyItems(key)[i]).Ok? <==> key.s[i] in Coords);
      var axes :- ItemAxes(KeyItems(key));
      if |axes| == 0 then Err(NothingToStack)
      else
        var columns := seq(|axes|, j requires 0 <= j < |axes| => Coordinate(m, va, axes[j]));
        Ok(seq(Length(va), k requires 0 <= k < Length(va) => seq(|axes|, j requires 0 <= j < |axes| => columns[j][k])))
  }

  /** A key of one-letter strings projects like the string of those letters:
      `va['x', 'z'] == va['xz']`. */
  lemma ProjectItemsAsString(m: FloatMath, va: VertexArray, letters: string)
    ensures Project(m, va, ItemsKey(seq(|letters|, i requires 0 <= i < |letters| => Str([letters[i]]))))
         == Project(m, va, StrKey(letters))
  {
    var items := seq(|letters|, i requires 0 <= i < |letters| => Str([letters[i]]));
    assert KeyItems(ItemsKey(items)) == KeyItems(StrKey(letters));
  }

  /** A three-letter key whose letters name the stored columns 0, 1, 2 in
      order projects to the buffer itself. */
  lemma ProjectStoredColumns(m: FloatMath, va: VertexArray, key: string)
    requires |key| == 3 && forall j :: 0 <= j < 3 ==> key[j] in Coords
    requires forall j :: 0 <= j < 3 ==> NativeColumn(va.system, AxisNamed(key[j])) == Some(j)
    ensures Project(m, va, StrKey(key)) == Ok(seq(Length(va), k requires 0 <= k < Length(va) => va.data[k].Cells()))
  {
    var r := Project(m, va, StrKey(key));
    assert r.Ok?;
    var expected := seq(Length(va), k requires 0 <= k < Length(va) => va.data[k].Cells());
    forall k | 0 <= k < Length(va)
      ensures r.value[k] == expected[k]
    {
      ProjectStoredRow(m, va, key, k);
    }
    assert |r.value| == |expected|;
    assert r.value == expected;
  }

  lemma ProjectStoredRow(m: FloatMath, va: VertexArray, key: string, k: nat)
    requires |key| == 3 && forall j :: 0 <= j < 3 ==> key[j] in Coords
    requires forall j :: 0 <= j < 3 ==> NativeColumn(va.system, AxisNamed(key[j])) == Some(j)
    requires k < Length(va)
    ensures Project(m, va, StrKey(key)).Ok?
    ensures Project(m, va, StrKey(key)).value[k] == va.data[k].Cells()
  {
    var row := Project(m, va, StrKey(key)).value[k];
    forall j | 0 <= j < 3
      ensures row[j] == va.data[k].At(j)
    {
      var column := Coordinate(m, va, AxisNamed(key[j]));
      assert row[j] == column[k];
    }
    assert |row| == 3;
  }

  /** `va["xyz"]` of a Cartesian array is its buffer, and `va["tzr"]` of a
      cylindrical one is its buffer: projecting the native letters in storage
      order involves no conversion. */
  lemma ProjectNativeOrder(m: FloatMath, va: VertexArray)
    ensures va.system == Cartesian ==>
              Project(m, va, StrKey("xyz")) == Ok(seq(Length(va), k requires 0 <= k < Length(va) => va.data[k].Cells()))
    ensures va.system == Cylindrical ==>
              Project(m, va, StrKey("tzr")) == Ok(seq(Length(va), k requires 0 <= k < Length(va) => va.data[k].Cells()))
  {
    if va.system == Cartesian {
      ProjectStoredColumns(m, va, "xyz");
    } else {
      ProjectStoredColumns(m, va, "tzr");
    }
  }

  // ---------------------------------------------------------------------------
  // Formatting

  /** `va.fmt(fmtstr, prefix, suffix, sep)`: every row of the CARTESIAN view is
      formatted (numbers rendered by `show`), then joined and wrapped.  As
      soon as there is a row, a named field such as `{x}` raises `KeyError`
      and a fourth `{}` before any named field raises `IndexError`. */
  function Fmt(m: FloatMath, show: real -> Text.Word, va: VertexArray,
               t: Text.FormatString, prefix: string, suffix: string, sep: string): (r: Result<string>)
    ensures r.Ok? <==> Length(va) == 0 || (Text.Positional(t) && Text.FieldCount(t) <= 3)
    ensures Length(va) > 0 && Text.FirstNamed(t.fields) > 3 ==> r == Err(MissingFormatArgument)
    ensures Length(va) > 0 && Text.FirstNamed(t.fields) <= 3 && !Text.Positional(t) ==>
              r == Err(MissingKey(t.fields[Text.FirstNamed(t.fields)].key))
    ensures r.Ok? ==> r.value == prefix + Text.Join(sep, Text.FormatRows(t, Rendered(show, View(m, va, Cartesian))).value) + suffix
  {
    Text.FormatBlock(t, Rendered(show, View(m, va, Cartesian)), prefix, suffix, sep)
  }

  /** The documented `KeyError`: `va.fmt("{x}")` raises for any non-empty
      array. */
  lemma NamedFieldRaises(m: FloatMath, show: real -> Text.Word, va: VertexArray, prefix: string, suffix: string, sep: string)
    requires Length(va) > 0
    ensures Fmt(m, show, va, Text.Template(["", ""], [Text.Named("x")]), prefix, suffix, sep) == Err(MissingKey("x"))
  {
  }

  /** With a format string of three fields separated by `between`, row `k`
      of the Cartesian view becomes `lead`, its three rendered components
      joined by `between`, then `trail`. */
  lemma FmtVertexLines(m: FloatMath, show: real -> Text.Word, va: VertexArray,
                       lead: string, between: string, trail: string, prefix: string, suffix: string, sep: string)
    ensures var t := Text.Fields(lead, between, trail, 3);
            var rendered := Rendered(show, View(m, va, Cartesian));
            Fmt(m, show, va, t, prefix, suffix, sep).Ok?
            && |Text.FormatRows(t, rendered).value| == Length(va)
            && forall k :: 0 <= k < Length(va) ==>
                 Text.FormatRows(t, rendered).value[k] == lead + Text.Join(between, rendered[k]) + trail
  {
    var t := Text.Fields(lead, between, trail, 3);
    var rendered := Rendered(show, View(m, va, Cartesian));
    forall k | 0 <= k < Length(va)
      ensures Text.Format(t, rendered[k]) == Ok(lead + Text.Join(between, rendered[k]) + trail)
    {
      Text.FormatFields(lead, between, trail, rendered[k]);
    }
  }

  /** Each row's three components as text. */
  function Rendered(show: real -> Text.Word, rows: seq<Vec3>): (r: seq<seq<string>>)
    ensures |r| == |rows|
    ensures forall k :: 0 <= k < |r| ==> r[k] == [show(rows[k].c0), show(rows[k].c1), show(rows[k].c2)]
  {
    seq(|rows|, k requires 0 <= k < |rows| => [show(rows[k].c0), show(rows[k].c1), show(rows[k].c2)])
  }
}

=== FILE: views.dfy ===
/** The world view's arithmetic (topos/core/views.py): validating a position
    and adding it, under numpy broadcasting, to the `(n, 3)` array of a
    geometry's Cartesian vertices.
 */
module Views {
  import opened Errors
  import opened Arrays
  import opened Vertices

  /** numpy's broadcasting rule for one pair of dimensions: equal, or one of
      them is 1. */
  predicate Compatible(a: nat, b: nat) {
    a == b || a == 1 || b == 1
  }

  /** The length of the broadcast dimension of two compatible dimensions. */
  function Joint(a: nat, b: nat): nat {
    if a == 1 then b else a
  }

  /** The index read along a dimension of length `len` for broadcast index `i`:
      a dimension of length 1 is stretched. */
  function Pick(i: nat, len: nat): nat {
    if len == 1 then 0 else i
  }

  /** The element of a one-dimensional array for broadcast index `c < 3`. */
  function Along(p: Array, c: nat): real
    requires |p.shape| == 1 && Compatible(3, p.shape[0]) && c < 3
  {
    assert Product(p.shape) == p.shape[0] * Product([]);
    p.elems.At(Pick(c, p.shape[0]))
  }

  /** `Cartesian(verts + position)` for the `(n, 3)` array `verts` given by its
      rows: the rows of the broadcast sum when it is two-dimensional, the
      broadcasting error when the shapes are incompatible, and the
      constructor's shape error when the sum has more than two dimensions. */
  function WorldRows(rows: seq<Vec3>, p: Array): (r: Result<seq<Vec3>>)
    ensures |p.shape| == 0 ==> r.Ok? && |r.value| == |rows|
    ensures |p.shape| == 1 ==> (r.Ok? <==> Compatible(3, p.shape[0]))
    ensures |p.shape| == 1 && r.Ok? ==>
              |r.value| == |rows|
              && forall i :: 0 <= i < |rows| ==>
                   r.value[i] == rows[i].Plus(Vec3(Along(p, 0), Along(p, 1), Along(p, 2)))
    ensures |p.shape| == 2 ==> (r.Ok? <==> Compatible(3, p.shape[1]) && Compatible(|rows|, p.shape[0]))
    ensures |p.shape| == 2 && r.Ok? ==> |r.value| == Joint(|rows|, p.shape[0])
    ensures |p.shape| >= 3 ==> r.Err?
    ensures r.Err? ==> r.error == NotBroadcastable || r.error == BadShape
  {
    var n := |rows|;
    var d := |p.shape|;
    if d == 0 then
      assert p.elems.Count() == 1;
      var s := p.elems.At(0);
      Ok(seq(n, i requires 0 <= i < n => rows[i].Plus(Vec3(s, s, s))))
    else if d == 1 then
      if !Compatible(3, p.shape[0]) then Err(NotBroadcastable)
      else
        var v := Vec3(Along(p, 0), Along(p, 1), Along(p, 2));
        Ok(seq(n, i requires 0 <= i < n => rows[i].Plus(v)))
    else if d == 2 then
      var a := p.shape[0];
      var b := p.shape[1];
      if !(Compatible(3, b) && Compatible(n, a)) then Err(NotBroadcastable)
      else
        Ok(seq(Joint(n, a), i requires 0 <= i < Joint(n, a) =>
          rows[Pick(i, n)].Plus(Vec3(Cell(p, Pick(i, a), Pick(0, b)),
                                     Cell(p, Pick(i, a), Pick(1, b)),
                                     Cell(p, Pick(i, a), Pick(2, b))))))
    else if Compatible(3, p.shape[d - 1]) && Compatible(n, p.shape[d - 2]) then Err(BadShape)
    else Err(NotBroadcastable)
  }

  /** A shape-`(3,)` position translates every row: the world rows are the
      rows of the vertex-array sum `Cartesian(rows) + position`. */
  lemma WorldRowsTranslate(m: FloatMath, rows: seq<Vec3>, p: Array)
    requires p.shape == [3]
    ensures WorldRows(rows, p).Ok?
    ensures Add(m, VertexArray(Cartesian, rows), ArrayOperand(p)) == Ok(VertexArray(Cartesian, WorldRows(rows, p).value))
  {
    var world := WorldRows(rows, p).value;
    var sum := Add(m, VertexArray(Cartesian, rows), ArrayOperand(p)).value;
    assert Flat(p)[0] == Along(p, 0) && Flat(p)[1] == Along(p, 1) && Flat(p)[2] == Along(p, 2);
    assert sum.data == world;
  }

  /** `np.array([0., 0., 0.])`: the default position. */
  const Origin: Array := NdArray([3], Floats([0.0, 0.0, 0.0]))

  /** At the default position the world rows are the rows themselves. */
  lemma WorldRowsAtOrigin(rows: seq<Vec3>)
    ensures WorldRows(rows, Origin) == Ok(rows)
  {
    var world := WorldRows(rows, Origin).value;
    var zero := Vec3(Along(Origin, 0), Along(Origin, 1), Along(Origin, 2));
    assert zero == Vec3(0.0, 0.0, 0.0);
    assert |world| == |rows|;
    forall i | 0 <= i < |rows|
      ensures world[i] == rows[i]
    {
      assert world[i] == rows[i].Plus(zero);
    }
    assert world == rows;
  }

  // ---------------------------------------------------------------------------
  // The position setter

  /** The setter `view.position = value`, as written: anything but a numpy
      array raises; then the shape check `len(shape) != 1 and shape[0] != 3`
      raises only for an array that is neither one-dimensional nor three
      long in its first dimension, and indexing the empty shape of a 0-d
      array raises first. */
  function CheckPosition(v: Value): (r: Result<Array>)
    ensures v.NotNd? ==> r == Err(NotAnArray)
    ensures v.Nd? && |v.arr.shape| == 0 ==> r == Err(IndexOutOfRange)
    ensures v.Nd? && |v.arr.shape| > 0 ==> (r.Ok? <==> |v.arr.shape| == 1 || v.arr.shape[0] == 3)
    ensures v.Nd? && |v.arr.shape| > 0 && r.Err? ==> r.error == BadShape
    ensures r.Ok? ==> v.Nd? && r.value == v.arr
  {
    match v
    case NotNd => Err(NotAnArray)
    case Nd(a) =>
      if |a.shape| != 1 && |a.shape| == 0 then Err(IndexOutOfRange)
      else if |a.shape| != 1 && a.shape[0] != 3 then Err(BadShape)
      else Ok(a)
  }

  /** The check as its error message states it: the position must have
      shape `(3,)`. */
  function CheckPositionIntended(v: Value): (r: Result<Array>)
    ensures r.Ok? <==> v.Nd? && v.arr.shape == [3]
    ensures v.NotNd? ==> r == Err(NotAnArray)
    ensures v.Nd? && r.Err? ==> r.error == BadShape
    ensures r.Ok? ==> r.value == v.arr
  {
    match v
    case NotNd => Err(NotAnArray)
    case Nd(a) => if a.shape != [3] then Err(BadShape) else Ok(a)
  }

  /** The intended check is the written one narrowed to shape `(3,)`. */
  lemma IntendedCheckNarrows(v: Value)
    ensures CheckPositionIntended(v).Ok? ==> CheckPosition(v) == CheckPositionIntended(v)
    ensures CheckPositionIntended(v).Ok? <==> CheckPosition(v).Ok? && v.arr.shape == [3]
  {
  }

  /** Every position the intended check accepts keeps the vertex count and
      translates every row. */
  lemma IntendedPositionTranslates(rows: seq<Vec3>, v: Value)
    requires CheckPositionIntended(v).Ok?
    ensures var p := CheckPositionIntended(v).value;
            WorldRows(rows, p).Ok?
            && |WorldRows(rows, p).value| == |rows|
            && forall i :: 0 <= i < |rows| ==>
                 WorldRows(rows, p).value[i] == rows[i].Plus(Vec3(Along(p, 0), Along(p, 1), Along(p, 2)))
  {
  }

  /** The `(3, 3)` array of zeros. */
  const ZeroSquare: Array := NdArray([3, 3], Floats([0.0, 0.0, 0.0, 0.0, 0.0, 0.0, 0.0, 0.0, 0.0]))

  /** `np.zeros(5)`. */
  const ZeroFive: Array := NdArray([5], Floats([0.0, 0.0, 0.0, 0.0, 0.0]))

  /** The written check lets through a `(3, 3)` position, which turns a
      one-vertex geometry into three world vertices, and a `(5,)` position,
      which no vertex array can be added to; the intended check rejects
      both. */
  lemma PositionCheckCounterexample(p: Vec3)
    ensures CheckPosition(Nd(ZeroSquare)) == Ok(ZeroSquare)
    ensures WorldRows([p], ZeroSquare).Ok? && |WorldRows([p], ZeroSquare).value| == 3
    ensures CheckPosition(Nd(ZeroFive)) == Ok(ZeroFive)
    ensures forall rows :: WorldRows(rows, ZeroFive) == Err(NotBroadcastable)
    ensures CheckPositionIntended(Nd(ZeroSquare)) == Err(BadShape)
    ensures CheckPositionIntended(Nd(ZeroFive)) == Err(BadShape)
  {
    assert Product(ZeroSquare.shape) == 9 by {
      ProductOfPair(3, 3);
    }
  }
}
